=== FILE: README.md ===
# mom-gpt core, modelled in Dafny

mom-gpt answers questions about network-health data. It turns JSON records into
normalised text, builds n-gram vocabularies, and stores embeddings in a Milvus vector
store. It picks the collection that best matches a prompt, searches it, and has an
EGPT large-language-model gateway explain what the search found. Around this pipeline
sit a query-state singleton, a crash log, and a few validators.

This project models the deterministic logic between those collaborators. Each store,
model, tokenizer and HTTP call becomes a parameter or an oracle, and the model proves
what the code promises given those. The modules are:

- `Text`, `Seqs`, `Batching`, `Wrappers`: shared string, sequence and windowing helpers,
  and `Option`/`Result`.
- `Normalizer`: both variants of `preprocess_text`, with and without pod identifiers.
- `Vocab`: the vocabulary builder (n-grams, significance, threshold, special-character
  merge).
- `JsonEncoder`, `ModelsEncoder`: the two JSON encoders around the normaliser.
- `VectorRanking`: collection selection.
- `QueryStatus`, `QueryManager`: the query states, the state controller singleton, and
  the state writes around connect and search.
- `Ingestion`: batched insertion of embeddings and of texts with vectors, collection
  creation, and cropping.
- `CrashLog`, `CrashManager`: the crash log writer, reader and manager.
- `Summarizer`: the summarizer's arithmetic and filters.
- `EmbeddingModel`: the embedding-model wrapper's singleton and dimension setter.
- `StorageErrors`, `StorageWriter`: the storage exception and the storage writer.
- `Egpt`, `EgptWrapper`: the EGPT client's request assembly and the query wrapper.
  The second copy of the wrapper, services/model/llm_plugin_epgt/wrapper/EGPT_wrapper.py,
  has the same `Response`, `Prompt` and `execute_query`, so `EgptWrapper` models both.

Python exceptions become `Err` values carrying the message the code raises. Singletons
become explicit state values threaded through calls. Python's floating-point
arithmetic becomes exact `real` arithmetic.

## Model

| member | source | states |
|---|---|---|
| Normalizer.ReplaceNonWord | services/model/embeddings/corpus/json_encoder.py:49 | Every character outside `\w` becomes a space, every `\w` character is kept, and the length is unchanged. |
| Normalizer.Clean | services/model/embeddings/corpus/json_encoder.py:48-51 | After lower-casing and the three substitutions, the text holds only spaces and lower-case word characters. |
| Normalizer.DropSingleLetters | services/model/embeddings/corpus/json_encoder.py:50 | The result is no longer than the input. Which letters go is stated by SingleLetterRunKeepsEveryOther and DropPairOfLetters. |
| Normalizer.CollapseSpaces | services/model/embeddings/corpus/json_encoder.py:51 | Whitespace in the result is only single plain spaces, never two adjacent. The result is no longer than the input and empty iff the input is. It starts with a space iff the input starts with whitespace. |
| Normalizer.FindPods | services/model/embeddings/corpus/json_encoder.py:55 | Every match found is `pod` followed by at least one digit. |
| Normalizer.KeptTokens | services/model/embeddings/corpus/json_encoder.py:52-53 | Every retained token is non-empty, has no whitespace, is not a stop word, and consists of lower-case word characters. |
| Normalizer.PodIds | services/model/embeddings/corpus/json_encoder.py:55 | The pod identifiers are pairwise distinct and are exactly the `pod\d+` matches of the cleaned text. |
| Normalizer.PreprocessText | services/model/embeddings/corpus/json_encoder.py:48-58 | The output is single-spaced (no leading, trailing or repeated whitespace) and lower-case word characters; it splits back into exactly the kept tokens followed by the distinct pod identifiers. |
| Normalizer.PreprocessTextPlain | models/embeddings/corpus/json_encoder.py:28-34 | The models variant has the same shape, splits back into exactly the kept tokens, and contains no stop word. |
| Normalizer.VariantsDifferByPods | models/embeddings/corpus/json_encoder.py:33-34 | The services variant's tokens are the models variant's tokens followed by the pod identifiers; the two agree when the text has no pod match. |
| Normalizer.PodsAppendedOnce | services/model/embeddings/corpus/json_encoder.py:55-56 | Every pod identifier found appears after the kept tokens, and no identifier appears twice there. |
| Normalizer.KeptPodAppearsTwice | services/model/embeddings/corpus/json_encoder.py:52-56 | A pod identifier that is not a stop word is both kept as a token and appended, so `pod7` becomes `pod7 pod7`. |
| Normalizer.SingleLetterRunKeepsEveryOther | services/model/embeddings/corpus/json_encoder.py:50 | The single-letter substitution makes one non-overlapping pass. In a run of n single letters between single spaces, only the 2nd, 4th, ... letters survive: n/2 of them (rounded down), each between single spaces. So ` a b c d ` becomes ` b d `. |
| Normalizer.DropPairOfLetters | services/model/embeddings/corpus/json_encoder.py:50 | In ` c d `, only the first letter is removed. |
| Vocab.SpecialsToSpaces | services/model/embeddings/corpus/vocab.py:72 | Each special character becomes a space and every other character is kept, so no special character remains. |
| Vocab.RemoveSpecials | services/model/embeddings/corpus/vocab.py:105 | The cleaned term has no special character, and a term without one is unchanged. |
| Vocab.NgramsOfSize | services/model/embeddings/corpus/vocab.py:73-74 | There is one n-gram per start index in `range(len(words) - n + 1)`, and none when that range is empty. |
| Vocab.NgramIsWindow | services/model/embeddings/corpus/vocab.py:74 | Each n-gram is its window of words joined by single spaces, so the `strip()` changes nothing. |
| Vocab.UnigramsThenBigrams | services/model/embeddings/corpus/vocab.py:69-75 | With the range (1, 2), a text yields its w words, then its max(w-1, 0) adjacent pairs joined by one space. |
| Vocab.GenerateNgrams | services/model/embeddings/corpus/vocab.py:58-75 | The n-grams of every text, text after text. What each text contributes is stated by UnigramsThenBigrams, GenerateNgramsShape and NgramsFreeOfSpecials. |
| Vocab.GenerateNgramsShape | services/model/embeddings/corpus/vocab.py:72-74 | Every generated n-gram is single-spaced and holds no special character. |
| Vocab.NgramsFreeOfSpecials | services/model/embeddings/corpus/vocab.py:72-74 | When the space is not special, no n-gram contains a special character or has whitespace at either end. |
| Vocab.IsSignificant | services/model/embeddings/corpus/vocab.py:90-93 | A term is significant iff it contains an alphabetic character, so numeric terms and numeric bigrams are rejected. |
| Vocab.DynamicThreshold | services/model/embeddings/corpus/vocab.py:45-46 | The mean count over the total is exactly 1 / (number of distinct n-grams). |
| Vocab.FilteredItems | services/model/embeddings/corpus/vocab.py:41-50 | A term is kept iff it occurs, its share reaches the threshold and it is significant; it keeps its exact count; terms are distinct; no n-gram gives no item. |
| Vocab.MergeCleanedKeys | services/model/embeddings/corpus/vocab.py:103-107 | A cleaned key is present iff some kept term cleans to it. |
| Vocab.MergeCleanedTotal | services/model/embeddings/corpus/vocab.py:103-107 | Merging colliding cleaned terms preserves the total count. |
| Vocab.MergeCleanedIdentity | services/model/embeddings/corpus/vocab.py:103-107 | On distinct terms with no special character, the clean-up changes no key and no count. |
| Vocab.MergeCleaned | services/model/embeddings/corpus/vocab.py:95-107 | Each term, in dict order, is stored under its cleaned form and adds to that form's count. This is stated by MergeCleanedKeys, MergeCleanedTotal and MergeCleanedIdentity. |
| Vocab.BuildVocab | services/model/embeddings/corpus/vocab.py:41-56 | The n-grams are counted, filtered and cleaned up. This is stated by BuildVocabMembers and ThresholdMonotone. |
| Vocab.CreateVocab | services/model/embeddings/corpus/vocab.py:23-56 | The vocabulary of the texts. This is stated by CreateVocabMembers, CreateVocabMonotone, DynamicThresholdIsMean and NoWordsEmptyVocab. |
| Vocab.BuildVocabMembers | services/model/embeddings/corpus/vocab.py:41-53 | On n-grams without special characters, a term is in the vocabulary iff it passes the filter, and it keeps its exact count. |
| Vocab.CreateVocabMembers | services/model/embeddings/corpus/vocab.py:38-56 | From texts, a term is in the vocabulary iff it was generated, its count over the total reaches the threshold and it is significant; its value is its count. |
| Vocab.ThresholdMonotone | services/model/embeddings/corpus/vocab.py:49-50 | For t1 <= t2, the terms kept at t2 are among those kept at t1. |
| Vocab.CreateVocabMonotone | services/model/embeddings/corpus/vocab.py:49-56 | The same subset relation holds for vocabularies built from texts, including after the special-character merge. |
| Vocab.DynamicThresholdIsMean | services/model/embeddings/corpus/vocab.py:45-50 | With no threshold given, a significant term is kept iff its count times the number of distinct n-grams reaches the total, that is, iff it reaches the mean count. |
| Vocab.KeepAtDynamic | services/model/embeddings/corpus/vocab.py:45-50 | At the dynamic threshold, the filter is "significant and count at least the mean". |
| Vocab.NoWordsEmptyVocab | services/model/embeddings/corpus/vocab.py:41-50 | Texts without any word yield no n-gram and an empty vocabulary rather than an error. |
| JsonEncoder.NewEncoder | services/model/embeddings/corpus/json_encoder.py:16-41 | The file is read only when the path is set; no path gives no data; a missing or undecodable file gives the code's exact FileNotFoundError or ValueError. |
| JsonEncoder.PreprocessItemsSpec | services/model/embeddings/corpus/json_encoder.py:68-70 | The kept results are single-spaced and include every item with a non-empty result; their tokens are the items' kept tokens and pods, item after item. |
| JsonEncoder.PreprocessForEncoding | services/model/embeddings/corpus/json_encoder.py:60-71 | No data raises the exact ValueError; otherwise the result is the non-empty stripped preprocessed items, in item order. |
| JsonEncoder.PreprocessForEncodingAppend | services/model/embeddings/corpus/json_encoder.py:68-70 | Encoding concatenated data gives the concatenation of the encodings, so item order is kept. |
| JsonEncoder.PreprocessSingleText | services/model/embeddings/corpus/json_encoder.py:96-107 | An unset path raises the exact ValueError; otherwise the result is single-spaced and splits into the items' tokens and pods, item after item. |
| JsonEncoder.Basename | services/model/embeddings/corpus/json_encoder.py:81 | The basename is the suffix after the last `/`. |
| JsonEncoder.Stem | services/model/embeddings/corpus/json_encoder.py:81 | The name without its extension is the whole name, or a prefix followed by a dot. |
| JsonEncoder.VocabFilePathOf | services/model/embeddings/corpus/json_encoder.py:81-83 | The vocabulary of `<dir>/<stem>.<ext>` is stored at `vocabs/<stem>_vocab.json`, whatever the directory. |
| JsonEncoder.CreateVocabFile | services/model/embeddings/corpus/json_encoder.py:73-94 | An unset path raises the exact ValueError. An existing file is returned as it is. Otherwise the vocabulary is built with the dynamic threshold and stored. No other file changes. |
| JsonEncoder.CreateVocabFileOnce | services/model/embeddings/corpus/json_encoder.py:86-94 | Asking again, even with other texts, returns the stored vocabulary and changes no file. |
| ModelsEncoder.EncodedTextsSpec | models/embeddings/corpus/json_encoder.py:40-44 | Exactly the items whose preprocessed text is non-blank are kept, each single-spaced and free of stop words. |
| ModelsEncoder.EncodedTextsAppend | models/embeddings/corpus/json_encoder.py:40-44 | The kept texts are produced item by item, in input order. |
| ModelsEncoder.EncodeJsonData | models/embeddings/corpus/json_encoder.py:36-54 | There is one embedding per kept text, in completion order: a permutation of the per-text encodings. |
| ModelsEncoder.CompletionOrderMultiset | models/embeddings/corpus/json_encoder.py:47-54 | Any completion order gives the same multiset of embeddings. |
| VectorRanking.VocabNameInjective | services/vector_ranking/vector_ranking.py:46-48 | Vocabulary names are the collection name plus `_vocab`, so distinct collections look up distinct vocabularies. |
| VectorRanking.NewRanker | services/vector_ranking/vector_ranking.py:12-19 | There is exactly one vocabulary and one vectorizer per listed collection, keyed by name, and the vocabulary is the one stored under its vocabulary name. |
| VectorRanking.GenerateEmbeddings | services/vector_ranking/vector_ranking.py:56-64 | There is exactly one embedding per collection that has a vectorizer, and it is that vectorizer's vector of the prompt. |
| VectorRanking.SortDesc | services/vector_ranking/vector_ranking.py:80 | The sort is a permutation of the rankings and is ordered by descending score. |
| VectorRanking.SortDescHead | services/vector_ranking/vector_ranking.py:80-81 | The head of the stable descending sort is the first element with the largest score. |
| VectorRanking.RankCollections | services/vector_ranking/vector_ranking.py:66-82 | The result is None iff there is no collection; otherwise it is a listed collection whose score is at least every other's. |
| VectorRanking.RankCollectionsFirstBest | services/vector_ranking/vector_ranking.py:80-81 | Ties go to the earliest collection: every collection listed before the chosen one scores strictly less. |
| QueryStatus.StatesDistinct | services/query/status/states.py:16-21 | There are exactly six states, each value is the member's own name, and no two values are equal. |
| QueryStatus.Construct | services/query/status/trigger.py:25-34 | Construction returns the shared instance and keeps its current state. |
| QueryStatus.SetCurrentState | services/query/status/trigger.py:45-58 | Any member is accepted from any state. Any other value raises the exact ValueError and leaves the state unchanged. |
| QueryStatus.GetReturnsLastSet | services/query/status/trigger.py:43-56 | The getter returns the most recently set state. |
| QueryStatus.GetCurrentState | services/query/status/trigger.py:36-43 | The current state. GetReturnsLastSet and SharedInstance state that it is the last state accepted. |
| QueryStatus.SharedInstance | services/query/status/trigger.py:22-34 | A fresh process starts in PENDING, and a state set through one construction is seen through the next. |
| QueryStatus.ValueIsNotMember | services/query/status/trigger.py:55-58 | Passing a member's string value instead of the member is rejected. |
| QueryManager.NewManager | services/query/manager/manager.py:26-55 | CONNECTED is written only after the connect call succeeds. A failing connect leaves the state unchanged and propagates its error. The search parameters are L2 with nprobe 10. |
| QueryManager.PerformSearch | services/query/manager/manager.py:57-78 | RUNNING is written first. A failed lookup stops at RUNNING. Otherwise COMPLETED is written before the search, so a failing search still leaves COMPLETED. Every failure becomes QueryException("Database connection failed"). |
| QueryManager.ConnectThenSearch | services/query/manager/manager.py:38-78 | Connect-then-search writes exactly CONNECTED, RUNNING and possibly COMPLETED; STARTED, FAILED and PENDING are never written. |
| QueryManager.SearchRequestFixed | services/query/manager/manager.py:34-76 | Every search uses field "embeddings", L2 with nprobe 10, limit 5, and output fields id and data. |
| CrashLog.WriteCrashRecord | manager/writter/crash_writer.py:30-37 | Exactly one record with the given fields is appended and earlier records are unchanged; the line "Crash recorded: m at l on t" is printed and then logged. |
| CrashLog.ReadLastRecord | manager/reader/crash_reader.py:5-10 | The result is None iff there is no record; otherwise it is the last record. |
| CrashLog.WritesAppendOnly | manager/writter/crash_writer.py:33 | After any sequence of writes, the earlier records are a prefix and the new ones follow in order. |
| CrashLog.ReadAfterWrite | manager/reader/crash_reader.py:7-8 | Reading right after a write returns the record just written. |
| CrashManager.FlagCrash | manager/admin/crash_manager.py:55-57 | One record with the message, the location and the supplied timestamp is appended. |
| CrashManager.ReviewLastCrash | manager/admin/crash_manager.py:59-62 | The result is the newest record's location and the "Reviewing crash" line; an empty log fails with the AttributeError of `None.message`. |
| CrashManager.FlagThenReview | manager/admin/crash_manager.py:55-62 | Reviewing right after flagging returns the flagged location. |
| CrashManager.LoadAndPreprocessData | manager/admin/crash_manager.py:85-92 | At most one text per item is kept. |
| CrashManager.LoadAndPreprocessDataSpec | manager/admin/crash_manager.py:85-92 | Exactly the items with non-blank preprocessed text are kept, single-spaced, in order. |
| Batching.RangeCount | manager/admin/crash_manager.py:26 | The number of values `range(0, n, step)` yields is the least r with r * step >= n. |
| Batching.Windows | manager/admin/crash_manager.py:26-27 | Window k is `xs[k*size : min(k*size + size, n)]` and starts inside the input. |
| Batching.WindowsPartition | manager/admin/crash_manager.py:26-29 | Each window holds 1 to size elements, and the windows concatenate back to the input. |
| Ingestion.InsertEmbeddings | manager/admin/crash_manager.py:24-30 | There are ceil(n/1000) inserts of consecutive windows starting at multiples of 1000, then exactly one load. |
| Ingestion.FirstRaise | manager/admin/crash_manager.py:26-29 | The result is the first window whose insert raises, or the number of windows: every earlier insert succeeds. |
| Ingestion.InsertEmbeddingsOrRaise | manager/admin/crash_manager.py:24-30 | When every insert returns, the calls are those of InsertEmbeddings and the result is whatever the load raises. Otherwise the calls are a proper prefix of them ending at the first raising insert: later windows and the load are skipped, and that error propagates. No error at all iff every insert and the load return. |
| Ingestion.InsertRaisedKeepsEarlier | manager/admin/crash_manager.py:26-29 | When an insert raises (not when only the load does), the inserts before it carry exactly the first 1000·j embeddings, in order, and some embedding remains. |
| Ingestion.InsertEmbeddingsPartition | models/embeddings/bare_testing/embedding_generator_testing/test_JSON_embedding.py:25-31 | Every embedding is inserted exactly once and in order, in batches of 1 to 1000. Load is the last call and the only one; empty input gives just a load. |
| Ingestion.CreateCollection | models/embeddings/bare_testing/embedding_generator_testing/test_JSON_embedding.py:10-22 | A raising connect, existence check or `Collection` call propagates its error. Otherwise the collection is created with the embedding schema iff it is absent, and an existing one leaves the store unchanged. |
| Ingestion.CreateCollectionOnce | models/embeddings/bare_testing/embedding_generator_testing/test_JSON_embedding.py:16-22 | When the store answers, a second call, with any width, creates nothing and changes nothing. |
| Ingestion.BatchInsertAsWritten | services/model/embeddings/bare_testing/insert_collection.py:9-13 | The loop runs ceil(columns/size) times, and each call slices every column with the same window. |
| Ingestion.BatchInsertAsWrittenOneWindow | services/model/embeddings/bare_testing/insert_collection.py:10-13 | With no more columns than the batch size, only the first window of rows is inserted. |
| Ingestion.BatchInsertDropsRows | services/model/embeddings/bare_testing/insert_collection.py:80-88 | Two 3-row columns with size 2 make one insert, and the third row is never inserted. |
| Ingestion.BatchInsert | services/model/embeddings/bare_testing/insert_collection.py:9-13 | With the loop over rows, there are ceil(rows/size) calls, each slicing every column with the same window. |
| Ingestion.BatchInsertPartition | services/model/embeddings/bare_testing/insert_collection.py:12-13 | Columns stay row-aligned in every call, and each column's pieces concatenate back to the column. |
| Ingestion.Crop | services/model/embeddings/bare_testing/insert_collection.py:50-55 | Every cropped text has length at most 65534. Texts within the limit are unchanged. Longer ones are the joined summary cut to 65534. |
| Ingestion.CropOnlySummarizesLong | services/model/embeddings/bare_testing/insert_collection.py:51-53 | The summarizer is consulted only for texts over the limit, and cropping twice changes nothing. |
| Ingestion.CropAll | services/model/embeddings/bare_testing/insert_collection.py:51-55 | There is one cropped text per input, each within the limit, and short texts are unchanged. |
| Ingestion.InsertTextsAndVectors | services/model/embeddings/bare_testing/insert_collection.py:80-88 | With windows over rows, every cropped text and every vector is inserted exactly once, in order, two columns per call. |
| Summarizer.AverageSentenceLength | services/model/summarization/summarizer.py:31 | The result is words per sentence, or the word count when there is no sentence. |
| Summarizer.DynamicLimitPhrases | services/model/summarization/summarizer.py:16-37 | The limit is at least the base, and the limit minus the base is the whole part of wc/100 + sc/10 + avg/20. |
| Summarizer.DynamicLimitClampRedundant | services/model/summarization/summarizer.py:35-37 | The `max` with the base never changes the result. |
| Summarizer.DynamicLimitExample | services/model/summarization/summarizer.py:29-35 | 100 words in one sentence give base + 6. |
| Summarizer.KeywordSections | services/model/summarization/summarizer.py:69-77 | The sections have no duplicates and are exactly the summary sentences that contain a keyword, ignoring case. |
| Summarizer.KeywordSectionsBounds | services/model/summarization/summarizer.py:70-74 | No keywords keep nothing, and the empty keyword keeps every sentence. |
| Summarizer.FindLongestText | services/model/summarization/summarizer.py:79-92 | An empty list gives "". Otherwise the result is an element at least as long as every other, and the first such one. |
| EmbeddingModel.SetEncodingDimensions | services/model/embeddings/embedding_model.py:43-47 | Values 2 to 32768 are stored. Others raise the exact ValueError and leave the dimension unchanged. |
| EmbeddingModel.SetterKeepsLastAccepted | services/model/embeddings/embedding_model.py:39-47 | After an accepted value and then a rejected one, the getter returns the accepted one. |
| EmbeddingModel.Instance | services/model/embeddings/embedding_model.py:18-32 | The first call caches the wrapper before initialising it and fails on a CPU-only machine; later calls return the cached wrapper. |
| EmbeddingModel.InstanceOnce | services/model/embeddings/embedding_model.py:21-24 | A second call ignores its arguments and returns the first wrapper. |
| EmbeddingModel.FailedInitIsCached | services/model/embeddings/embedding_model.py:21-32 | A failed initialisation leaves a half-built wrapper, which the next call returns without error. |
| EmbeddingModel.InitBypassesRange | services/model/embeddings/embedding_model.py:26-47 | Initialisation stores an out-of-range dimension that the setter would reject. |
| StorageErrors.NewStorageException | exceptions/storage/storage_exception.py:4-7 | The message is stored as given, and the details default to none. |
| StorageErrors.Str | exceptions/storage/storage_exception.py:9-11 | The text is the message alone when the details are false, and message + ": " + details otherwise. |
| StorageErrors.StrReadsBack | exceptions/storage/storage_exception.py:9-11 | The text starts with the message, and for one message the details can be read back from it. |
| StorageErrors.FalsyDetails | exceptions/storage/storage_exception.py:10 | An empty string adds nothing; an exception with empty text still adds ": ". |
| StorageWriter.Instance | services/storage/server/cord/storage_coordinator.py:24-50 | The first call creates and connects; a refused connection is recorded as not connected; later calls return the same instance. |
| StorageWriter.InstanceOnce | services/storage/server/cord/storage_coordinator.py:25-33 | A second call, with any encoder and connection, returns the first instance. |
| StorageWriter.FirstMissing | services/storage/server/cord/storage_coordinator.py:60-71 | The result is the first of vectors, index, data and collection name that is None, or nothing when all are given. |
| StorageWriter.InsertDataAndCreateCollection | services/storage/server/cord/storage_coordinator.py:52-106 | A missing argument raises its RuntimeError before any store call. The schema is auto-id INT64, VARCHAR of the given length, and FLOAT_VECTOR of the vectors' width. The create, insert, index and load follow in order, each made only if the earlier ones returned. A storage failure of the insert is wrapped, and anything else any call raises escapes unchanged. The result is Ok iff all four calls return. |
| StorageWriter.InsertArgumentOrder | services/storage/server/cord/storage_coordinator.py:60-71 | The checks run in a fixed order, and the default-index branch is never reached. |
| StorageWriter.CheckedNames | services/storage/server/cord/storage_coordinator.py:111-117 | The compared names are the fields' names, skipping auto-id fields when asked. |
| StorageWriter.SchemaIsSimilarAsWritten | services/storage/server/cord/storage_coordinator.py:109-120 | The nested check has no return statement, so it returns None. |
| StorageWriter.SchemaIsSimilar | services/storage/server/cord/storage_coordinator.py:109-120 | The corrected check holds iff every compared field has data under its name and every key of the data names a compared field. |
| StorageWriter.InsertToCollectionAsWritten | services/storage/server/cord/storage_coordinator.py:108-147 | Missing arguments raise before any lookup, and an unknown collection raises; an existing one always raises "Schema mismatch". |
| StorageWriter.InsertToCollectionNeverUpserts | services/storage/server/cord/storage_coordinator.py:131-132 | Whatever the arguments and the store, the call as written never reaches the upsert. |
| StorageWriter.ComparedFields | services/storage/server/cord/storage_coordinator.py:111-117 | The compared fields are exactly the schema's fields, minus the auto-id ones when the collection has auto-id. |
| StorageWriter.ComparedNames | services/storage/server/cord/storage_coordinator.py:111-117 | The compared fields' names are the names the schema check considers. |
| StorageWriter.EntitiesForAsWritten | services/storage/server/cord/storage_coordinator.py:134-140 | The loop takes the data under every field's name, auto-id fields included, in field order; the first missing field is named in the error. |
| StorageWriter.EntitiesAsWrittenNeedId | services/storage/server/cord/storage_coordinator.py:134-140 | For a collection the writer created, data that passes the corrected check always stops the loop at "id". |
| StorageWriter.EntitiesFor | services/storage/server/cord/storage_coordinator.py:134-140 | The corrected loop takes the data under each compared field's name, in field order; a missing compared field is named in the error. |
| StorageWriter.InsertToCollection | services/storage/server/cord/storage_coordinator.py:108-147 | With the corrected check and loop: None arguments raise RuntimeError, and a missing collection its storage exception. A failed check raises "Schema mismatch…". A missing compared field raises "Missing data for field '…'." for the first one. A failing upsert is wrapped as "Error during data upsert: …". Otherwise the compared fields' values are upserted in field order. |
| StorageWriter.InsertToCollectionUpserts | services/storage/server/cord/storage_coordinator.py:131-147 | Data whose keys are exactly the compared field names is upserted, one value per compared field in field order, with or without auto-id. |
| StorageWriter.CreatedCollectionUpserts | services/storage/server/cord/storage_coordinator.py:134-144 | A collection the writer created (lines 75-79) upserts data keyed "data" and "embeddings" as `[text, vector]`. |
| StorageWriter.CreatedCollectionEntities | services/storage/server/cord/storage_coordinator.py:136-140 | With the loop skipping auto-generated fields, a created collection's data keyed "data" and "embeddings" gives the entities `[text, vector]`, with no "id" needed. |
| Egpt.ExchangeShape | llm_plugin_epgt/llm_egpt.py:75-86 | One previous response contributes its system text only when that is non-empty and differs from the current one, then a user and an assistant message. |
| Egpt.HistoryTurns | llm_plugin_epgt/llm_egpt.py:83-86 | The history's non-system messages are each response's user then assistant message, in conversation order. |
| Egpt.HistorySystems | llm_plugin_epgt/llm_egpt.py:75-82 | The history's system texts are non-empty, each differs from the previous one, and the last is the current system. |
| Egpt.HistorySystemBeforeUser | llm_plugin_epgt/llm_egpt.py:79-86 | In the history, every system message is immediately followed by a user message, and a non-empty history ends with an assistant message. |
| Egpt.History | llm_plugin_epgt/llm_egpt.py:71-86 | At least two messages per earlier exchange. Their order and the system messages are stated by HistoryTurns, HistorySystems and HistorySystemBeforeUser. |
| Egpt.FirstField | llm_plugin_epgt/llm_egpt.py:106 | An empty generation list fails with the index error; otherwise the result is the first generation's entry, or None. |
| Egpt.ChatYield | llm_plugin_epgt/llm_egpt.py:99-106 | A failed status raises its HTTP error (line 28). A reply without "generation_details" fails on `.get` of None. One without "generations" fails on indexing None. An empty list gives the index error. Otherwise the result is the first generation's "content", or None. |
| Egpt.GenerateYield | llm_plugin_epgt/llm_egpt.py:107-114 | A failed status raises its HTTP error (line 44). A reply without "generations" fails on indexing None. An empty list gives the index error. Otherwise the result is the first generation's "text", or None. |
| Egpt.Execute | llm_plugin_epgt/llm_egpt.py:64-114 | A missing key or org id fails its assertion. Chat is used iff the conversation produced messages. Outside chat, a set system is prefixed as "system\nprompt". The request carries the key, the org id and the prompt's routing options. The execution fails exactly when the reply yields an error, and with that error. Otherwise one value is yielded: the first generation's content for chat, its text otherwise. |
| Egpt.ChatEndsWithPrompt | llm_plugin_epgt/llm_egpt.py:92-95 | In a chat, the current prompt is the final user message after the history's user and assistant messages. |
| Egpt.ChatSystems | llm_plugin_epgt/llm_egpt.py:92-94 | The prompt's system is added only when it is non-empty and differs from the last system emitted, so system texts keep changing. |
| Egpt.ChatSystemPlacement | llm_plugin_epgt/llm_egpt.py:79-95 | In a chat, every system message is immediately followed by a user message. The message before the prompt is a system message iff the prompt's system is emitted, and then it is that system text. |
| Egpt.ChatMessages | llm_plugin_epgt/llm_egpt.py:71-95 | More than two messages per earlier exchange, the last being the prompt as a user message. The rest is stated by ChatEndsWithPrompt, ChatSystems and ChatSystemPlacement. |
| Egpt.GenerationText | llm_plugin_epgt/llm_egpt.py:91-97 | The text ends with the prompt. With a non-empty system, it starts with the system followed by a newline; otherwise it is the prompt alone. |
| EgptWrapper.ResponseText | llm_plugin_epgt/wrapper/EGPT_wrapper.py:21-28 | The text is None when there is no JSON, the JSON is empty, or it has no `text` entry; otherwise it is that entry. |
| EgptWrapper.NewResponseHasNoText | llm_plugin_epgt/wrapper/EGPT_wrapper.py:15-28 | A fresh response has no text. |
| EgptWrapper.NewPrompt | llm_plugin_epgt/wrapper/EGPT_wrapper.py:32-46 | The prompt and options are stored as given, and the system defaults to None. |
| EgptWrapper.QueryPromptEmbeds | llm_plugin_epgt/wrapper/EGPT_wrapper.py:92-97 | The template holds the user prompt and the query verbatim, at fixed offsets, between its fixed parts. |
| EgptWrapper.QueryPrompt | llm_plugin_epgt/wrapper/EGPT_wrapper.py:92-97 | The instruction quoting the prompt and the information. This is stated by QueryPromptEmbeds and QueryPromptInjective. |
| EgptWrapper.QueryPromptInjective | llm_plugin_epgt/wrapper/EGPT_wrapper.py:92-97 | For user prompts of one length, two instructions are equal iff both the prompts and the queries are. |
| EgptWrapper.QueryOptions | llm_plugin_epgt/wrapper/EGPT_wrapper.py:85-89 | The options are the client's defaults with org_id set to the handler's. |
| EgptWrapper.ExecuteQuery | llm_plugin_epgt/wrapper/EGPT_wrapper.py:74-105 | A missing key or org id fails the client's assertion. A failed request raises its error, and a reply with no generation fails. Otherwise the result is the first generation's text for the unchanged template, sent as a one-off generation. |
| EgptWrapper.ExecuteQueryNeverChats | llm_plugin_epgt/wrapper/EGPT_wrapper.py:103 | With no conversation, the chat endpoint is never consulted. |

## Left out

- Tokenisation: nltk's `word_tokenize` is replaced by a whitespace split. After the
  substitutions, the text holds only word characters and single spaces. nltk's own
  splitting rules are not modelled.
- Character classes are ASCII only. Whitespace is the ASCII set that Python's
  `isspace()` accepts, including the separators 0x1C-0x1F. Python's Unicode-aware `\w`,
  `lower()`, `isalpha()`, `isdigit()` and `isspace()` beyond ASCII are not modelled.
- Stop words are a parameter. The nltk English list is not reproduced.
- Pod set order: `set(re.findall(...))` has no specified order. The model lists the
  identifiers by first occurrence, and the contracts state only "each exactly once".
- VectorRanking.RankCollections: ranks by the sum of squares instead of the L2 norm.
  The square root is monotone on non-negative numbers, so the chosen collection is
  the same.
- Floating point: thresholds, means and averages are exact reals. Nothing claims bit
  parity with Python floats, or with `np.mean` of an empty list.
- Vocab.CreateVocab: `process_dates` is disabled in the source and is not modelled.
- Vocab.GenerateNgrams / Vocab.CreateVocab: with an empty special-character string,
  the pattern `[]` built at vocab.py:72 and vocab.py:105 is an unterminated character
  set. `re.sub` then raises `re.error` for any non-empty text list, or any non-empty
  vocabulary. The model does not raise and returns the n-grams and the vocabulary. The
  only constructor call, at services/model/embeddings/corpus/json_encoder.py:23, uses the default special characters.
- I/O is modelled as parameters or oracles:
  - pymilvus connect, create, insert, index, load, search and upsert, each with its
    failure as an outcome (except as listed below);
  - the JSON file reads;
  - the vocabulary files (a map from path to vocabulary);
  - the HTTP calls of the EGPT client;
  - the TF-IDF vectorizer;
  - the embedding model's `encode`;
  - the clock behind `_get_current_timestamp`.
- Ingestion.BatchInsert: every insert of `batch_insert` is taken to return, and so is
  every insert of BatchInsertAsWritten. The failure path of a batched insert loop is
  modelled for `insert_embeddings` by Ingestion.InsertEmbeddingsOrRaise. The script's
  own collection, index and load calls around `batch_insert` are not modelled.
- Ingestion.CreateCollection: after a raising call, the collections are not returned.
  Whether the server created the collection before the error is unknown.
- Console and logger output is recorded as an output trace in the crash log only.
  Elsewhere prints are dropped.
- Items are taken as their `json.dumps` text; serialisation itself is not modelled.
- Concurrency: only the models encoder's pool (`as_completed` at
  models/embeddings/corpus/json_encoder.py:47-54) is modelled. ModelsEncoder.EncodeJsonData
  returns its results in some completion order, a permutation of the per-text results.
  The crash manager's `create_embeddings` (crash_manager.py:94-99) is not modelled. Its
  `executor.map` returns results in input order. The timer in collection_recorder.py is
  not part of this model.
- ModelsEncoder.EncodeJsonData: the `encode` oracle is total. An `encode` that raises,
  which `future.result()` re-raises, is not modelled.
- Summarizer: spaCy's sentence segmentation and pytextrank's summary are inputs (a
  sentence count and the summary's sentences). The order of `list(set(...))` is
  unspecified; the model lists sections by first occurrence.
- Model loading, tokenizer, quantisation and device probing are not modelled. The
  device found is a parameter of EmbeddingModel.Instance.
- The direct constructors of EmbeddingModelWrapper and StorageWriter, which only
  raise, are not modelled.
- StorageWriter.InsertToCollectionAsWritten: assumes the pymilvus schema subscript
  `schema['auto_id']` returns the auto-id flag.
- StorageErrors.Str: error details are None, a string, or an exception with its
  `str()`. Other Python objects are not modelled.
- EgptWrapper.ExecuteQuery: the client's storing of the raw JSON into the response
  object is not modelled. The client's `generate` oracle returns the status error or
  the body's generations list.
- Egpt.Execute: `prev_response.text()` of an earlier exchange is taken as a string, and
  its None case is not modelled. An exception from `requests.post` itself (a refused
  connection, a timeout) is not modelled separately; it would propagate as the status
  error does.
- Both EGPT wrappers import services/model/llm_plugin_epgt/llm_egpt.py, which is not
  part of this model. The client in llm_plugin_epgt/llm_egpt.py stands in for it.
- Broken call sites are not modelled; the callee's actual behaviour is modelled
  instead. These are:
  - `creator.get_vocabulary` in services/model/embeddings/corpus/json_encoder.py:113,
    which does not exist;
  - the extra arguments at insertion_test.py:31, tests/query/test.py:24,28 and
    endpoint/main.py:54-57;
  - the logger calls on a `None` logger in manager/admin/crash_manager.py (set at
    line 35, used at lines 66, 72, 82, 103, 115, 118 and 122);
  - `self.encoder.load_json_file(json_data_path)` at manager/admin/crash_manager.py:80.
    The services encoder's `load_json_file` takes no argument
    (services/model/embeddings/corpus/json_encoder.py:31), so the call raises
    TypeError. Its handler at line 82 then fails on the `None` logger;
  - `JSONEncoder(EmbeddingConstants.SALESFORCE_2_R)` at manager/admin/crash_manager.py:39.
    It passes the model name 'Salesforce/SFR-Embedding-2_R' as the JSON file path,
    which services/model/embeddings/corpus/json_encoder.py:26-27 then opens.
- CrashManager.LoadAndPreprocessData: takes the loaded items as input and models the
  filter of lines 85-92 as it would run if the load at line 80 succeeded; as written,
  that load always raises. The load-failure branch (manager/admin/crash_manager.py:79-83)
  and the `manage_json_embedding` and `store_embeddings_in_milvus` drivers are not
  modelled.
- Checkpoint and resume, cosine-similarity and lexical-bonus ranking, and a FAILED
  state written on errors: the code has none of these, so the model has none.

## Findings

| source | as written | input that shows it | evidently intended | confidence | as-written member | corrected member |
|---|---|---|---|---|---|---|
| services/model/embeddings/bare_testing/insert_collection.py:10 | The windows run over `range(0, len(data), batch_size)`, and `len(data)` is the number of columns. | Columns `[["a","b","c"],["x","y","z"]]` with batch size 2 give one insert of rows 0-1; row "c"/"z" is never inserted. At the call site, every row past 1000 is lost. | Loop over the row count, so that every row is inserted once. | high (not executed) | Ingestion.BatchInsertDropsRows | Ingestion.BatchInsertPartition |
| services/storage/server/cord/storage_coordinator.py:109-120 | `schema_is_similar` computes the fields to compare and returns nothing, so `not None` always raises "Schema mismatch". | Any existing collection with any data: the upsert at line 144 is unreachable. | Return whether the data's keys are the compared field names. | high (not executed) | StorageWriter.InsertToCollectionNeverUpserts | StorageWriter.InsertToCollectionUpserts |
| services/storage/server/cord/storage_coordinator.py:136-140 | The entity loop demands data for every schema field, including the auto-generated "id" that the check at lines 111-113 leaves out. | A collection created at lines 75-79 and data `{"data": t, "embeddings": v}`: once the check returns its comparison, the loop raises "Missing data for field 'id'." | Skip the auto-id fields the check skips. | medium (not executed) | StorageWriter.EntitiesAsWrittenNeedId | StorageWriter.CreatedCollectionEntities |

=== FILE: batching.dfy ===
/** Fixed-size windows over a sequence, as produced by a loop over
    `range(0, stop, size)` that slices `[i:i + size]` at each start `i`. */
module Batching {
  import opened Seqs

  /** The number of values `range(0, stop, step)` yields. */
  function RangeCount(stop: nat, step: nat): (r: nat)
    requires step > 0
    ensures forall k :: 0 <= k < r ==> k * step < stop
    ensures r * step >= stop
  {
    var r := (stop + step - 1) / step;
    RangeCountBounds(stop, step, r);
    r
  }

  lemma RangeCountBounds(stop: nat, step: nat, r: nat)
    requires step > 0 && r == (stop + step - 1) / step
    ensures forall k :: 0 <= k < r ==> k * step < stop
    ensures r * step >= stop
  {
    var q := stop + step - 1;
    assert q == r * step + q % step;
    forall k | 0 <= k < r ensures k * step < stop {
      assert k <= r - 1;
      assert k * step <= (r - 1) * step by {
        MulMonoNat(k, r - 1, step);
      }
    }
  }

  lemma MulMonoNat(a: nat, b: nat, c: nat)
    requires a <= b
    ensures a * c <= b * c
  {
  }

  function Min(a: nat, b: nat): nat {
    if a <= b then a else b
  }

  /** The slices `xs[i:i + size]` for `i` in `range(0, len(xs), size)`. */
  function Windows<T>(xs: seq<T>, size: nat): (ws: seq<seq<T>>)
    requires size > 0
    ensures |ws| == RangeCount(|xs|, size)
    ensures forall k {:trigger ws[k]} :: 0 <= k < |ws| ==> k * size < |xs| && ws[k] == xs[k * size..Min(k * size + size, |xs|)]
  {
    var n := RangeCount(|xs|, size);
    seq(n, k requires 0 <= k < n => Slice(xs, k * size, k * size + size))
  }

  /** The elements of the sequences, in order. */
  function Concat<T>(ss: seq<seq<T>>): seq<T> {
    if |ss| == 0 then [] else Concat(ss[..|ss| - 1]) + ss[|ss| - 1]
  }

  /** The windows partition the input: each holds between one and `size` elements, and
      together, in order, they are the input. */
  lemma WindowsPartition<T>(xs: seq<T>, size: nat)
    requires size > 0
    ensures forall k :: 0 <= k < |Windows(xs, size)| ==> 0 < |Windows(xs, size)[k]| <= size
    ensures Concat(Windows(xs, size)) == xs
  {
    var ws := Windows(xs, size);
    WindowsPrefix(xs, size, |ws|);
    assert ws[..|ws|] == ws;
  }

  lemma {:induction false} WindowsPrefix<T>(xs: seq<T>, size: nat, j: nat)
    requires size > 0
    requires j <= |Windows(xs, size)|
    ensures Concat(Windows(xs, size)[..j]) == xs[..Min(j * size, |xs|)]
    decreases j
  {
    if j > 0 {
      WindowsPrefix(xs, size, j - 1);
      WindowsStep(xs, size, j);
      SlicesJoin(xs, (j - 1) * size, Min(j * size, |xs|));
    }
  }

  /** Window `j - 1` starts inside the input and extends the concatenation of the windows
      before it by the input's elements from its start up to the next start. */
  lemma WindowsStep<T>(xs: seq<T>, size: nat, j: nat)
    requires size > 0
    requires 0 < j <= |Windows(xs, size)|
    ensures var a := (j - 1) * size;
      && a < |xs| && a <= Min(j * size, |xs|) && Min(a, |xs|) == a
      && Concat(Windows(xs, size)[..j]) == Concat(Windows(xs, size)[..j - 1]) + xs[a..Min(j * size, |xs|)]
  {
    var ws := Windows(xs, size);
    var a := (j - 1) * size;
    assert a < |xs| && ws[j - 1] == xs[a..Min(a + size, |xs|)];
    assert j * size == a + size by {
      MulSucc(j - 1, size);
    }
    ConcatPrefixSnoc(ws, j);
  }

  lemma SlicesJoin<T>(xs: seq<T>, a: nat, hi: nat)
    requires a <= hi <= |xs|
    ensures xs[..hi] == xs[..a] + xs[a..hi]
  {
  }

  lemma ConcatPrefixSnoc<T>(ss: seq<seq<T>>, j: nat)
    requires 0 < j <= |ss|
    ensures Concat(ss[..j]) == Concat(ss[..j - 1]) + ss[j - 1]
  {
    assert ss[..j][..j - 1] == ss[..j - 1];
  }

  lemma MulSucc(k: nat, size: nat)
    ensures (k + 1) * size == k * size + size
  {
  }

  /** Concatenation distributes over appending. */
  lemma {:induction false} ConcatAppend<T>(a: seq<seq<T>>, b: seq<seq<T>>)
    ensures Concat(a + b) == Concat(a) + Concat(b)
    decreases |b|
  {
    if |b| == 0 {
      assert a + b == a;
    } else {
      assert (a + b)[..|a + b| - 1] == a + b[..|b| - 1];
      ConcatAppend(a, b[..|b| - 1]);
    }
  }

  /** Mapping every element of every window is mapping the windows' concatenation. */
  lemma {:induction false} ConcatMap<T, U>(f: T -> U, ss: seq<seq<T>>)
    ensures Concat(Map((w: seq<T>) => Map(f, w), ss)) == Map(f, Concat(ss))
    decreases |ss|
  {
    if |ss| > 0 {
      var g := (w: seq<T>) => Map(f, w);
      var init := ss[..|ss| - 1];
      ConcatMap(f, init);
      assert Map(g, ss)[..|ss| - 1] == Map(g, init);
      MapConcat(f, Concat(init), ss[|ss| - 1]);
    }
  }
}

=== FILE: crash_log.dfy ===
/** The crash log: a list of crash records shared by a writer that appends to it and a
    reader that looks at its newest entry. What the writer prints and what it sends to
    its logger are returned as outputs. */
module CrashLog {
  import opened Wrappers

  datatype CrashRecord = CrashRecord(message: string, timestamp: string, location: string)

  /** Where a line went: standard output or the crash logger. */
  datatype Output = Printed(line: string) | Logged(line: string)

  function RecordedLine(message: string, location: string, timestamp: string): string {
    "Crash recorded: " + message + " at " + location + " on " + timestamp
  }

  datatype WriteOutcome = WriteOutcome(records: seq<CrashRecord>, outputs: seq<Output>)

  /** `write_crash_record`: one record with the given fields is appended, and the same
      line is printed and then logged. */
  function WriteCrashRecord(records: seq<CrashRecord>, message: string, timestamp: string, location: string)
    : (o: WriteOutcome)
    ensures |o.records| == |records| + 1
    ensures o.records[..|records|] == records
    ensures o.records[|records|] == CrashRecord(message, timestamp, location)
    ensures o.outputs == [Printed(RecordedLine(message, location, timestamp)), Logged(RecordedLine(message, location, timestamp))]
  {
    var line := RecordedLine(message, location, timestamp);
    WriteOutcome(records + [CrashRecord(message, timestamp, location)], [Printed(line), Logged(line)])
  }

  /** `read_last_record`: the newest record, or None for an empty log. */
  function ReadLastRecord(records: seq<CrashRecord>): (r: Option<CrashRecord>)
    ensures r.None? <==> |records| == 0
    ensures r.Some? ==> r.value in records && r.value == records[|records| - 1]
  {
    if |records| > 0 then Some(records[|records| - 1]) else None
  }

  /** The log is append-only: after any sequence of writes, the earlier records are a
      prefix of the log, and the newest record is the last one written. */
  lemma {:induction false} WritesAppendOnly(records: seq<CrashRecord>, writes: seq<CrashRecord>)
    ensures var after := WriteAll(records, writes);
      && after == records + writes
      && (|writes| > 0 ==> ReadLastRecord(after) == Some(writes[|writes| - 1]))
      && (|writes| == 0 ==> ReadLastRecord(after) == ReadLastRecord(records))
    decreases |writes|
  {
    if |writes| > 0 {
      WritesAppendOnly(records, writes[..|writes| - 1]);
      assert writes == writes[..|writes| - 1] + [writes[|writes| - 1]];
    }
  }

  /** The records after writing each of `writes` in turn. */
  function WriteAll(records: seq<CrashRecord>, writes: seq<CrashRecord>): seq<CrashRecord> {
    if |writes| == 0 then records
    else
      var w := writes[|writes| - 1];
      WriteCrashRecord(WriteAll(records, writes[..|writes| - 1]), w.message, w.timestamp, w.location).records
  }

  /** Reading straight after a write returns the record just written. */
  lemma ReadAfterWrite(records: seq<CrashRecord>, message: string, timestamp: string, location: string)
    ensures ReadLastRecord(WriteCrashRecord(records, message, timestamp, location).records)
      == Some(CrashRecord(message, timestamp, location))
  {
  }
}

=== FILE: crash_manager.dfy ===
/** The crash manager: it stamps crash records with the current time, reviews the newest
    one, and prepares JSON items for embedding. The clock is the `timestamp` argument;
    the JSON items are their serialised texts. */
module CrashManager {
  import opened Wrappers
  import opened Text
  import opened Normalizer
  import opened CrashLog
  import JsonEncoder

  /** `flag_crash`: records the crash with the given message and location, stamped with
      the supplied time. */
  function FlagCrash(records: seq<CrashRecord>, message: string, location: string, timestamp: string)
    : (o: WriteOutcome)
    ensures o.records == records + [CrashRecord(message, timestamp, location)]
    ensures o.outputs == [Printed(RecordedLine(message, location, timestamp)), Logged(RecordedLine(message, location, timestamp))]
  {
    WriteCrashRecord(records, message, timestamp, location)
  }

  function ReviewingLine(r: CrashRecord): string {
    "Reviewing crash: " + r.message + " at " + r.location + " on " + r.timestamp
  }

  const NoRecordError: string := "'NoneType' object has no attribute 'message'"

  /** `review_last_crash`: the newest record's location, with the line printed about it;
      an empty log raises AttributeError, since there is no record to describe. */
  function ReviewLastCrash(records: seq<CrashRecord>): (r: Result<(string, string), string>)
    ensures r.Err? <==> |records| == 0
    ensures r.Err? ==> r.error == NoRecordError
    ensures r.Ok? ==> var last := records[|records| - 1];
      r.value == (last.location, ReviewingLine(last))
  {
    match ReadLastRecord(records)
    case None => Err(NoRecordError)
    case Some(last) => Ok((last.location, ReviewingLine(last)))
  }

  /** Flagging a crash and then reviewing returns the flagged location, and the reviewed
      line names the flagged message and time. */
  lemma FlagThenReview(records: seq<CrashRecord>, message: string, location: string, timestamp: string)
    ensures ReviewLastCrash(FlagCrash(records, message, location, timestamp).records)
      == Ok((location, "Reviewing crash: " + message + " at " + location + " on " + timestamp))
  {
  }

  /** The filter of `load_and_preprocess_data`: each item preprocessed by the services
      normaliser, kept when it is not blank, in item order. */
  function LoadAndPreprocessData(items: seq<string>, stopWords: set<string>): (r: seq<string>)
    ensures |r| <= |items|
  {
    NonBlankResults(JsonEncoder.Preprocess(stopWords), items)
  }

  /** The kept texts are exactly the non-empty preprocessed items, each single-spaced,
      and item order is kept. */
  lemma LoadAndPreprocessDataSpec(items: seq<string>, more: seq<string>, stopWords: set<string>)
    ensures forall t :: t in LoadAndPreprocessData(items, stopWords) <==>
      t != "" && exists j :: 0 <= j < |items| && PreprocessText(items[j], stopWords) == t
    ensures forall t :: t in LoadAndPreprocessData(items, stopWords) ==> SingleSpaced(t)
    ensures LoadAndPreprocessData(items + more, stopWords)
         == LoadAndPreprocessData(items, stopWords) + LoadAndPreprocessData(more, stopWords)
  {
    var f := JsonEncoder.Preprocess(stopWords);
    NonBlankResultsSpec(f, items);
    NonBlankResultsAppend(f, items, more);
    forall t | t in LoadAndPreprocessData(items, stopWords) ensures SingleSpaced(t) {
      var j :| 0 <= j < |items| && f(items[j]) == t;
    }
  }
}

=== FILE: egpt.dfy ===
/** The EGPT model client: it checks its credentials, turns a conversation's earlier
    exchanges and the current prompt into either a chat request or a single generation
    prompt, and yields the first generation's content. The gateway is a pair of oracles
    that take the request and return either the error of a failed status or the JSON
    body, whose list of generations (each a JSON object of strings) may be missing. */
module Egpt {
  import opened Wrappers
  import opened Seqs

  datatype Options = Options(
    model: Option<string>,
    clientFeatureId: Option<string>,
    llmProvider: Option<string>,
    gatewayUrl: Option<string>,
    orgId: Option<string>)

  const DefaultOptions: Options := Options(
    Some("gpt-3.5-turbo"), Some("ECOMQLabs"), Some("OpenAI"),
    Some("https://bot-svc-llm.sfproxy.einstein.perf2-uswest2.aws.sfdc.cl"), None)

  datatype Prompt = Prompt(prompt: string, options: Options, system: Option<string>)

  /** An earlier exchange of the conversation: its prompt and its response text. */
  datatype Exchange = Exchange(prompt: Prompt, text: string)

  datatype Role = SystemRole | UserRole | AssistantRole

  datatype Message = Message(role: Role, content: string)

  /** Python truthiness of an optional text. */
  predicate Truthy(s: Option<string>) {
    s.Some? && s.value != ""
  }

  /** Whether a system text is emitted: it is set and differs from the last one emitted. */
  predicate EmitsSystem(system: Option<string>, current: Option<string>) {
    Truthy(system) && system != current
  }

  /** The last system text emitted by the earlier exchanges, or None. */
  function CurrentSystem(exchanges: seq<Exchange>): Option<string> {
    if |exchanges| == 0 then None
    else
      var current := CurrentSystem(exchanges[..|exchanges| - 1]);
      var system := exchanges[|exchanges| - 1].prompt.system;
      if EmitsSystem(system, current) then system else current
  }

  /** The messages of one earlier exchange: its system when it is emitted, then its
      prompt as a user message and its response as an assistant message. */
  function ExchangeMessages(x: Exchange, current: Option<string>): seq<Message> {
    (if EmitsSystem(x.prompt.system, current) then [Message(SystemRole, x.prompt.system.value)] else [])
    + [Message(UserRole, x.prompt.prompt), Message(AssistantRole, x.text)]
  }

  /** The messages of the earlier exchanges. */
  function History(exchanges: seq<Exchange>): (ms: seq<Message>)
    ensures |ms| >= 2 * |exchanges|
  {
    if |exchanges| == 0 then []
    else
      var init := exchanges[..|exchanges| - 1];
      History(init) + ExchangeMessages(exchanges[|exchanges| - 1], CurrentSystem(init))
  }

  /** The user and assistant messages each exchange contributes, in conversation order. */
  function Turns(exchanges: seq<Exchange>): seq<Message> {
    if |exchanges| == 0 then []
    else
      var x := exchanges[|exchanges| - 1];
      Turns(exchanges[..|exchanges| - 1]) + [Message(UserRole, x.prompt.prompt), Message(AssistantRole, x.text)]
  }

  predicate IsSystem(m: Message) {
    m.role == SystemRole
  }

  /** The user and assistant messages, in order. */
  function NonSystem(ms: seq<Message>): seq<Message> {
    if |ms| == 0 then []
    else NonSystem(ms[..|ms| - 1]) + (if IsSystem(ms[|ms| - 1]) then [] else [ms[|ms| - 1]])
  }

  /** The contents of the system messages, in order. */
  function SystemTexts(ms: seq<Message>): seq<string> {
    if |ms| == 0 then []
    else SystemTexts(ms[..|ms| - 1]) + (if IsSystem(ms[|ms| - 1]) then [ms[|ms| - 1].content] else [])
  }

  lemma {:induction false} SplitAppend(a: seq<Message>, b: seq<Message>)
    ensures NonSystem(a + b) == NonSystem(a) + NonSystem(b)
    ensures SystemTexts(a + b) == SystemTexts(a) + SystemTexts(b)
    decreases |b|
  {
    if |b| == 0 {
      assert a + b == a;
    } else {
      assert (a + b)[..|a + b| - 1] == a + b[..|b| - 1];
      SplitAppend(a, b[..|b| - 1]);
    }
  }

  lemma Single(m: Message)
    ensures NonSystem([m]) == if IsSystem(m) then [] else [m]
    ensures SystemTexts([m]) == if IsSystem(m) then [m.content] else []
  {
    assert [m][..0] == [];
  }

  /** Each system text differs from the one emitted before it and is non-empty. */
  predicate SystemsChange(systems: seq<string>) {
    (forall i :: 0 <= i < |systems| ==> systems[i] != "")
    && forall i :: 0 < i < |systems| ==> systems[i] != systems[i - 1]
  }

  lemma SystemsChangeAppend(systems: seq<string>, t: string)
    requires SystemsChange(systems)
    requires t != "" && (|systems| > 0 ==> t != systems[|systems| - 1])
    ensures SystemsChange(systems + [t])
  {
  }

  /** The last system text emitted, or None. */
  function LastSystem(systems: seq<string>): Option<string> {
    if |systems| == 0 then None else Some(systems[|systems| - 1])
  }

  /** One exchange contributes its prompt and response as its non-system messages, and
      its system text exactly when that is emitted. */
  lemma ExchangeShape(x: Exchange, current: Option<string>)
    ensures NonSystem(ExchangeMessages(x, current)) == [Message(UserRole, x.prompt.prompt), Message(AssistantRole, x.text)]
    ensures SystemTexts(ExchangeMessages(x, current))
      == if EmitsSystem(x.prompt.system, current) then [x.prompt.system.value] else []
  {
    var turn := [Message(UserRole, x.prompt.prompt), Message(AssistantRole, x.text)];
    assert turn == [turn[0]] + [turn[1]];
    SplitAppend([turn[0]], [turn[1]]);
    Single(turn[0]);
    Single(turn[1]);
    if EmitsSystem(x.prompt.system, current) {
      var sys := Message(SystemRole, x.prompt.system.value);
      assert ExchangeMessages(x, current) == [sys] + turn;
      SplitAppend([sys], turn);
      Single(sys);
    } else {
      assert ExchangeMessages(x, current) == turn;
    }
  }

  /** The history's user and assistant messages are the exchanges' prompts and
      responses, in order. */
  lemma {:induction false} HistoryTurns(exchanges: seq<Exchange>)
    ensures NonSystem(History(exchanges)) == Turns(exchanges)
    decreases |exchanges|
  {
    if |exchanges| > 0 {
      var init := exchanges[..|exchanges| - 1];
      HistoryTurns(init);
      var x := exchanges[|exchanges| - 1];
      var xs := ExchangeMessages(x, CurrentSystem(init));
      SplitAppend(History(init), xs);
      ExchangeShape(x, CurrentSystem(init));
    }
  }

  /** The history's system texts are non-empty, each differs from the one before it, and
      the last of them is the current system. */
  lemma {:induction false} HistorySystems(exchanges: seq<Exchange>)
    ensures SystemsChange(SystemTexts(History(exchanges)))
    ensures CurrentSystem(exchanges) == LastSystem(SystemTexts(History(exchanges)))
    decreases |exchanges|
  {
    if |exchanges| > 0 {
      HistorySystems(exchanges[..|exchanges| - 1]);
      HistorySystemsStep(exchanges);
    }
  }

  /** The step of `HistorySystems`: one more exchange keeps both facts. */
  lemma HistorySystemsStep(exchanges: seq<Exchange>)
    requires |exchanges| > 0
    requires var init := exchanges[..|exchanges| - 1];
      && SystemsChange(SystemTexts(History(init)))
      && CurrentSystem(init) == LastSystem(SystemTexts(History(init)))
    ensures SystemsChange(SystemTexts(History(exchanges)))
    ensures CurrentSystem(exchanges) == LastSystem(SystemTexts(History(exchanges)))
  {
    var init := exchanges[..|exchanges| - 1];
    var x := exchanges[|exchanges| - 1];
    var current := CurrentSystem(init);
    var xs := ExchangeMessages(x, current);
    SplitAppend(History(init), xs);
    ExchangeShape(x, current);
    var texts := SystemTexts(History(init));
    if EmitsSystem(x.prompt.system, current) {
      SystemsChangeAppend(texts, x.prompt.system.value);
    } else {
      assert SystemTexts(History(exchanges)) == texts + [];
    }
  }

  /** Every system message is immediately followed by a user message. */
  predicate SystemBeforeUser(ms: seq<Message>) {
    forall i :: 0 <= i < |ms| && IsSystem(ms[i]) ==> i + 1 < |ms| && ms[i + 1].role == UserRole
  }

  lemma SystemBeforeUserAppend(a: seq<Message>, b: seq<Message>)
    requires SystemBeforeUser(a) && SystemBeforeUser(b)
    requires |a| > 0 ==> !IsSystem(a[|a| - 1])
    ensures SystemBeforeUser(a + b)
  {
    var ab := a + b;
    forall i | 0 <= i < |ab| && IsSystem(ab[i]) ensures i + 1 < |ab| && ab[i + 1].role == UserRole {
      if i < |a| {
        assert ab[i] == a[i];
        assert i + 1 < |a| && ab[i + 1] == a[i + 1];
      } else {
        assert ab[i] == b[i - |a|];
        assert ab[i + 1] == b[i - |a| + 1];
      }
    }
  }

  /** The history puts each system message right before a user message and, when it is
      not empty, ends with an assistant message. */
  lemma {:induction false} HistorySystemBeforeUser(exchanges: seq<Exchange>)
    ensures SystemBeforeUser(History(exchanges))
    ensures |History(exchanges)| > 0 ==> History(exchanges)[|History(exchanges)| - 1].role == AssistantRole
    decreases |exchanges|
  {
    if |exchanges| > 0 {
      var init := exchanges[..|exchanges| - 1];
      HistorySystemBeforeUser(init);
      var xs := ExchangeMessages(exchanges[|exchanges| - 1], CurrentSystem(init));
      assert SystemBeforeUser(xs);
      SystemBeforeUserAppend(History(init), xs);
      assert History(exchanges)[|History(exchanges)| - 1] == xs[|xs| - 1];
    }
  }

  /** What the gateway is asked: the credentials and routing taken from the prompt's
      options. */
  datatype Settings = Settings(key: string, gatewayUrl: Option<string>, model: Option<string>, orgId: string,
    clientFeatureId: Option<string>, llmProvider: Option<string>)

  /** The settings of a request made with a key and an organisation. */
  function RequestSettings(key: string, orgId: string, o: Options): (s: Settings)
    ensures s.key == key && s.orgId == orgId
    ensures s.gatewayUrl == o.gatewayUrl && s.model == o.model
    ensures s.clientFeatureId == o.clientFeatureId && s.llmProvider == o.llmProvider
  {
    Settings(key, o.gatewayUrl, o.model, orgId, o.clientFeatureId, o.llmProvider)
  }

  datatype Request = Chat(messages: seq<Message>, settings: Settings) | Generate(text: string, settings: Settings)

  /** What one execution did: the request sent and the one value yielded. */
  datatype Execution = Execution(request: Request, yielded: Option<string>)

  const MissingKeyMessage: string := "You must provide an API key for EGPT"
  const MissingOrgMessage: string := "You must provide an Core Org ID for EGPT: -o org_id abcd1234"
  const IndexErrorMessage: string := "list index out of range"

  type Generations = seq<map<string, string>>

  /** The chat endpoint's answer: the error `raise_for_status` raises, or the body, whose
      "generation_details" may be missing and may lack "generations". */
  datatype ChatReply = ChatFailed(status: string) | ChatBody(details: Option<Option<Generations>>)

  /** The generation endpoint's answer: the error `raise_for_status` raises, or the body,
      which may lack "generations". */
  datatype GenerateReply = GenerateFailed(status: string) | GenerateBody(generations: Option<Generations>)

  const NoAttributeMessage: string := "'NoneType' object has no attribute 'get'"
  const NotSubscriptableMessage: string := "'NoneType' object is not subscriptable"

  /** `generations[0].get(field)`, or the index error of an empty list. */
  function FirstField(gens: Generations, field: string): (r: Result<Option<string>, string>)
    ensures r.Err? <==> |gens| == 0
    ensures r.Ok? ==> (r.value.Some? <==> field in gens[0]) && (r.value.Some? ==> r.value.value == gens[0][field])
  {
    if |gens| == 0 then Err(IndexErrorMessage)
    else if field in gens[0] then Ok(Some(gens[0][field])) else Ok(None)
  }

  /** What a chat adds after the history: the prompt's system if it is set and differs
      from the current one, then the prompt as a user message. */
  function PromptMessages(p: Prompt, current: Option<string>): seq<Message> {
    (if EmitsSystem(p.system, current) then [Message(SystemRole, p.system.value)] else [])
    + [Message(UserRole, p.prompt)]
  }

  /** The messages of a chat request: the history, then the prompt's messages. */
  function ChatMessages(p: Prompt, exchanges: seq<Exchange>): (ms: seq<Message>)
    ensures |ms| > 2 * |exchanges|
    ensures ms[|ms| - 1] == Message(UserRole, p.prompt)
  {
    History(exchanges) + PromptMessages(p, CurrentSystem(exchanges))
  }

  lemma PromptShape(p: Prompt, current: Option<string>)
    ensures NonSystem(PromptMessages(p, current)) == [Message(UserRole, p.prompt)]
    ensures SystemTexts(PromptMessages(p, current))
      == if EmitsSystem(p.system, current) then [p.system.value] else []
  {
    var last := [Message(UserRole, p.prompt)];
    Single(last[0]);
    if EmitsSystem(p.system, current) {
      var sys := Message(SystemRole, p.system.value);
      assert PromptMessages(p, current) == [sys] + last;
      SplitAppend([sys], last);
      Single(sys);
    } else {
      assert PromptMessages(p, current) == last;
    }
  }

  /** `data.get('generation_details').get('generations')[0].get('content')` on a chat
      reply: a failed status raises its error, a missing "generation_details" fails on
      `.get` of None, a missing "generations" fails on indexing None, and an empty list
      fails with the index error. */
  function ChatYield(reply: ChatReply): (r: Result<Option<string>, string>)
    ensures r.Ok? <==>
      reply.ChatBody? && reply.details.Some? && reply.details.value.Some? && |reply.details.value.value| > 0
    ensures reply.ChatFailed? ==> r == Err(reply.status)
    ensures reply == ChatBody(None) ==> r == Err(NoAttributeMessage)
    ensures reply == ChatBody(Some(None)) ==> r == Err(NotSubscriptableMessage)
    ensures reply == ChatBody(Some(Some([]))) ==> r == Err(IndexErrorMessage)
    ensures r.Ok? ==> var first := reply.details.value.value[0];
      (r.value.Some? <==> "content" in first) && (r.value.Some? ==> r.value.value == first["content"])
  {
    match reply
    case ChatFailed(status) => Err(status)
    case ChatBody(None) => Err(NoAttributeMessage)
    case ChatBody(Some(None)) => Err(NotSubscriptableMessage)
    case ChatBody(Some(Some(gens))) => FirstField(gens, "content")
  }

  /** `data.get('generations')[0].get('text')` on a generation reply: a failed status
      raises its error, a missing "generations" fails on indexing None, and an empty list
      fails with the index error. */
  function GenerateYield(reply: GenerateReply): (r: Result<Option<string>, string>)
    ensures r.Ok? <==> reply.GenerateBody? && reply.generations.Some? && |reply.generations.value| > 0
    ensures reply.GenerateFailed? ==> r == Err(reply.status)
    ensures reply == GenerateBody(None) ==> r == Err(NotSubscriptableMessage)
    ensures reply == GenerateBody(Some([])) ==> r == Err(IndexErrorMessage)
    ensures r.Ok? ==> var first := reply.generations.value[0];
      (r.value.Some? <==> "text" in first) && (r.value.Some? ==> r.value.value == first["text"])
  {
    match reply
    case GenerateFailed(status) => Err(status)
    case GenerateBody(None) => Err(NotSubscriptableMessage)
    case GenerateBody(Some(gens)) => FirstField(gens, "text")
  }

  /** The single generation prompt: the system and the prompt on two lines when the system
      is set, the prompt alone otherwise. */
  function GenerationText(p: Prompt): (t: string)
    ensures |t| >= |p.prompt| && t[|t| - |p.prompt|..] == p.prompt
    ensures Truthy(p.system) ==>
      |t| > |p.system.value| && t[..|p.system.value|] == p.system.value && t[|p.system.value|] == '\n'
    ensures !Truthy(p.system) ==> t == p.prompt
  {
    if Truthy(p.system) then p.system.value + "\n" + p.prompt else p.prompt
  }

  /** `execute`: the key and the organisation are required; chat is used exactly when the
      conversation produced messages, and one value is yielded, the first generation's
      content for a chat and its text otherwise; a failed request or a reply without a
      generation fails the execution with that error. */
  function Execute(key: Option<string>, p: Prompt, conversation: Option<seq<Exchange>>,
    chat: (seq<Message>, Settings) -> ChatReply, generate: (string, Settings) -> GenerateReply)
    : (r: Result<Execution, string>)
    ensures key.None? ==> r == Err(MissingKeyMessage)
    ensures key.Some? && p.options.orgId.None? ==> r == Err(MissingOrgMessage)
    ensures r.Ok? ==> key.Some? && p.options.orgId.Some?
    ensures r.Ok? ==> (r.value.request.Chat? <==> conversation.Some? && |conversation.value| > 0)
    ensures r.Ok? ==> r.value.request.settings == RequestSettings(key.value, p.options.orgId.value, p.options)
    ensures r.Ok? && r.value.request.Chat? ==>
      r.value.request.messages == ChatMessages(p, conversation.value)
      && ChatYield(chat(r.value.request.messages, r.value.request.settings)) == Ok(r.value.yielded)
    ensures r.Ok? && r.value.request.Generate? ==>
      r.value.request.text == GenerationText(p)
      && GenerateYield(generate(r.value.request.text, r.value.request.settings)) == Ok(r.value.yielded)
    ensures key.Some? && p.options.orgId.Some? && conversation.Some? && |conversation.value| > 0 ==>
      var y := ChatYield(chat(ChatMessages(p, conversation.value),
        RequestSettings(key.value, p.options.orgId.value, p.options)));
      (r.Err? <==> y.Err?) && (y.Err? ==> r == Err(y.error))
    ensures key.Some? && p.options.orgId.Some? && (conversation.None? || |conversation.value| == 0) ==>
      var y := GenerateYield(generate(GenerationText(p), RequestSettings(key.value, p.options.orgId.value, p.options)));
      (r.Err? <==> y.Err?) && (y.Err? ==> r == Err(y.error))
  {
    if key.None? then Err(MissingKeyMessage)
    else if p.options.orgId.None? then Err(MissingOrgMessage)
    else
      var settings := RequestSettings(key.value, p.options.orgId.value, p.options);
      var history := if conversation.Some? then History(conversation.value) else [];
      if |history| > 0 then
        var messages := ChatMessages(p, conversation.value);
        match ChatYield(chat(messages, settings))
        case Err(e) => Err(e)
        case Ok(v) => Ok(Execution(Chat(messages, settings), v))
      else
        var text := GenerationText(p);
        match GenerateYield(generate(text, settings))
        case Err(e) => Err(e)
        case Ok(v) => Ok(Execution(Generate(text, settings), v))
  }

  /** In a chat, the earlier exchanges come first as user then assistant messages in
      order, and the current prompt is the last message, sent as a user message. */
  lemma ChatEndsWithPrompt(p: Prompt, exchanges: seq<Exchange>)
    ensures var ms := ChatMessages(p, exchanges);
      ms[|ms| - 1] == Message(UserRole, p.prompt)
      && NonSystem(ms) == Turns(exchanges) + [Message(UserRole, p.prompt)]
  {
    HistoryTurns(exchanges);
    SplitAppend(History(exchanges), PromptMessages(p, CurrentSystem(exchanges)));
    PromptShape(p, CurrentSystem(exchanges));
  }

  /** The prompt's system is added to a chat only when it is set and differs from the
      last system emitted, so the system texts still change at every step. */
  lemma ChatSystems(p: Prompt, exchanges: seq<Exchange>)
    ensures var before := SystemTexts(History(exchanges));
      SystemTexts(ChatMessages(p, exchanges))
      == before + (if Truthy(p.system) && p.system != LastSystem(before) then [p.system.value] else [])
    ensures SystemsChange(SystemTexts(ChatMessages(p, exchanges)))
  {
    HistorySystems(exchanges);
    SplitAppend(History(exchanges), PromptMessages(p, CurrentSystem(exchanges)));
    PromptShape(p, CurrentSystem(exchanges));
    if EmitsSystem(p.system, CurrentSystem(exchanges)) {
      SystemsChangeAppend(SystemTexts(History(exchanges)), p.system.value);
    } else {
      assert SystemTexts(ChatMessages(p, exchanges)) == SystemTexts(History(exchanges)) + [];
    }
  }

  /** Every system message of a chat is immediately followed by a user message, and the
      message before the prompt is a system message exactly when the prompt's system is
      emitted, in which case it is that system text. */
  lemma ChatSystemPlacement(p: Prompt, exchanges: seq<Exchange>)
    ensures SystemBeforeUser(ChatMessages(p, exchanges))
    ensures var ms := ChatMessages(p, exchanges);
      |exchanges| > 0 ==> |ms| >= 2 && (IsSystem(ms[|ms| - 2]) <==> EmitsSystem(p.system, CurrentSystem(exchanges)))
    ensures var ms := ChatMessages(p, exchanges);
      EmitsSystem(p.system, CurrentSystem(exchanges)) ==> ms[|ms| - 2] == Message(SystemRole, p.system.value)
  {
    var h := History(exchanges);
    var tail := PromptMessages(p, CurrentSystem(exchanges));
    HistorySystemBeforeUser(exchanges);
    assert SystemBeforeUser(tail);
    SystemBeforeUserAppend(h, tail);
    var ms := h + tail;
    if EmitsSystem(p.system, CurrentSystem(exchanges)) {
      assert ms[|ms| - 2] == tail[0];
    } else if |exchanges| > 0 {
      assert ms[|ms| - 2] == h[|h| - 1];
    }
  }
}

=== FILE: egpt_wrapper.dfy ===
/** The EGPT query wrapper: a handler holding the credentials wraps the user's prompt and
    the search results in a fixed instruction template, runs it through the EGPT
    client as a one-off generation, and returns the first value the client yields. */
module EgptWrapper {
  import opened Wrappers
  import opened Egpt

  /** A response object: the JSON the client stores into it, if any. */
  datatype Response = Response(responseJson: Option<map<string, string>>)

  const NewResponse: Response := Response(None)

  /** `Response.text`: the JSON's `text` entry, or None when there is no JSON, when the
      JSON is empty (false in Python) or when it has no such entry. */
  function ResponseText(r: Response): (t: Option<string>)
    ensures t.Some? <==> r.responseJson.Some? && "text" in r.responseJson.value
    ensures t.Some? ==> t.value == r.responseJson.value["text"]
  {
    if r.responseJson.Some? && |r.responseJson.value| > 0 then
      if "text" in r.responseJson.value then Some(r.responseJson.value["text"]) else None
    else None
  }

  /** A fresh response has no text. */
  lemma NewResponseHasNoText()
    ensures ResponseText(NewResponse).None?
  {
  }

  /** `Prompt(prompt, options)`: the system text defaults to None. */
  function NewPrompt(prompt: string, options: Options): (p: Prompt)
    ensures p.prompt == prompt && p.options == options && !Truthy(p.system)
  {
    Prompt(prompt, options, None)
  }

  const Opening: string :=
    "Can you explain the provided information, detailing each field and the percentages along with their "
    + "actual values, based on the user prompt? At the end, please include an interpretation of the values. "
    + "This is the user prompt: '"
  const Middle: string := "'. This is the information you need to use to respond: '"
  const Closing: string := "'. Always respond in the first person and format the information the best you can."

  /** The instruction sent to the model: the fixed text with the user's prompt and the
      information quoted at their places. */
  function QueryPrompt(userPrompt: string, query: string): string {
    Opening + userPrompt + Middle + query + Closing
  }

  /** The instruction carries the user's prompt and the information verbatim, at fixed
      offsets, between the template's fixed parts. */
  lemma QueryPromptEmbeds(userPrompt: string, query: string)
    ensures var t := QueryPrompt(userPrompt, query);
      var u := |Opening|;
      var q := u + |userPrompt| + |Middle|;
      && |t| == |Opening| + |userPrompt| + |Middle| + |query| + |Closing|
      && t[..u] == Opening
      && t[u..u + |userPrompt|] == userPrompt
      && t[u + |userPrompt|..q] == Middle
      && t[q..q + |query|] == query
      && t[q + |query|..] == Closing
  {
    FivePieces(Opening, userPrompt, Middle, query, Closing);
  }

  /** The pieces of a five-part concatenation sit at their offsets. */
  lemma FivePieces(a: string, b: string, c: string, d: string, e: string)
    ensures var t := a + b + c + d + e;
      var i, j, k, l := |a|, |a| + |b|, |a| + |b| + |c|, |a| + |b| + |c| + |d|;
      && |t| == l + |e|
      && t[..i] == a && t[i..j] == b && t[j..k] == c && t[k..l] == d && t[l..] == e
  {
    var t := a + b + c + d + e;
    assert t == (a + b) + (c + (d + e));
    assert t[..|a|] == a;
  }

  /** With user prompts of one length, two instructions are equal exactly when both the
      prompts and the information are: nothing is lost in the template. */
  lemma QueryPromptInjective(u1: string, q1: string, u2: string, q2: string)
    requires |u1| == |u2|
    ensures QueryPrompt(u1, q1) == QueryPrompt(u2, q2) <==> u1 == u2 && q1 == q2
  {
    if QueryPrompt(u1, q1) == QueryPrompt(u2, q2) {
      QueryPromptEmbeds(u1, q1);
      QueryPromptEmbeds(u2, q2);
      var t := QueryPrompt(u1, q1);
      var a := |Opening|;
      var b := a + |u1| + |Middle|;
      assert u1 == t[a..a + |u1|] == u2;
      assert |q1| == |q2|;
      assert q1 == t[b..b + |q1|] == q2;
    }
  }

  /** The handler: the API key it builds its client with and the organisation it queries
      for. */
  datatype Handler = Handler(apiKey: Option<string>, orgId: Option<string>)

  /** The options of a query: the client's defaults with the handler's organisation. */
  function QueryOptions(h: Handler): (o: Options)
    ensures o.orgId == h.orgId
    ensures o.(orgId := None) == DefaultOptions
  {
    DefaultOptions.(orgId := h.orgId)
  }

  /** What the gateway receives for a query of a handler with both credentials. */
  function QuerySettings(key: string, orgId: string): Settings {
    Settings(key, DefaultOptions.gatewayUrl, DefaultOptions.model, orgId,
      DefaultOptions.clientFeatureId, DefaultOptions.llmProvider)
  }

  /** `execute_query`: the client's assertion errors when a credential is missing, the
      gateway's error when the request fails or its reply has no generation, and
      otherwise the first generation's text (None when it has none), obtained by
      generating from the instruction. */
  function ExecuteQuery(h: Handler, userPrompt: string, query: string,
    chat: (seq<Message>, Settings) -> ChatReply, generate: (string, Settings) -> GenerateReply)
    : (r: Result<Option<string>, string>)
    ensures h.apiKey.None? ==> r == Err(MissingKeyMessage)
    ensures h.apiKey.Some? && h.orgId.None? ==> r == Err(MissingOrgMessage)
    ensures h.apiKey.Some? && h.orgId.Some? ==>
      var reply := generate(QueryPrompt(userPrompt, query), QuerySettings(h.apiKey.value, h.orgId.value));
      && (r.Err? <==> !(reply.GenerateBody? && reply.generations.Some? && |reply.generations.value| > 0))
      && (reply.GenerateFailed? ==> r == Err(reply.status))
      && (r.Ok? ==> var first := reply.generations.value[0];
        (r.value.Some? <==> "text" in first) && (r.value.Some? ==> r.value.value == first["text"]))
  {
    var p := NewPrompt(QueryPrompt(userPrompt, query), QueryOptions(h));
    match Execute(h.apiKey, p, None, chat, generate)
    case Err(e) => Err(e)
    case Ok(x) => Ok(x.yielded)
  }

  /** A query never opens a chat: its result does not depend on the chat endpoint. */
  lemma ExecuteQueryNeverChats(h: Handler, userPrompt: string, query: string,
    chat1: (seq<Message>, Settings) -> ChatReply, chat2: (seq<Message>, Settings) -> ChatReply,
    generate: (string, Settings) -> GenerateReply)
    ensures ExecuteQuery(h, userPrompt, query, chat1, generate) == ExecuteQuery(h, userPrompt, query, chat2, generate)
  {
  }
}

=== FILE: embedding_model.dfy ===
/** The embedding-model wrapper's configuration: the once-only shared instance and the
    range-checked encoding dimension. Loading the tokenizer and the model is left out;
    what the device probe finds is a parameter. */
module EmbeddingModel {
  import opened Wrappers

  const SalesforceModel: string := "Salesforce/SFR-Embedding-2_R"
  const FittingDimensions: int := 128
  const MinDimensions: int := 2
  const MaxDimensions: int := 32768

  const RangeMessage: string := "Encoding dimension must be between 2 and 32768."
  const NoDeviceMessage: string := "No suitable GPU or MPS found. A GPU or MPS is needed for optimal performance."

  datatype Device = Cuda | Mps | Cpu

  /** The wrapper: the model name, the encoding dimension, and whether initialisation got
      past the device check. */
  datatype ModelWrapper = ModelWrapper(model: string, encodingDimensions: int, initialised: bool)

  predicate InRange(value: int) {
    MinDimensions <= value <= MaxDimensions
  }

  /** The encoding-dimension getter. */
  function EncodingDimensions(w: ModelWrapper): int {
    w.encodingDimensions
  }

  datatype SetOutcome = SetOutcome(wrapper: ModelWrapper, error: Option<string>)

  /** The encoding-dimension setter: values from 2 to 32768 are stored; any other raises
      ValueError and leaves the wrapper as it was. */
  function SetEncodingDimensions(w: ModelWrapper, value: int): (o: SetOutcome)
    ensures o.error.None? <==> InRange(value)
    ensures InRange(value) ==> EncodingDimensions(o.wrapper) == value && o.wrapper == w.(encodingDimensions := value)
    ensures !InRange(value) ==> o.wrapper == w && o.error == Some(RangeMessage)
  {
    if value < MinDimensions || value > MaxDimensions then SetOutcome(w, Some(RangeMessage))
    else SetOutcome(w.(encodingDimensions := value), None)
  }

  /** The getter returns the last accepted value: a rejected value after an accepted one
      leaves the accepted one in place. */
  lemma SetterKeepsLastAccepted(w: ModelWrapper, good: int, bad: int)
    requires InRange(good) && !InRange(bad)
    ensures EncodingDimensions(SetEncodingDimensions(SetEncodingDimensions(w, good).wrapper, bad).wrapper) == good
  {
  }

  /** `instance()`: the first call caches a new wrapper and initialises it, storing the
      dimension as given; initialisation then fails on a CPU-only machine, after the
      wrapper is already cached. Every later call returns the cached wrapper and ignores
      its arguments. */
  function Instance(cached: Option<ModelWrapper>, model: string, encodingDimensions: int, device: Device)
    : (r: (Option<ModelWrapper>, Result<ModelWrapper, string>))
    ensures r.0.Some?
    ensures cached.Some? ==> r == (cached, Ok(cached.value))
    ensures cached.None? ==> r.0.value == ModelWrapper(model, encodingDimensions, device != Cpu)
    ensures cached.None? ==> (r.1.Ok? <==> device != Cpu)
    ensures cached.None? && device == Cpu ==> r.1 == Err(NoDeviceMessage)
    ensures r.1.Ok? ==> r.1.value == r.0.value
  {
    match cached
    case Some(w) => (cached, Ok(w))
    case None =>
      var w := ModelWrapper(model, encodingDimensions, device != Cpu);
      if device == Cpu then (Some(w), Err(NoDeviceMessage)) else (Some(w), Ok(w))
  }

  /** Initialisation happens once: a second call, with any arguments and any device,
      returns the wrapper the first call built. */
  lemma InstanceOnce(model1: string, dims1: int, device1: Device, model2: string, dims2: int, device2: Device)
    requires device1 != Cpu
    ensures var first := Instance(None, model1, dims1, device1);
      Instance(first.0, model2, dims2, device2).1 == first.1
      && first.1 == Ok(ModelWrapper(model1, dims1, true))
  {
  }

  /** A failed initialisation leaves a half-built wrapper behind, which the next call
      returns without error even though no device was found. */
  lemma FailedInitIsCached(model: string, dims: int, device2: Device)
    ensures var first := Instance(None, model, dims, Cpu);
      && first.1.Err?
      && Instance(first.0, model, dims, device2).1 == Ok(ModelWrapper(model, dims, false))
  {
  }

  /** Initialisation bypasses the setter's check: an out-of-range dimension given to the
      first call is stored, though the setter would reject it; the default is in range. */
  lemma InitBypassesRange(model: string, dims: int, device: Device)
    requires !InRange(dims)
    ensures EncodingDimensions(Instance(None, model, dims, device).0.value) == dims
    ensures SetEncodingDimensions(ModelWrapper(model, FittingDimensions, true), dims).error.Some?
    ensures InRange(FittingDimensions)
  {
  }
}

=== FILE: ingestion.dfy ===
/** Loading embeddings and texts into the vector store. The store is observed through the
    calls made to it: each insert with the rows it carries, and the final load. Whether
    a collection exists is a map from collection name to its schema. */
module Ingestion {
  import opened Wrappers
  import opened Seqs
  import opened Text
  import opened Batching

  /** `{"embeddings": emb}`: one inserted row. */
  datatype Entity<E> = Entity(embeddings: E)

  datatype StoreCall<T> = Insert(rows: seq<T>) | Load

  const EmbeddingBatchSize: nat := 1000

  function ToEntity<E>(e: E): Entity<E> { Entity(e) }

  function ToInsert<E>(w: seq<E>): StoreCall<Entity<E>> { Insert(Map(ToEntity, w)) }

  /** `insert_embeddings`: one insert per window of 1000 embeddings, then one load. */
  function InsertEmbeddings<E>(embeddings: seq<E>): (calls: seq<StoreCall<Entity<E>>>)
    ensures |calls| == RangeCount(|embeddings|, EmbeddingBatchSize) + 1
    ensures calls[|calls| - 1] == Load
    ensures forall k :: 0 <= k < |calls| - 1 ==>
      && k * EmbeddingBatchSize < |embeddings|
      && calls[k] == Insert(Map(ToEntity, embeddings[k * EmbeddingBatchSize..Min(k * EmbeddingBatchSize + EmbeddingBatchSize, |embeddings|)]))
  {
    Map(ToInsert, Windows(embeddings, EmbeddingBatchSize)) + [Load]
  }

  /** The rows carried by the insert calls, in call order. */
  function InsertedRows<T>(calls: seq<StoreCall<T>>): seq<T> {
    if |calls| == 0 then []
    else InsertedRows(calls[..|calls| - 1]) + (if calls[|calls| - 1].Insert? then calls[|calls| - 1].rows else [])
  }

  /** Every embedding is inserted exactly once and in order, in batches of one to 1000,
      and the load happens once, after every insert, even when there is nothing to
      insert. */
  lemma InsertEmbeddingsPartition<E>(embeddings: seq<E>)
    ensures var calls := InsertEmbeddings(embeddings);
      && InsertedRows(calls) == Map(ToEntity, embeddings)
      && (forall k :: 0 <= k < |calls| - 1 ==> calls[k].Insert? && 0 < |calls[k].rows| <= EmbeddingBatchSize)
      && Load !in calls[..|calls| - 1]
      && (|embeddings| == 0 ==> calls == [Load])
  {
    var ws := Windows(embeddings, EmbeddingBatchSize);
    WindowsPartition(embeddings, EmbeddingBatchSize);
    var inserts := Map(ToInsert, ws);
    InsertedRowsOfInserts(inserts, ws);
    ConcatMap(ToEntity, ws);
    var calls := InsertEmbeddings(embeddings);
    assert calls[..|calls| - 1] == inserts;
    assert calls == inserts + [Load];
    assert InsertedRows(calls) == InsertedRows(inserts);
    assert Map((w: seq<E>) => Map(ToEntity, w), ws) == Map((w: seq<E>) => ToInsert(w).rows, ws);
  }

  lemma {:induction false} InsertedRowsOfInserts<E>(inserts: seq<StoreCall<Entity<E>>>, ws: seq<seq<E>>)
    requires inserts == Map(ToInsert, ws)
    ensures InsertedRows(inserts) == Concat(Map((w: seq<E>) => Map(ToEntity, w), ws))
    decreases |ws|
  {
    if |ws| > 0 {
      var init := ws[..|ws| - 1];
      assert inserts[..|inserts| - 1] == Map(ToInsert, init);
      InsertedRowsOfInserts(inserts[..|inserts| - 1], init);
      assert Map((w: seq<E>) => Map(ToEntity, w), ws)[..|ws| - 1] == Map((w: seq<E>) => Map(ToEntity, w), init);
    }
  }

  /** The index of the first window whose insert raises, or the number of windows when
      none does; `insert` gives the message an insert raises, or None. */
  function FirstRaise<E>(ws: seq<seq<E>>, insert: seq<Entity<E>> -> Option<string>): (k: nat)
    ensures k <= |ws|
    ensures forall i :: 0 <= i < k ==> insert(Map(ToEntity, ws[i])).None?
    ensures k < |ws| ==> insert(Map(ToEntity, ws[k])).Some?
    decreases |ws|
  {
    if |ws| == 0 then 0
    else if insert(Map(ToEntity, ws[0])).Some? then 0
    else
      var k := FirstRaise(ws[1..], insert);
      assert forall i :: 0 < i < |ws| ==> ws[1..][i - 1] == ws[i];
      1 + k
  }

  /** What `insert_embeddings` did: the calls made, and the message of the call that
      raised, if one did. */
  datatype Ingested<E> = Ingested(calls: seq<StoreCall<Entity<E>>>, raised: Option<string>)

  /** Every insert of `insert_embeddings` returns. */
  predicate InsertsSucceed<E>(embeddings: seq<E>, insert: seq<Entity<E>> -> Option<string>) {
    var all := InsertEmbeddings(embeddings);
    forall k :: 0 <= k < |all| - 1 ==> insert(all[k].rows).None?
  }

  /** `insert_embeddings` against a store whose calls may raise: `insert` gives the
      message an insert raises and `load` the one the load raises, or None. The inserts
      run in order until one raises; that exception propagates, so the later windows and
      the load are skipped. When every insert returns, the load is made and may raise. */
  function InsertEmbeddingsOrRaise<E>(embeddings: seq<E>, insert: seq<Entity<E>> -> Option<string>, load: Option<string>)
    : (r: Ingested<E>)
    ensures r.raised.None? <==> InsertsSucceed(embeddings, insert) && load.None?
    ensures InsertsSucceed(embeddings, insert) ==> r == Ingested(InsertEmbeddings(embeddings), load)
    ensures var all := InsertEmbeddings(embeddings);
      !InsertsSucceed(embeddings, insert) ==>
        && 0 < |r.calls| < |all| && r.calls == all[..|r.calls|] && Load !in r.calls
        && r.raised.Some? && insert(r.calls[|r.calls| - 1].rows) == r.raised
        && forall k :: 0 <= k < |r.calls| - 1 ==> insert(r.calls[k].rows).None?
  {
    var ws := Windows(embeddings, EmbeddingBatchSize);
    var k := FirstRaise(ws, insert);
    RaiseShape(ws, insert, k);
    if k == |ws| then Ingested(InsertEmbeddings(embeddings), load)
    else Ingested(InsertEmbeddings(embeddings)[..k + 1], insert(Map(ToEntity, ws[k])))
  }

  /** The calls of a run whose first raising insert is window `k`, stated over the
      windows themselves. */
  lemma RaiseShape<E>(ws: seq<seq<E>>, insert: seq<Entity<E>> -> Option<string>, k: nat)
    requires k == FirstRaise(ws, insert)
    ensures var all := Map(ToInsert, ws) + [Load];
      && |all| == |ws| + 1
      && (k == |ws| <==> forall i :: 0 <= i < |all| - 1 ==> insert(all[i].rows).None?)
      && (k < |ws| ==>
        var calls := all[..k + 1];
        && Load !in calls
        && insert(calls[|calls| - 1].rows) == insert(Map(ToEntity, ws[k]))
        && forall i :: 0 <= i < |calls| - 1 ==> insert(calls[i].rows).None?)
  {
    var all := Map(ToInsert, ws) + [Load];
    assert forall i {:trigger all[i]} :: 0 <= i < |ws| ==> all[i] == ToInsert(ws[i]);
    if k < |ws| {
      assert all[k].rows == Map(ToEntity, ws[k]);
    }
  }

  /** When an insert raises, the windows before it are in the store: the first
      `1000 * j` embeddings, in order, for the `j` inserts that completed, and there is
      at least one more embedding after them. */
  lemma InsertRaisedKeepsEarlier<E>(embeddings: seq<E>, insert: seq<Entity<E>> -> Option<string>, load: Option<string>)
    ensures var r := InsertEmbeddingsOrRaise(embeddings, insert, load);
      !InsertsSucceed(embeddings, insert) ==>
        var j := |r.calls| - 1;
        && j * EmbeddingBatchSize < |embeddings|
        && InsertedRows(r.calls[..j]) == Map(ToEntity, embeddings[..j * EmbeddingBatchSize])
  {
    var r := InsertEmbeddingsOrRaise(embeddings, insert, load);
    if !InsertsSucceed(embeddings, insert) {
      var j := |r.calls| - 1;
      var ws := Windows(embeddings, EmbeddingBatchSize);
      var done := r.calls[..j];
      assert done == Map(ToInsert, ws[..j]);
      InsertedRowsOfInserts(done, ws[..j]);
      ConcatMap(ToEntity, ws[..j]);
      WindowsPrefix(embeddings, EmbeddingBatchSize, j);
      assert j < |ws| && ws[j] == Windows(embeddings, EmbeddingBatchSize)[j];
    }
  }

  // ---------------------------------------------------------------------------
  // Creating a collection

  /** A collection's schema: one float-vector field of the given width. */
  datatype Schema = Schema(field: string, dim: nat, description: string)

  function EmbeddingSchema(dim: nat): Schema {
    Schema("embeddings", dim, "Network Data Embeddings")
  }

  /** `create_collection`: the collection is created with the embedding schema only if no
      collection of that name exists; an existing one is reused as it is. `raised` is
      the message the first raising store call (the connect, the existence check or
      the `Collection` call) raises, or None; that exception propagates. The result is
      the collections afterwards and whether a collection was created. */
  function CreateCollection(collections: map<string, Schema>, name: string, dim: nat, raised: Option<string>)
    : (r: Result<(map<string, Schema>, bool), string>)
    ensures raised.Some? <==> r.Err?
    ensures raised.Some? ==> r.error == raised.value
    ensures r.Ok? ==> (r.value.1 <==> name !in collections)
    ensures r.Ok? && r.value.1 ==> r.value.0 == collections[name := EmbeddingSchema(dim)]
    ensures r.Ok? && !r.value.1 ==> r.value.0 == collections
    ensures r.Ok? ==> name in r.value.0
  {
    if raised.Some? then Err(raised.value)
    else if name !in collections then Ok((collections[name := EmbeddingSchema(dim)], true))
    else Ok((collections, false))
  }

  /** A collection is never created twice: when the store answers both calls, the
      second, whatever its width, finds the collection and changes nothing. */
  lemma CreateCollectionOnce(collections: map<string, Schema>, name: string, dim1: nat, dim2: nat)
    ensures var first := CreateCollection(collections, name, dim1, None);
      first.Ok? && CreateCollection(first.value.0, name, dim2, None) == Ok((first.value.0, false))
  {
  }

  // ---------------------------------------------------------------------------
  // Column-wise batch insertion

  /** One insert of `batch_insert`: the same window `[i, i + size)` of every column. */
  function ColumnWindow<T>(columns: seq<seq<T>>, i: nat, size: nat): (batch: seq<seq<T>>)
    ensures |batch| == |columns|
    ensures forall c :: 0 <= c < |columns| ==> batch[c] == Slice(columns[c], i, i + size)
  {
    Map((d: seq<T>) => Slice(d, i, i + size), columns)
  }

  /** `batch_insert` as written: the window starts run over `range(0, len(data), size)`,
      where `len(data)` is the number of columns, not the number of rows. */
  function BatchInsertAsWritten<T>(columns: seq<seq<T>>, size: nat): (calls: seq<seq<seq<T>>>)
    requires size > 0
    ensures |calls| == RangeCount(|columns|, size)
    ensures forall k :: 0 <= k < |calls| ==> calls[k] == ColumnWindow(columns, k * size, size)
  {
    seq(RangeCount(|columns|, size), k requires 0 <= k < RangeCount(|columns|, size) => ColumnWindow(columns, k * size, size))
  }

  /** With no more columns than the batch size, as at the call site (two columns, batch
      size 1000), exactly one insert happens and it carries rows `[0, size)` only: every
      later row is dropped. */
  lemma BatchInsertAsWrittenOneWindow<T>(columns: seq<seq<T>>, size: nat)
    requires size > 0 && 0 < |columns| <= size
    ensures BatchInsertAsWritten(columns, size) == [ColumnWindow(columns, 0, size)]
    ensures forall c :: 0 <= c < |columns| ==> BatchInsertAsWritten(columns, size)[0][c] == columns[c][..Min(size, |columns[c]|)]
  {
    var n := RangeCount(|columns|, size);
    assert n >= 1 by {
      assert n * size >= |columns| > 0;
    }
    assert n <= 1 by {
      assert n >= 2 ==> 1 * size < |columns|;
    }
    var calls := BatchInsertAsWritten(columns, size);
    assert calls[0] == ColumnWindow(columns, 0 * size, size);
    assert calls == [calls[0]];
  }

  /** A scaled-down instance of the call site: two columns of three rows each, inserted
      with batch size 2 (the call site has two columns and batch size 1000). */
  lemma BatchInsertDropsRows()
    ensures var columns := [["a", "b", "c"], ["x", "y", "z"]];
      && BatchInsertAsWritten(columns, 2) == [[["a", "b"], ["x", "y"]]]
      && forall k :: 0 <= k < |BatchInsertAsWritten(columns, 2)| ==> "c" !in BatchInsertAsWritten(columns, 2)[k][0]
  {
    var columns := [["a", "b", "c"], ["x", "y", "z"]];
    BatchInsertAsWrittenOneWindow(columns, 2);
    var w := ColumnWindow(columns, 0, 2);
    assert w[0] == ["a", "b", "c"][..2] == ["a", "b"];
    assert w[1] == ["x", "y", "z"][..2] == ["x", "y"];
    assert w == [["a", "b"], ["x", "y"]];
  }

  /** The row count of a column table: the length of its first column. */
  function RowCount<T>(columns: seq<seq<T>>): nat {
    if |columns| == 0 then 0 else |columns[0]|
  }

  predicate Rectangular<T>(columns: seq<seq<T>>) {
    forall c :: 0 <= c < |columns| ==> |columns[c]| == RowCount(columns)
  }

  /** `batch_insert` with the window starts running over the rows. */
  function BatchInsert<T>(columns: seq<seq<T>>, size: nat): (calls: seq<seq<seq<T>>>)
    requires size > 0
    ensures |calls| == RangeCount(RowCount(columns), size)
    ensures forall k :: 0 <= k < |calls| ==> calls[k] == ColumnWindow(columns, k * size, size)
  {
    seq(RangeCount(RowCount(columns), size), k requires 0 <= k < RangeCount(RowCount(columns), size) => ColumnWindow(columns, k * size, size))
  }

  /** Column `c` of every insert, in call order. */
  function ColumnOf<T>(calls: seq<seq<seq<T>>>, c: nat): seq<seq<T>>
    requires forall k :: 0 <= k < |calls| ==> c < |calls[k]|
  {
    seq(|calls|, k requires 0 <= k < |calls| => calls[k][c])
  }

  /** Over equally long columns, every row is inserted exactly once and in order: the
      inserts' pieces of each column concatenate back to that column, and each insert
      keeps the columns row-aligned. */
  lemma BatchInsertPartition<T>(columns: seq<seq<T>>, size: nat)
    requires size > 0 && Rectangular(columns)
    ensures forall k, c :: 0 <= k < |BatchInsert(columns, size)| && 0 <= c < |columns| ==>
      |BatchInsert(columns, size)[k][c]| == |BatchInsert(columns, size)[k][0]|
    ensures forall c :: 0 <= c < |columns| ==> Concat(ColumnOf(BatchInsert(columns, size), c)) == columns[c]
  {
    var calls := BatchInsert(columns, size);
    forall k, c | 0 <= k < |calls| && 0 <= c < |columns| ensures |calls[k][c]| == |calls[k][0]| {
      WindowRowsAligned(columns, size, k, c);
    }
    forall c | 0 <= c < |columns| ensures Concat(ColumnOf(calls, c)) == columns[c] {
      ColumnOfIsWindows(columns, size, c);
      WindowsPartition(columns[c], size);
    }
  }

  lemma WindowRowsAligned<T>(columns: seq<seq<T>>, size: nat, k: nat, c: nat)
    requires size > 0 && Rectangular(columns)
    requires k < |BatchInsert(columns, size)| && c < |columns|
    ensures |BatchInsert(columns, size)[k][c]| == |BatchInsert(columns, size)[k][0]|
  {
    var w := BatchInsert(columns, size)[k];
    assert w == ColumnWindow(columns, k * size, size);
    assert |columns[c]| == |columns[0]|;
  }

  /** Column `c` of the inserts is the windows of that column. */
  lemma ColumnOfIsWindows<T>(columns: seq<seq<T>>, size: nat, c: nat)
    requires size > 0 && Rectangular(columns) && c < |columns|
    ensures ColumnOf(BatchInsert(columns, size), c) == Windows(columns[c], size)
  {
    var calls := BatchInsert(columns, size);
    var ws := Windows(columns[c], size);
    assert |columns[c]| == RowCount(columns);
    forall k | 0 <= k < |ws| ensures ColumnOf(calls, c)[k] == ws[k] {
      BatchColumnIsSlice(columns, size, k, c);
      WindowIsSlice(columns[c], size, k);
    }
  }

  lemma BatchColumnIsSlice<T>(columns: seq<seq<T>>, size: nat, k: nat, c: nat)
    requires size > 0 && k < |BatchInsert(columns, size)| && c < |columns|
    ensures BatchInsert(columns, size)[k][c] == Slice(columns[c], k * size, k * size + size)
  {
    assert BatchInsert(columns, size)[k] == ColumnWindow(columns, k * size, size);
  }

  lemma WindowIsSlice<T>(xs: seq<T>, size: nat, k: nat)
    requires size > 0 && k < |Windows(xs, size)|
    ensures Windows(xs, size)[k] == Slice(xs, k * size, k * size + size)
  {
  }

  // ---------------------------------------------------------------------------
  // Cropping texts to the store's field length

  const MaxLength: nat := 65534

  /** One element of the cropping comprehension: a text over the limit is replaced by its
      keyword summary, joined by spaces and cut to the limit; any other text is kept. */
  function Crop(text: string, summarize: string -> seq<string>): (r: string)
    ensures |r| <= MaxLength
    ensures |text| <= MaxLength ==> r == text
    ensures |text| > MaxLength ==> r == Slice(JoinSpace(summarize(text)), 0, MaxLength)
  {
    if |text| > MaxLength then Slice(JoinSpace(summarize(text)), 0, MaxLength)
    else Slice(text, 0, MaxLength)
  }

  /** The summarizer is consulted only for long texts: two summarizers that agree on the
      long texts crop every text alike, and cropping a cropped text changes nothing. */
  lemma CropOnlySummarizesLong(text: string, f: string -> seq<string>, g: string -> seq<string>)
    requires |text| > MaxLength ==> f(text) == g(text)
    ensures Crop(text, f) == Crop(text, g)
    ensures Crop(Crop(text, f), g) == Crop(text, f)
  {
  }

  function CropAll(texts: seq<string>, summarize: string -> seq<string>): (r: seq<string>)
    ensures |r| == |texts|
    ensures forall i :: 0 <= i < |r| ==> |r[i]| <= MaxLength && (|texts[i]| <= MaxLength ==> r[i] == texts[i])
  {
    Map((t: string) => Crop(t, summarize), texts)
  }

  /** A cell of the inserted table: a cropped text or its vector. */
  datatype Cell = TextCell(text: string) | VectorCell(vector: seq<real>)

  const RowBatchSize: nat := 1000

  /** The script's insertion step, with the windows over the rows: the cropped texts and
      their vectors, as two columns, in batches of 1000 rows. */
  function InsertTextsAndVectors(texts: seq<string>, vectors: seq<seq<real>>, summarize: string -> seq<string>)
    : (calls: seq<seq<seq<Cell>>>)
    requires |texts| == |vectors|
    ensures |calls| == RangeCount(|texts|, RowBatchSize)
    ensures forall k :: 0 <= k < |calls| ==> |calls[k]| == 2
    ensures Concat(ColumnOf(calls, 0)) == Map((t: string) => TextCell(t), CropAll(texts, summarize))
    ensures Concat(ColumnOf(calls, 1)) == Map((v: seq<real>) => VectorCell(v), vectors)
  {
    var columns := [Map((t: string) => TextCell(t), CropAll(texts, summarize)), Map((v: seq<real>) => VectorCell(v), vectors)];
    BatchInsertPartition(columns, RowBatchSize);
    BatchInsert(columns, RowBatchSize)
  }
}

=== FILE: json_encoder.dfy ===
/** The services-side JSON encoder: it preprocesses the serialised items of a JSON file
    with the pod-aware normaliser, builds or reuses the vocabulary file derived from the
    JSON file's name, and joins the preprocessed items of a single request. Items are
    represented by their `json.dumps` serialisation; the vocabulary directory is a map
    from file path to stored vocabulary. */
module JsonEncoder {
  import opened Wrappers
  import opened Text
  import opened Seqs
  import opened Normalizer
  import Vocab

  datatype EncoderError =
    | FileNotFound(message: string)
    | ValueError(message: string)

  /** What reading the JSON file produced: its items, no file, or undecodable text. */
  datatype LoadOutcome = Loaded(items: seq<string>) | Missing | Malformed

  datatype Encoder = Encoder(jsonFilePath: Option<string>, data: seq<string>, stopWords: set<string>)

  /** Python truthiness of the optional path: present and non-empty. */
  predicate PathSet(p: Option<string>) {
    p.Some? && p.value != ""
  }

  /** Construction: the file is read only when a path is set; otherwise there is no data. */
  function NewEncoder(path: Option<string>, stopWords: set<string>, load: LoadOutcome): (r: Result<Encoder, EncoderError>)
    ensures !PathSet(path) ==> r.Ok? && r.value.data == []
    ensures PathSet(path) ==> (r.Ok? <==> load.Loaded?)
    ensures r.Ok? ==> r.value.jsonFilePath == path && r.value.stopWords == stopWords
    ensures PathSet(path) && load.Loaded? ==> r.value.data == load.items
    ensures PathSet(path) && load.Missing? ==> r == Err(FileNotFound("The file " + path.value + " does not exist."))
    ensures PathSet(path) && load.Malformed? ==> r == Err(ValueError("Error decoding the JSON file."))
  {
    if !PathSet(path) then Ok(Encoder(path, [], stopWords))
    else match load
      case Loaded(items) => Ok(Encoder(path, items, stopWords))
      case Missing => Err(FileNotFound("The file " + path.value + " does not exist."))
      case Malformed => Err(ValueError("Error decoding the JSON file."))
  }

  /** The services preprocessing as a function of the item text. */
  function Preprocess(stopWords: set<string>): string -> string {
    x => PreprocessText(x, stopWords)
  }

  /** The tokens each item contributes, item after item: its kept tokens, then its pods. */
  function ItemTokens(stopWords: set<string>, items: seq<string>): seq<string> {
    if |items| == 0 then []
    else KeptTokens(items[0], stopWords) + PodIds(items[0]) + ItemTokens(stopWords, items[1..])
  }

  /** The stripped, non-empty preprocessed items are single-spaced, include every item
      whose preprocessed text is non-empty, and carry each item's kept tokens and pods,
      item after item. */
  lemma {:induction false} PreprocessItemsSpec(stopWords: set<string>, items: seq<string>)
    ensures var r := NonEmptyResults(Preprocess(stopWords), items);
      && (forall k :: 0 <= k < |r| ==> SingleSpaced(r[k]))
      && (forall j :: 0 <= j < |items| && PreprocessText(items[j], stopWords) != "" ==>
            PreprocessText(items[j], stopWords) in r)
      && SplitAll(r) == ItemTokens(stopWords, items)
  {
    var f := Preprocess(stopWords);
    NonEmptyResultsSpec(f, items);
    ItemTokensSplitEach(stopWords, items);
  }

  lemma {:induction false} ItemTokensSplitEach(stopWords: set<string>, items: seq<string>)
    ensures SplitEach(Preprocess(stopWords), items) == ItemTokens(stopWords, items)
    decreases |items|
  {
    if |items| > 0 {
      ItemTokensSplitEach(stopWords, items[1..]);
      assert Split(Preprocess(stopWords)(items[0])) == KeptTokens(items[0], stopWords) + PodIds(items[0]);
    }
  }

  /** Encoding the loaded data: an error when nothing is loaded, otherwise the stripped
      non-empty preprocessed items, in item order. */
  function PreprocessForEncoding(e: Encoder): (r: Result<seq<string>, EncoderError>)
    ensures r.Err? <==> |e.data| == 0
    ensures r.Err? ==> r.error == ValueError("No data loaded. Ensure a valid JSON file path is provided.")
    ensures r.Ok? ==> forall k :: 0 <= k < |r.value| ==> r.value[k] != "" && SingleSpaced(r.value[k])
    ensures r.Ok? ==> forall j :: 0 <= j < |e.data| && PreprocessText(e.data[j], e.stopWords) != "" ==>
      PreprocessText(e.data[j], e.stopWords) in r.value
    ensures r.Ok? ==> SplitAll(r.value) == ItemTokens(e.stopWords, e.data)
  {
    if |e.data| == 0 then Err(ValueError("No data loaded. Ensure a valid JSON file path is provided."))
    else
      PreprocessItemsSpec(e.stopWords, e.data);
      Ok(NonEmptyResults(Preprocess(e.stopWords), e.data))
  }

  /** Encoding keeps the item order: the data of two files concatenated encodes to the
      concatenation of their encodings. */
  lemma PreprocessForEncodingAppend(e1: Encoder, e2: Encoder)
    requires e1.stopWords == e2.stopWords && |e1.data| > 0 && |e2.data| > 0
    ensures PreprocessForEncoding(e1.(data := e1.data + e2.data)).value
         == PreprocessForEncoding(e1).value + PreprocessForEncoding(e2).value
  {
    NonEmptyResultsAppend(Preprocess(e1.stopWords), e1.data, e2.data);
  }

  /** Preprocessing a request's items: an error without a JSON file path, otherwise the
      non-empty preprocessed items joined by spaces, whose tokens are each item's kept
      tokens and pods, item after item. */
  function PreprocessSingleText(e: Encoder, items: seq<string>): (r: Result<string, EncoderError>)
    ensures r.Err? <==> !PathSet(e.jsonFilePath)
    ensures r.Err? ==> r.error == ValueError("JSON file path must be provided to preprocess data.")
    ensures r.Ok? ==> Split(r.value) == ItemTokens(e.stopWords, items)
    ensures r.Ok? ==> SingleSpaced(r.value)
  {
    if !PathSet(e.jsonFilePath) then Err(ValueError("JSON file path must be provided to preprocess data."))
    else
      var kept := NonEmptyResults(Preprocess(e.stopWords), items);
      SplitJoinSpaceAll(kept);
      PreprocessItemsSpec(e.stopWords, items);
      JoinSingleSpaced(kept);
      Ok(JoinSpace(kept))
  }

  // ---------------------------------------------------------------------------
  // The vocabulary file

  /** Index of the last `c` in `s`, or -1. */
  function LastIndexOf(s: string, c: char): (k: int)
    ensures -1 <= k < |s|
    ensures k >= 0 ==> s[k] == c
    ensures forall i :: k < i < |s| ==> s[i] != c
  {
    if |s| == 0 then -1
    else if s[|s| - 1] == c then |s| - 1
    else LastIndexOf(s[..|s| - 1], c)
  }

  /** `os.path.basename`: the text after the last separator. */
  function Basename(p: string): (b: string)
    ensures forall i :: 0 <= i < |b| ==> b[i] != '/'
    ensures |b| <= |p| && b == p[|p| - |b|..]
  {
    p[LastIndexOf(p, '/') + 1..]
  }

  /** Length of the maximal run of dots at the start of `s`. */
  function DotLen(s: string): (k: nat)
    ensures k <= |s|
    ensures forall i :: 0 <= i < k ==> s[i] == '.'
    ensures k < |s| ==> s[k] != '.'
  {
    if |s| == 0 || s[0] != '.' then 0 else 1 + DotLen(s[1..])
  }

  /** `os.path.splitext(b)[0]` for a name without separators: everything before the last
      dot, unless that dot is only preceded by dots. */
  function Stem(b: string): (r: string)
    ensures r == b || (|r| < |b| && r == b[..|r|] && b[|r|] == '.')
  {
    var d := LastIndexOf(b, '.');
    if d > DotLen(b) then b[..d] else b
  }

  /** Where the vocabulary of a JSON file is stored. */
  function VocabFilePath(jsonPath: string): string {
    "vocabs/" + Stem(Basename(jsonPath)) + "_vocab.json"
  }

  lemma {:induction false} LastIndexOfAppend(a: string, b: string, c: char)
    requires c !in b
    ensures LastIndexOf(a + b, c) == LastIndexOf(a, c)
    decreases |b|
  {
    if |b| == 0 {
      assert a + b == a;
    } else {
      assert (a + b)[..|a + b| - 1] == a + b[..|b| - 1];
      assert (a + b)[|a + b| - 1] == b[|b| - 1];
      LastIndexOfAppend(a, b[..|b| - 1], c);
    }
  }

  lemma BasenameAfterDir(dir: string, name: string)
    requires |dir| == 0 || dir[|dir| - 1] == '/'
    requires '/' !in name
    ensures Basename(dir + name) == name
  {
    LastIndexOfAppend(dir, name, '/');
    assert (dir + name)[|dir|..] == name;
  }

  lemma StemBeforeExtension(stem: string, ext: string)
    requires '.' !in ext
    requires exists i :: 0 <= i < |stem| && stem[i] != '.'
    ensures Stem(stem + "." + ext) == stem
  {
    var name := stem + "." + ext;
    assert name == (stem + ".") + ext;
    LastIndexOfAppend(stem + ".", ext, '.');
    assert LastIndexOf(name, '.') == |stem|;
    var i :| 0 <= i < |stem| && stem[i] != '.';
    assert name[i] != '.';
    assert name[..|stem|] == stem;
  }

  /** The vocabulary of `<dir>/<stem>.<ext>` is `vocabs/<stem>_vocab.json`, whatever
      the directory, as long as the stem is not only dots. */
  lemma VocabFilePathOf(dir: string, stem: string, ext: string)
    requires |dir| == 0 || dir[|dir| - 1] == '/'
    requires '/' !in stem && '/' !in ext && '.' !in ext
    requires exists i :: 0 <= i < |stem| && stem[i] != '.'
    ensures VocabFilePath(dir + stem + "." + ext) == "vocabs/" + stem + "_vocab.json"
  {
    var name := stem + "." + ext;
    assert '/' !in name;
    assert dir + stem + "." + ext == dir + name;
    BasenameAfterDir(dir, name);
    StemBeforeExtension(stem, ext);
  }

  /** The vocabulary files that exist, by path. */
  type VocabFiles = map<string, map<string, nat>>

  /** Creating or retrieving the vocabulary: an error without a JSON file path; the
      stored vocabulary if its file exists; otherwise a new vocabulary built with the
      default creator and the dynamic threshold, which is stored under its path. No
      other file changes. */
  function CreateVocabFile(e: Encoder, texts: seq<string>, files: VocabFiles)
    : (r: Result<(map<string, nat>, VocabFiles), EncoderError>)
    ensures r.Err? <==> !PathSet(e.jsonFilePath)
    ensures r.Err? ==> r.error == ValueError("JSON file path must be provided to create or retrieve vocabulary.")
    ensures r.Ok? ==> var key := VocabFilePath(e.jsonFilePath.value);
      && r.value.1 == files[key := r.value.0]
      && (key in files ==> r.value.0 == files[key])
      && (key !in files ==> r.value.0 == Vocab.CreateVocab(Vocab.DefaultCreator, texts, None))
  {
    if !PathSet(e.jsonFilePath) then
      Err(ValueError("JSON file path must be provided to create or retrieve vocabulary."))
    else
      var key := VocabFilePath(e.jsonFilePath.value);
      if key in files then Ok((files[key], files))
      else
        var v := Vocab.CreateVocab(Vocab.DefaultCreator, texts, None);
        Ok((v, files[key := v]))
  }

  /** A vocabulary file is created once: asking again, even with other texts, returns the
      same vocabulary and changes no file. */
  lemma CreateVocabFileOnce(e: Encoder, texts1: seq<string>, texts2: seq<string>, files: VocabFiles)
    requires PathSet(e.jsonFilePath)
    ensures var first := CreateVocabFile(e, texts1, files).value;
      CreateVocabFile(e, texts2, first.1) == Ok(first)
  {
  }
}

=== FILE: models_json_encoder.dfy ===
/** The models-side JSON encoder: it preprocesses each serialised item with the
    pod-free normaliser, keeps the non-blank results in item order, and encodes them on a
    worker pool, collecting the embeddings in completion order. The embedding model is
    the function `encode`; the completion order of the pool is the permutation `order`
    of the kept texts' positions. */
module ModelsEncoder {
  import opened Text
  import opened Seqs
  import opened Normalizer

  /** The models preprocessing as a function of the item text. */
  function PreprocessPlain(stopWords: set<string>): string -> string {
    x => PreprocessTextPlain(x, stopWords)
  }

  /** The preprocessed texts of the items that are not blank once stripped, kept
      unstripped, in item order. */
  function EncodedTexts(stopWords: set<string>, items: seq<string>): seq<string> {
    NonBlankResults(PreprocessPlain(stopWords), items)
  }

  /** The kept texts are exactly the non-empty preprocessed items; each is
      single-spaced and free of stop words. */
  lemma EncodedTextsSpec(stopWords: set<string>, items: seq<string>)
    ensures forall t :: t in EncodedTexts(stopWords, items) <==>
      t != "" && exists j :: 0 <= j < |items| && PreprocessTextPlain(items[j], stopWords) == t
    ensures forall t :: t in EncodedTexts(stopWords, items) ==>
      SingleSpaced(t) && forall w :: w in Split(t) ==> w !in stopWords
  {
    var f := PreprocessPlain(stopWords);
    NonBlankResultsSpec(f, items);
    forall t | t in EncodedTexts(stopWords, items) ensures SingleSpaced(t) && forall w :: w in Split(t) ==> w !in stopWords {
      var j :| 0 <= j < |items| && f(items[j]) == t;
    }
  }

  /** The kept texts are produced item by item, in item order. */
  lemma EncodedTextsAppend(stopWords: set<string>, a: seq<string>, b: seq<string>)
    ensures EncodedTexts(stopWords, a + b) == EncodedTexts(stopWords, a) + EncodedTexts(stopWords, b)
  {
    NonBlankResultsAppend(PreprocessPlain(stopWords), a, b);
  }

  /** Encoding the file's items: one embedding per kept text, listed in the order the
      pool completed them, so the embeddings are those of the kept texts, rearranged. */
  function EncodeJsonData<E>(stopWords: set<string>, items: seq<string>, encode: string -> E, order: seq<nat>)
    : (embeddings: seq<E>)
    requires IsPermutation(order, |EncodedTexts(stopWords, items)|)
    ensures var kept := EncodedTexts(stopWords, items);
      && |embeddings| == |kept|
      && (forall k :: 0 <= k < |embeddings| ==> order[k] < |kept| && embeddings[k] == encode(kept[order[k]]))
      && multiset(embeddings) == multiset(Map(encode, kept))
  {
    var kept := EncodedTexts(stopWords, items);
    PermutationBounds(order, |kept|);
    var embeddings := seq(|order|, k requires 0 <= k < |order| => encode(kept[order[k]]));
    CompletionOrderMultiset(kept, encode, order, embeddings);
    embeddings
  }

  /** Listing the encodings of `kept` in any permutation of their positions gives the
      same multiset of embeddings as listing them in order. */
  lemma CompletionOrderMultiset<E>(kept: seq<string>, encode: string -> E, order: seq<nat>, embeddings: seq<E>)
    requires IsPermutation(order, |kept|)
    requires |embeddings| == |order|
    requires forall k :: 0 <= k < |order| ==> order[k] < |kept| && embeddings[k] == encode(kept[order[k]])
    ensures multiset(embeddings) == multiset(Map(encode, kept))
  {
    var g := (i: nat) => if i < |kept| then encode(kept[i]) else encode("");
    MapMultiset(g, order, Range(|kept|));
    assert Map(g, order) == embeddings;
    assert Map(g, Range(|kept|)) == Map(encode, kept);
  }
}

=== FILE: normalizer.dfy ===
/** `JSONEncoder.preprocess_text`, in its two variants:
    services/model/embeddings/corpus/json_encoder.py appends the `pod\d+` identifiers
    found in the cleaned text; models/embeddings/corpus/json_encoder.py does not.
    The NLTK tokenizer is a whitespace split and the stop-word list is a parameter. */
module Normalizer {
  import opened Text
  import opened Seqs

  /** A character that can survive cleaning: a lower-case `\w` character. */
  predicate CleanChar(c: char) { IsWordChar(c) && !IsUpper(c) }

  /** `re.sub(r'\W', ' ', s)`. */
  function ReplaceNonWord(s: string): (r: string)
    ensures |r| == |s|
    ensures forall i :: 0 <= i < |r| ==> r[i] == ' ' || IsWordChar(r[i])
    ensures forall i :: 0 <= i < |s| && IsWordChar(s[i]) ==> r[i] == s[i]
  {
    seq(|s|, i requires 0 <= i < |s| => if IsWordChar(s[i]) then s[i] else ' ')
  }

  /** Length of a match of `\s+[a-zA-Z]\s+` anchored at the start of `s`, or 0 when
      there is none. Backtracking the greedy `\s+` cannot help, so the first run of
      whitespace, one letter and the following run of whitespace decide the match. */
  function SingleLetterMatch(s: string): (k: nat)
    ensures k <= |s|
    ensures k > 0 ==> k >= 3 && IsSpace(s[0]) && IsSpace(s[k - 1])
  {
    var a := SpaceLen(s);
    if a == 0 || a >= |s| || !IsAlpha(s[a]) then 0
    else
      var b := SpaceLen(s[a + 1..]);
      if b == 0 then 0 else a + 1 + b
  }

  /** `re.sub(r'\s+[a-zA-Z]\s+', ' ', s)`: one left-to-right pass; each match, trailing
      whitespace included, becomes a single space and scanning resumes after it. */
  function DropSingleLetters(s: string): (r: string)
    ensures |r| <= |s|
    decreases |s|
  {
    if |s| == 0 then ""
    else
      var k := SingleLetterMatch(s);
      if k > 0 then " " + DropSingleLetters(s[k..])
      else [s[0]] + DropSingleLetters(s[1..])
  }

  /** Every whitespace character is a plain space, and no two of them are adjacent. */
  predicate Collapsed(s: string) {
    && (forall i :: 0 <= i < |s| && IsSpace(s[i]) ==> s[i] == ' ')
    && (forall i :: 0 <= i < |s| - 1 ==> !(s[i] == ' ' && s[i + 1] == ' '))
  }

  /** `re.sub(r'\s+', ' ', s)`: every run of whitespace becomes one space, so the result
      is collapsed, no longer than `s`, empty only when `s` is, and starts with a space
      exactly when `s` starts with whitespace. */
  function CollapseSpaces(s: string): (r: string)
    ensures Collapsed(r)
    ensures |r| <= |s|
    ensures |r| == 0 <==> |s| == 0
    ensures |r| > 0 ==> (r[0] == ' ' <==> IsSpace(s[0]))
    decreases |s|
  {
    if |s| == 0 then ""
    else if IsSpace(s[0]) then
      var k := SpaceLen(s);
      " " + CollapseSpaces(s[k..])
    else [s[0]] + CollapseSpaces(s[1..])
  }

  /** The text after the four regular-expression steps of `preprocess_text`. */
  function Clean(text: string): (r: string)
    ensures forall i :: 0 <= i < |r| ==> r[i] == ' ' || CleanChar(r[i])
  {
    var lowered := Lower(text);
    var worded := ReplaceNonWord(lowered);
    assert forall i :: 0 <= i < |worded| ==> worded[i] == ' ' || CleanChar(worded[i]) by {
      forall i | 0 <= i < |worded| && worded[i] != ' '
        ensures CleanChar(worded[i])
      {
        assert worded[i] == lowered[i];
      }
    }
    var dropped := DropSingleLetters(worded);
    DropSingleLettersChars(worded, CleanChar);
    CollapseSpacesChars(dropped, CleanChar);
    var r := CollapseSpaces(dropped);
    assert SpacesOr(r, CleanChar);
    r
  }

  /** Every character of `s` is a plain space or satisfies `p`. */
  ghost predicate SpacesOr(s: string, p: char -> bool) {
    forall i :: 0 <= i < |s| ==> s[i] == ' ' || p(s[i])
  }

  lemma SpacesOrCons(c: char, t: string, p: char -> bool)
    requires c == ' ' || p(c)
    requires SpacesOr(t, p)
    ensures SpacesOr([c] + t, p)
  {
    var r := [c] + t;
    forall i | 0 <= i < |r| ensures r[i] == ' ' || p(r[i]) {
      if i > 0 { assert r[i] == t[i - 1]; }
    }
  }

  /** The substitution only writes spaces and copies characters of its input. */
  lemma {:induction false} DropSingleLettersChars(s: string, p: char -> bool)
    requires SpacesOr(s, p)
    ensures SpacesOr(DropSingleLetters(s), p)
    decreases |s|
  {
    if |s| > 0 {
      var k := SingleLetterMatch(s);
      if k > 0 {
        DropSingleLettersChars(s[k..], p);
        SpacesOrCons(' ', DropSingleLetters(s[k..]), p);
        assert DropSingleLetters(s) == [' '] + DropSingleLetters(s[k..]);
      } else {
        DropSingleLettersChars(s[1..], p);
        SpacesOrCons(s[0], DropSingleLetters(s[1..]), p);
      }
    }
  }

  /** Collapsing only writes spaces and copies non-space characters of its input. */
  lemma {:induction false} CollapseSpacesChars(s: string, p: char -> bool)
    requires SpacesOr(s, p)
    ensures SpacesOr(CollapseSpaces(s), p)
    decreases |s|
  {
    if |s| > 0 {
      if IsSpace(s[0]) {
        var k := SpaceLen(s);
        CollapseSpacesChars(s[k..], p);
        SpacesOrCons(' ', CollapseSpaces(s[k..]), p);
        assert CollapseSpaces(s) == [' '] + CollapseSpaces(s[k..]);
      } else {
        CollapseSpacesChars(s[1..], p);
        SpacesOrCons(s[0], CollapseSpaces(s[1..]), p);
      }
    }
  }

  function DigitLen(s: string): (k: nat)
    ensures k <= |s|
    ensures forall i :: 0 <= i < k ==> IsDigit(s[i])
  {
    if |s| == 0 || !IsDigit(s[0]) then 0 else 1 + DigitLen(s[1..])
  }

  /** A match of `pod\d+`. */
  predicate IsPodId(t: string) {
    |t| >= 4 && t[..3] == "pod" && forall i :: 3 <= i < |t| ==> IsDigit(t[i])
  }

  /** `re.findall(r'pod\d+', s)`: the non-overlapping matches, left to right, each with
      its digit run taken greedily. */
  function FindPods(s: string): (ps: seq<string>)
    ensures forall j :: 0 <= j < |ps| ==> IsPodId(ps[j])
    ensures forall t :: t in ps ==> IsPodId(t)
    decreases |s|
  {
    if |s| < 4 then []
    else if s[..3] == "pod" && IsDigit(s[3]) then
      var d := DigitLen(s[3..]);
      [s[..3 + d]] + FindPods(s[3 + d..])
    else FindPods(s[1..])
  }

  /** The tokens of the cleaned text that are not stop words, in order. */
  function KeptTokens(text: string, stopWords: set<string>): (ts: seq<string>)
    ensures forall j :: 0 <= j < |ts| ==> IsToken(ts[j]) && ts[j] !in stopWords
    ensures AllTokenChars(ts, CleanChar)
  {
    var c := Clean(text);
    var all := Split(c);
    SplitChars(c, CleanChar);
    var ts := Filter(all, t => t !in stopWords);
    assert forall j :: 0 <= j < |ts| ==> ts[j] in all;
    ts
  }

  /** `set(re.findall(r'pod\d+', text))` on the cleaned text. Python leaves the order of
      the set unspecified; this model lists the identifiers by first occurrence. */
  function PodIds(text: string): (ps: seq<string>)
    ensures NoDuplicates(ps)
    ensures forall t :: t in ps <==> t in FindPods(Clean(text))
    ensures forall j :: 0 <= j < |ps| ==> IsToken(ps[j]) && IsPodId(ps[j])
  {
    var ps := Distinct(FindPods(Clean(text)));
    forall j | 0 <= j < |ps| ensures IsToken(ps[j]) && IsPodId(ps[j]) {
      assert ps[j] in FindPods(Clean(text));
      PodIdIsToken(ps[j]);
    }
    ps
  }

  lemma PodIdIsToken(t: string)
    requires IsPodId(t)
    ensures IsToken(t)
  {
    forall i | 0 <= i < |t| ensures !IsSpace(t[i]) {
      if i < 3 {
        assert t[..3][i] == t[i];
      }
    }
  }

  /** The tokens of a pod identifier list are lower-case word characters. */
  lemma PodChars(ps: seq<string>)
    requires forall j :: 0 <= j < |ps| ==> IsPodId(ps[j])
    ensures AllTokenChars(ps, CleanChar)
  {
    forall j, i | 0 <= j < |ps| && 0 <= i < |ps[j]|
      ensures CleanChar(ps[j][i])
    {
      if i < 3 {
        assert ps[j][..3][i] == ps[j][i];
      }
    }
  }

  /** Two token lists whose characters satisfy `p` concatenate to one. */
  lemma TokensAppend(a: seq<string>, b: seq<string>, p: char -> bool)
    requires forall j :: 0 <= j < |a| ==> IsToken(a[j])
    requires forall j :: 0 <= j < |b| ==> IsToken(b[j])
    requires AllTokenChars(a, p) && AllTokenChars(b, p)
    ensures forall j :: 0 <= j < |a + b| ==> IsToken((a + b)[j])
    ensures AllTokenChars(a + b, p)
  {
    var ts := a + b;
    forall j, i | 0 <= j < |ts| && 0 <= i < |ts[j]|
      ensures p(ts[j][i])
    {
      if j >= |a| {
        assert ts[j] == b[j - |a|];
      }
    }
    forall j | 0 <= j < |ts| ensures IsToken(ts[j]) {
      if j >= |a| {
        assert ts[j] == b[j - |a|];
      }
    }
  }

  /** The services variant of `preprocess_text`: the kept tokens, then each distinct
      pod identifier once, joined by single spaces. The output is lower-case word
      characters and single spaces, and splitting it gives back exactly the kept
      tokens followed by the distinct pod identifiers. */
  function PreprocessText(text: string, stopWords: set<string>): (r: string)
    ensures SingleSpaced(r)
    ensures forall i :: 0 <= i < |r| ==> r[i] == ' ' || CleanChar(r[i])
    ensures Split(r) == KeptTokens(text, stopWords) + PodIds(text)
  {
    var kept := KeptTokens(text, stopWords);
    var pods := PodIds(text);
    var ts := kept + pods;
    PodChars(pods);
    TokensAppend(kept, pods, CleanChar);
    JoinSpaceShape(ts, CleanChar);
    SplitJoinSpace(ts);
    JoinSpace(ts)
  }

  /** The models variant of `preprocess_text`: the kept tokens only, with no pod
      identifiers appended. */
  function PreprocessTextPlain(text: string, stopWords: set<string>): (r: string)
    ensures SingleSpaced(r)
    ensures forall i :: 0 <= i < |r| ==> r[i] == ' ' || CleanChar(r[i])
    ensures Split(r) == KeptTokens(text, stopWords)
    ensures forall t :: t in Split(r) ==> t !in stopWords
  {
    var kept := KeptTokens(text, stopWords);
    JoinSpaceShape(kept, CleanChar);
    SplitJoinSpace(kept);
    JoinSpace(kept)
  }

  /** The two variants differ exactly by the appended pod identifiers: they agree when
      the cleaned text has no `pod\d+` match, and otherwise the services variant's
      tokens are the models variant's tokens followed by the identifiers. */
  lemma VariantsDifferByPods(text: string, stopWords: set<string>)
    ensures Split(PreprocessText(text, stopWords))
         == Split(PreprocessTextPlain(text, stopWords)) + PodIds(text)
    ensures FindPods(Clean(text)) == [] ==>
              PreprocessText(text, stopWords) == PreprocessTextPlain(text, stopWords)
  {
    if FindPods(Clean(text)) == [] {
      var kept := KeptTokens(text, stopWords);
      assert PodIds(text) == [];
      assert kept + PodIds(text) == kept;
    }
  }

  /** Each token after the kept ones is a distinct pod identifier found in the cleaned
      text, and every identifier found is among them exactly once. */
  lemma PodsAppendedOnce(text: string, stopWords: set<string>, p: string)
    requires p in FindPods(Clean(text))
    ensures var ts := Split(PreprocessText(text, stopWords));
            var n := |KeptTokens(text, stopWords)|;
            exists j :: n <= j < |ts| && ts[j] == p
    ensures var ts := Split(PreprocessText(text, stopWords));
            var n := |KeptTokens(text, stopWords)|;
            forall j, k :: n <= j < k < |ts| ==> ts[j] != ts[k]
  {
    var kept := KeptTokens(text, stopWords);
    var pods := PodIds(text);
    var ts := kept + pods;
    assert Split(PreprocessText(text, stopWords)) == ts;
    var i :| 0 <= i < |pods| && pods[i] == p;
    assert ts[|kept| + i] == p;
    AppendedDistinct(kept, pods);
  }

  /** Appending a duplicate-free sequence leaves its part of the result duplicate-free. */
  lemma AppendedDistinct(kept: seq<string>, pods: seq<string>)
    requires NoDuplicates(pods)
    ensures var ts := kept + pods;
      forall j, k :: |kept| <= j < k < |ts| ==> ts[j] != ts[k]
  {
    var ts := kept + pods;
    forall j, k | |kept| <= j < k < |ts| ensures ts[j] != ts[k] {
      assert ts[j] == pods[j - |kept|] && ts[k] == pods[k - |kept|];
    }
  }

  /** A space, a letter and a space followed by a non-space character form one match,
      replaced by a single space. */
  lemma DropOneMatch(s: string)
    requires |s| >= 3 && s[0] == ' ' && IsAlpha(s[1]) && s[2] == ' '
    requires |s| == 3 || !IsSpace(s[3])
    ensures DropSingleLetters(s) == [' '] + DropSingleLetters(s[3..])
  {
    assert SpaceLen(s[1..]) == 0;
    assert SpaceLen(s) == 1;
    assert SpaceLen(s[2..][1..]) == 0;
    assert SpaceLen(s[2..]) == 1;
    assert SingleLetterMatch(s) == 3;
  }

  /** Text that starts with a non-space character keeps that character. */
  lemma DropKeepsFirst(s: string)
    requires |s| > 0 && !IsSpace(s[0])
    ensures DropSingleLetters(s) == [s[0]] + DropSingleLetters(s[1..])
  {
    assert SpaceLen(s) == 0;
  }

  /** One match followed by a kept letter. */
  lemma DropMatchThenKeep(s: string)
    requires |s| >= 4 && s[0] == ' ' && IsAlpha(s[1]) && s[2] == ' ' && IsAlpha(s[3])
    ensures DropSingleLetters(s) == [' ', s[3]] + DropSingleLetters(s[4..])
  {
    DropOneMatch(s);
    DropKeepsThird(s);
    ConsTwo(DropSingleLetters(s), DropSingleLetters(s[3..]), DropSingleLetters(s[4..]), ' ', s[3]);
  }

  /** After a match of three characters, a letter at index 3 is kept. */
  lemma DropKeepsThird(s: string)
    requires |s| >= 4 && IsAlpha(s[3])
    ensures DropSingleLetters(s[3..]) == [s[3]] + DropSingleLetters(s[4..])
  {
    var t := s[3..];
    DropKeepsFirst(t);
    assert t[0] == s[3] && t[1..] == s[4..];
  }

  lemma ConsTwo(x: string, y: string, z: string, a: char, b: char)
    requires x == [a] + y && y == [b] + z
    ensures x == [a, b] + z
  {
  }

  /** `n` single letters, each preceded by a space, and a closing space:
      " a b c ... " with `n` letters. */
  predicate LetterRun(s: string, n: nat) {
    && |s| == 2 * n + 1
    && (forall i :: 0 <= i <= n ==> s[2 * i] == ' ')
    && (forall i :: 0 <= i < n ==> IsAlpha(s[2 * i + 1]))
  }

  lemma LetterRunAt(s: string, n: nat, i: nat)
    requires LetterRun(s, n) && i < n
    ensures s[2 * i] == ' ' && IsAlpha(s[2 * i + 1]) && s[2 * i + 2] == ' '
  {
    assert s[2 * (i + 1)] == ' ';
  }

  /** `r` holds `m` letters of `s`, separated and surrounded by single spaces: the
      second, fourth, ... letters of a letter run `s`. */
  predicate KeepsEveryOther(r: string, s: string, m: nat) {
    && |r| == 2 * m + 1
    && |s| >= 4 * m
    && forall k :: 0 <= k < |r| ==> r[k] == if k % 2 == 0 then ' ' else s[2 * k + 1]
  }

  /** The number of pairs in `n`, counted down by twos. */
  function Half(n: nat): nat {
    if n < 2 then 0 else Half(n - 2) + 1
  }

  /** The pairs counted are `n / 2`, so `n` letters keep `n / 2` of them. */
  lemma {:induction false} HalfIsDiv(n: nat)
    ensures Half(n) == n / 2
    decreases n
  {
    if n >= 2 {
      HalfIsDiv(n - 2);
    }
  }

  /** In a run of single letters, the one-pass substitution removes every other
      letter: the trailing space of one match is consumed, so the next letter has no
      leading whitespace left to match. Of `n` letters the second, fourth, ... survive,
      still separated by single spaces: " a b c d e " becomes " b d ". */
  lemma {:induction false} SingleLetterRunKeepsEveryOther(s: string, n: nat)
    requires LetterRun(s, n)
    ensures KeepsEveryOther(DropSingleLetters(s), s, Half(n))
    decreases n, 1
  {
    if n <= 1 {
      ShortLetterRun(s, n);
    } else {
      var t := s[4..];
      var rest := DropSingleLetters(t);
      LetterRunRest(s, n);
      assert DropSingleLetters(s) == [' ', s[3]] + rest by {
        LetterRunAt(s, n, 0);
        LetterRunAt(s, n, 1);
        DropMatchThenKeep(s);
      }
      KeepsEveryOtherCons(s, DropSingleLetters(s), rest, n);
    }
  }

  /** The rest of a run after its first two letters keeps every other letter. */
  lemma {:induction false} LetterRunRest(s: string, n: nat)
    requires LetterRun(s, n) && n >= 2
    ensures KeepsEveryOther(DropSingleLetters(s[4..]), s[4..], Half(n - 2))
    decreases n, 0
  {
    LetterRunTail(s, n);
    SingleLetterRunKeepsEveryOther(s[4..], n - 2);
  }

  /** A run of no letter is kept as it is; a run of one letter becomes one space. */
  lemma ShortLetterRun(s: string, n: nat)
    requires LetterRun(s, n) && n <= 1
    ensures DropSingleLetters(s) == [' ']
  {
    if n == 0 {
      assert s == [' '];
      DropLoneSpace();
    } else {
      LetterRunAt(s, n, 0);
      DropOneMatch(s);
      assert s[3..] == [];
    }
  }

  /** Dropping the first two letters of a run leaves a run. */
  lemma LetterRunTail(s: string, n: nat)
    requires LetterRun(s, n) && n >= 2
    ensures LetterRun(s[4..], n - 2)
  {
    var t := s[4..];
    forall i | 0 <= i <= n - 2 ensures t[2 * i] == ' ' {
      assert t[2 * i] == s[2 * (i + 2)];
    }
    forall i | 0 <= i < n - 2 ensures IsAlpha(t[2 * i + 1]) {
      assert t[2 * i + 1] == s[2 * (i + 2) + 1];
    }
  }

  /** A space and the second letter in front of the result for the rest of the run. */
  lemma KeepsEveryOtherCons(s: string, r2: string, r: string, n: nat)
    requires |s| >= 4 && n >= 2 && KeepsEveryOther(r, s[4..], Half(n - 2))
    requires r2 == [' ', s[3]] + r
    ensures KeepsEveryOther(r2, s, Half(n))
  {
    forall k | 0 <= k < |r2| ensures r2[k] == if k % 2 == 0 then ' ' else s[2 * k + 1] {
      if k >= 2 {
        assert r2[k] == r[k - 2];
        assert k % 2 == (k - 2) % 2;
        if k % 2 == 1 {
          assert s[4..][2 * (k - 2) + 1] == s[2 * k + 1];
        }
      }
    }
  }

  /** " c d " becomes " d ". */
  lemma DropPairOfLetters(s: string)
    requires |s| == 5
    requires s[0] == ' ' && s[2] == ' ' && s[4] == ' '
    requires IsAlpha(s[1]) && IsAlpha(s[3])
    ensures DropSingleLetters(s) == [' ', s[3], ' ']
  {
    DropMatchThenKeep(s);
    assert s[4..] == [' '];
    DropLoneSpace();
  }

  lemma DropLoneSpace()
    ensures DropSingleLetters([' ']) == [' ']
  {
    assert SpaceLen([' ']) == 1;
    assert SingleLetterMatch([' ']) == 0;
    assert [' '][1..] == [];
  }

  lemma {:induction false} DropSingleLettersNoSpace(s: string)
    requires forall i :: 0 <= i < |s| ==> !IsSpace(s[i])
    ensures DropSingleLetters(s) == s
    decreases |s|
  {
    if |s| > 0 {
      DropKeepsFirst(s);
      DropSingleLettersNoSpace(s[1..]);
    }
  }

  lemma {:induction false} CollapseSpacesNoSpace(s: string)
    requires forall i :: 0 <= i < |s| ==> !IsSpace(s[i])
    ensures CollapseSpaces(s) == s
    decreases |s|
  {
    if |s| > 0 {
      CollapseSpacesNoSpace(s[1..]);
    }
  }

  lemma {:induction false} DigitLenAll(s: string)
    requires forall i :: 0 <= i < |s| ==> IsDigit(s[i])
    ensures DigitLen(s) == |s|
    decreases |s|
  {
    if |s| > 0 {
      DigitLenAll(s[1..]);
    }
  }

  /** A pod identifier on its own is cleaned to itself, kept as a token, and found
      as a `pod\d+` match, so it is emitted twice. */
  lemma KeptPodAppearsTwice(t: string, stopWords: set<string>)
    requires IsPodId(t)
    requires t !in stopWords
    ensures PreprocessText(t, stopWords) == t + " " + t
  {
    CleanPodId(t);
    assert Split(t) == [t] by {
      PodIdIsToken(t);
      assert [t][0] == t;
      SplitJoinSpace([t]);
      assert JoinSpace([t]) == t;
    }
    assert KeptTokens(t, stopWords) == [t];
    FindPodsOfPodId(t);
    assert Distinct([t]) == [t] by {
      assert [t][..0] == [];
    }
    assert PodIds(t) == [t];
    assert JoinSpace([t, t]) == t + " " + t by {
      assert [t, t][1..] == [t];
      assert JoinSpace([t]) == t;
    }
  }

  /** A pod identifier is its own cleaned form. */
  lemma CleanPodId(t: string)
    requires IsPodId(t)
    ensures Clean(t) == t
  {
    PodIdIsToken(t);
    PodChars([t]);
    assert forall i :: 0 <= i < |t| ==> CleanChar(t[i]) by {
      forall i | 0 <= i < |t| ensures CleanChar(t[i]) {
        assert [t][0] == t;
      }
    }
    assert Lower(t) == t;
    assert ReplaceNonWord(t) == t;
    DropSingleLettersNoSpace(t);
    CollapseSpacesNoSpace(t);
  }

  /** A pod identifier on its own is one `pod\d+` match. */
  lemma FindPodsOfPodId(t: string)
    requires IsPodId(t)
    ensures FindPods(t) == [t]
  {
    DigitLenAll(t[3..]);
    assert t[..3 + (|t| - 3)] == t;
    assert FindPods(t[|t|..]) == [];
  }
}

=== FILE: query_manager.dfy ===
/** The query manager: it connects to the vector store, then searches one collection,
    writing the shared query state around each step. The store is a pair of oracles: the
    collection lookup and the search, each of which returns a value or raises with a
    message. The connect call is an oracle that either returns or raises. */
module QueryManager {
  import opened Wrappers
  import opened QueryStatus

  const DefaultCollection: string := "health_data_cons_final"

  /** The search parameters set at construction. */
  datatype SearchParams = SearchParams(metricType: string, nprobe: nat)

  const DefaultSearchParams: SearchParams := SearchParams("L2", 10)

  datatype Manager = Manager(collectionName: string, searchParams: SearchParams)

  /** A collection handle, as the lookup returns it. */
  datatype Collection = Collection(name: string)

  /** One search call: the vector, the field searched, the parameters, the result limit
      and the fields returned. */
  datatype SearchRequest<V> = SearchRequest(vector: V, field: string, params: SearchParams, limit: nat, outputFields: seq<string>)

  datatype QueryException = QueryException(message: string, errors: string)

  const QueryFailedMessage: string := "Database connection failed"

  /** Writes a member state; a member is always accepted. */
  function Write(reg: Registry, s: QueryState): (r: Registry)
    ensures r == reg.(current := s)
  {
    SetCurrentState(reg, Member(s)).reg
  }

  /** Construction and connection: the controller is obtained, the connect oracle is called,
      and CONNECTED is written only once it has returned. A raising connect leaves the
      constructor failed and the state as it was. */
  function NewManager(reg: Registry, collectionName: string, connect: Result<(), string>)
    : (out: (Registry, Result<Manager, string>))
    ensures out.0.created
    ensures out.1.Ok? <==> connect.Ok?
    ensures connect.Ok? ==>
      out.0.current == Connected && out.1.value == Manager(collectionName, DefaultSearchParams)
    ensures connect.Err? ==> out.0.current == reg.current && out.1 == Err(connect.error)
  {
    var controlled := Construct(reg);
    match connect
    case Ok(_) => (Write(controlled, Connected), Ok(Manager(collectionName, DefaultSearchParams)))
    case Err(msg) => (controlled, Err(msg))
  }

  /** What a search did: the states written in order, the registry afterwards, the search
      request issued if any, and the result or the exception raised. */
  datatype SearchRun<V, R> = SearchRun(
    writes: seq<QueryState>,
    reg: Registry,
    request: Option<SearchRequest<V>>,
    result: Result<R, QueryException>)

  /** The request every search issues: field "embeddings", the manager's parameters, five
      results, and the id and data fields. */
  function RequestFor<V>(m: Manager, vector: V): SearchRequest<V> {
    SearchRequest(vector, "embeddings", m.searchParams, 5, ["id", "data"])
  }

  /** `perform_search`: RUNNING is written, the collection is looked up, COMPLETED is
      written, and the search is issued. Any exception from the lookup or the search is
      re-raised as a QueryException carrying its message; nothing writes FAILED. */
  function PerformSearch<V, R>(
    m: Manager, reg: Registry, vector: V,
    lookup: string -> Result<Collection, string>,
    search: (Collection, SearchRequest<V>) -> Result<R, string>)
    : (run: SearchRun<V, R>)
    ensures |run.writes| > 0 && run.writes[0] == Running
    ensures run.reg == reg.(current := run.writes[|run.writes| - 1])
    ensures lookup(m.collectionName).Err? ==>
      && run.writes == [Running]
      && run.request.None?
      && run.result == Err(QueryException(QueryFailedMessage, lookup(m.collectionName).error))
    ensures lookup(m.collectionName).Ok? ==>
      && run.writes == [Running, Completed]
      && run.request == Some(RequestFor(m, vector))
      && run.result == match search(lookup(m.collectionName).value, RequestFor(m, vector))
           case Ok(v) => Ok(v)
           case Err(e) => Err(QueryException(QueryFailedMessage, e))
  {
    var running := Write(reg, Running);
    match lookup(m.collectionName)
    case Err(e) => SearchRun([Running], running, None, Err(QueryException(QueryFailedMessage, e)))
    case Ok(collection) =>
      var completed := Write(running, Completed);
      var request := RequestFor(m, vector);
      var result := match search(collection, request)
        case Ok(v) => Ok(v)
        case Err(e) => Err(QueryException(QueryFailedMessage, e));
      SearchRun([Running, Completed], completed, Some(request), result)
  }

  /** A manager that connected and then searched has written CONNECTED, RUNNING and, if
      the lookup succeeded, COMPLETED, and nothing else: STARTED and FAILED are never
      written, and the state after a failing search is still COMPLETED. */
  lemma ConnectThenSearch<V, R>(
    reg: Registry, vector: V,
    lookup: string -> Result<Collection, string>,
    search: (Collection, SearchRequest<V>) -> Result<R, string>)
    ensures var (r1, mgr) := NewManager(reg, DefaultCollection, Ok(()));
      var run := PerformSearch(mgr.value, r1, vector, lookup, search);
      var trace := [Connected] + run.writes;
      && Started !in trace && Failed !in trace && Pending !in trace
      && (lookup(DefaultCollection).Ok? ==> trace == [Connected, Running, Completed] && GetCurrentState(run.reg) == Completed)
      && (lookup(DefaultCollection).Err? ==> trace == [Connected, Running] && GetCurrentState(run.reg) == Running)
  {
  }

  /** Every search uses the same fixed request shape, whatever the collection. */
  lemma SearchRequestFixed<V>(name: string, vector: V)
    ensures var q := RequestFor(NewManager(InitialRegistry, name, Ok(())).1.value, vector);
      q.field == "embeddings" && q.params.metricType == "L2" && q.params.nprobe == 10
      && q.limit == 5 && q.outputFields == ["id", "data"] && q.vector == vector
  {
  }
}

=== FILE: query_status.dfy ===
/** The query states and the process-wide state controller. The controller is a
    singleton: the registry below is the one shared instance (or its absence), and every
    holder reads and writes the same current state. */
module QueryStatus {
  import opened Wrappers

  datatype QueryState = Pending | Connected | Started | Running | Failed | Completed

  /** The enum member's value: the text of its own name. */
  function Value(s: QueryState): string {
    match s
    case Pending => "PENDING"
    case Connected => "CONNECTED"
    case Started => "STARTED"
    case Running => "RUNNING"
    case Failed => "FAILED"
    case Completed => "COMPLETED"
  }

  /** The members in declaration order. */
  const AllStates: seq<QueryState> := [Pending, Connected, Started, Running, Failed, Completed]

  /** There are exactly six states, listed once each, and no two share a value, so no
      member aliases another. */
  lemma StatesDistinct()
    ensures |AllStates| == 6
    ensures forall s: QueryState :: s in AllStates
    ensures forall i, j :: 0 <= i < j < |AllStates| ==> Value(AllStates[i]) != Value(AllStates[j])
    ensures forall a: QueryState, b: QueryState :: Value(a) == Value(b) ==> a == b
  {
    forall s: QueryState ensures s in AllStates {
      assert s == AllStates[0] || s == AllStates[1] || s == AllStates[2]
        || s == AllStates[3] || s == AllStates[4] || s == AllStates[5];
    }
    forall a: QueryState, b: QueryState | Value(a) == Value(b) ensures a == b {
      assert Value(a)[0] == Value(b)[0];
      if Value(a)[0] == 'C' {
        assert Value(a)[1] == Value(b)[1];
      }
    }
  }

  /** What `set_current_state` is given: a member of the enum, or some other value,
      described by its text. */
  datatype StateArg = Member(state: QueryState) | Other(text: string)

  /** The controller singleton: whether the instance exists yet, and the current state
      it shares (initially the class default, PENDING). */
  datatype Registry = Registry(created: bool, current: QueryState)

  const InitialRegistry: Registry := Registry(false, Pending)

  const InvalidStateMessage: string := "Invalid state. Must be an instance of QueryStates."

  /** `QueryStateController()`: creates the instance on first use, and otherwise hands back
      the existing one with its state intact. */
  function Construct(reg: Registry): (r: Registry)
    ensures r.created
    ensures r.current == reg.current
  {
    Registry(true, reg.current)
  }

  function GetCurrentState(reg: Registry): (s: QueryState) {
    reg.current
  }

  /** The result of a setter call: the registry afterwards, and the error raised if any. */
  datatype SetOutcome = SetOutcome(reg: Registry, error: Option<string>)

  /** Any member may be set from any state; any other value raises ValueError and
      leaves the state unchanged. */
  function SetCurrentState(reg: Registry, arg: StateArg): (o: SetOutcome)
    ensures o.error.None? <==> arg.Member?
    ensures arg.Member? ==> o.reg == reg.(current := arg.state)
    ensures arg.Other? ==> o.reg == reg && o.error == Some(InvalidStateMessage)
  {
    match arg
    case Member(s) => SetOutcome(reg.(current := s), None)
    case Other(_) => SetOutcome(reg, Some(InvalidStateMessage))
  }

  /** The getter returns the state most recently set, whatever came before. */
  lemma GetReturnsLastSet(reg: Registry, s: QueryState, t: QueryState)
    ensures GetCurrentState(SetCurrentState(SetCurrentState(reg, Member(t)).reg, Member(s)).reg) == s
  {
  }

  /** A fresh process starts in PENDING, and constructing the controller again later
      never resets the state another holder set. */
  lemma SharedInstance(reg: Registry, s: QueryState)
    ensures GetCurrentState(Construct(InitialRegistry)) == Pending
    ensures GetCurrentState(Construct(SetCurrentState(Construct(reg), Member(s)).reg)) == s
  {
  }

  /** Passing a member's value rather than the member itself is rejected. */
  lemma ValueIsNotMember(reg: Registry, s: QueryState)
    ensures SetCurrentState(reg, Other(Value(s))).error == Some(InvalidStateMessage)
    ensures SetCurrentState(reg, Other(Value(s))).reg == reg
  {
  }
}

=== FILE: seqs.dfy ===
/** Sequence and counting helpers standing in for Python built-ins: slicing with
    Python's index normalisation, list-comprehension filters, dict key order,
    `collections.Counter`, and the sum of a dict's values. */
module Seqs {

  predicate NoDuplicates<T(==)>(s: seq<T>) {
    forall i, j :: 0 <= i < j < |s| ==> s[i] != s[j]
  }

  /** Python's normalisation of one slice bound: negative bounds count from the end,
      then the bound is clamped to `[0, len]`. */
  function SliceBound(len: nat, b: int): (r: nat)
    ensures r <= len
    ensures 0 <= b <= len ==> r == b
    ensures b > len ==> r == len
  {
    var b' := if b < 0 then b + len else b;
    if b' < 0 then 0 else if b' > len then len else b'
  }

  /** Python's `s[a:b]` for any integers `a` and `b`. */
  function Slice<T>(s: seq<T>, a: int, b: int): (r: seq<T>)
    ensures 0 <= a <= b <= |s| ==> r == s[a..b]
    ensures 0 <= a <= |s| <= b ==> r == s[a..]
    ensures |r| <= |s|
    ensures forall x :: x in r ==> x in s
  {
    var lo := SliceBound(|s|, a);
    var hi := SliceBound(|s|, b);
    if hi <= lo then [] else s[lo..hi]
  }

  /** `[x for x in s if p(x)]`. */
  function Filter<T(!new)>(s: seq<T>, p: T -> bool): (r: seq<T>)
    ensures |r| <= |s|
    ensures forall x :: x in r <==> x in s && p(x)
    ensures NoDuplicates(s) ==> NoDuplicates(r)
  {
    if |s| == 0 then []
    else if p(s[0]) then [s[0]] + Filter(s[1..], p)
    else Filter(s[1..], p)
  }

  /** The distinct elements of `s` in order of first occurrence: the key order of a
      Python dict or `Counter` filled from `s`. */
  function Distinct<T(==,!new)>(s: seq<T>): (d: seq<T>)
    ensures forall x :: x in d <==> x in s
    ensures NoDuplicates(d)
    ensures |d| <= |s|
  {
    if |s| == 0 then []
    else
      var d := Distinct(s[..|s| - 1]);
      var x := s[|s| - 1];
      assert forall y :: y in s <==> y in s[..|s| - 1] || y == x by {
        assert s == s[..|s| - 1] + [x];
      }
      if x in d then d else d + [x]
  }

  /** `collections.Counter(s)`: every element of `s` mapped to its number of occurrences. */
  function CountMap<T(==,!new)>(s: seq<T>): (m: map<T, nat>)
    ensures forall x :: x in m <==> x in s
    ensures forall x :: x in m ==> m[x] == multiset(s)[x] && m[x] > 0
  {
    if |s| == 0 then map[]
    else
      var init := s[..|s| - 1];
      var x := s[|s| - 1];
      assert s == init + [x];
      var m := CountMap(init);
      m[x := (if x in m then m[x] else 0) + 1]
  }

  /** The sum of `m`'s values over the keys in `keys`, independent of any key order. */
  ghost function SumOver<K>(keys: set<K>, m: map<K, nat>): nat
    requires keys <= m.Keys
  {
    if keys == {} then 0
    else
      var k :| k in keys;
      m[k] + SumOver(keys - {k}, m)
  }

  /** `sum(d.values())`. */
  ghost function MapTotal<K>(m: map<K, nat>): nat {
    SumOver(m.Keys, m)
  }

  /** The sum can be computed by taking out any key first, whichever one the
      definition happened to pick. */
  lemma {:induction false} SumOverRemove<K>(keys: set<K>, m: map<K, nat>, k: K)
    requires keys <= m.Keys
    requires k in keys
    ensures SumOver(keys, m) == m[k] + SumOver(keys - {k}, m)
    decreases keys
  {
    var j :| j in keys && SumOver(keys, m) == m[j] + SumOver(keys - {j}, m);
    if j != k {
      SumOverRemove(keys - {j}, m, k);
      SumOverRemove(keys - {k}, m, j);
      assert keys - {j} - {k} == keys - {k} - {j};
    }
  }

  /** The sum only reads the values under the summed keys. */
  lemma {:induction false} SumOverAgree<K>(keys: set<K>, m1: map<K, nat>, m2: map<K, nat>)
    requires keys <= m1.Keys && keys <= m2.Keys
    requires forall x :: x in keys ==> m1[x] == m2[x]
    ensures SumOver(keys, m1) == SumOver(keys, m2)
    decreases keys
  {
    if keys != {} {
      var k :| k in keys;
      SumOverRemove(keys, m1, k);
      SumOverRemove(keys, m2, k);
      SumOverAgree(keys - {k}, m1, m2);
    }
  }

  /** Storing `v` under key `k` changes the total by `v` minus the old value. */
  lemma MapTotalUpdate<K>(m: map<K, nat>, k: K, v: nat)
    ensures k in m ==> MapTotal(m[k := v]) + m[k] == MapTotal(m) + v
    ensures k !in m ==> MapTotal(m[k := v]) == MapTotal(m) + v
  {
    var u := m[k := v];
    SumOverRemove(u.Keys, u, k);
    var rest := m.Keys - {k};
    assert u.Keys - {k} == rest;
    SumOverAgree(rest, u, m);
    if k in m {
      SumOverRemove(m.Keys, m, k);
    } else {
      assert rest == m.Keys;
    }
  }

  /** The counts of a `Counter` add up to the number of counted elements. */
  lemma {:induction false} CountMapTotal<T(!new)>(s: seq<T>)
    ensures MapTotal(CountMap(s)) == |s|
    decreases |s|
  {
    if |s| == 0 {
    } else {
      var init := s[..|s| - 1];
      var x := s[|s| - 1];
      var m := CountMap(init);
      var v := (if x in m then m[x] else 0) + 1;
      assert CountMap(s) == m[x := v];
      CountMapTotal(init);
      MapTotalUpdate(m, x, v);
    }
  }

  /** A subset is no larger than the set containing it. */
  lemma {:induction false} SubsetCard<T>(a: set<T>, b: set<T>)
    requires a <= b
    ensures |a| <= |b|
    decreases a
  {
    if a != {} {
      var x :| x in a;
      SubsetCard(a - {x}, b - {x});
    }
  }

  /** Filtering distributes over concatenation: a filter keeps its input order. */
  lemma {:induction false} FilterConcat<T(!new)>(a: seq<T>, b: seq<T>, p: T -> bool)
    ensures Filter(a + b, p) == Filter(a, p) + Filter(b, p)
    decreases |a|
  {
    if |a| > 0 {
      var head := if p(a[0]) then [a[0]] else [];
      FilterStep(a, b, p);
      FilterConcat(a[1..], b, p);
      AppendAssoc(Filter(a + b, p), head, Filter(a[1..] + b, p), Filter(a, p), Filter(a[1..], p), Filter(b, p));
    } else {
      assert a + b == b;
    }
  }

  lemma FilterStep<T(!new)>(a: seq<T>, b: seq<T>, p: T -> bool)
    requires |a| > 0
    ensures Filter(a + b, p) == (if p(a[0]) then [a[0]] else []) + Filter(a[1..] + b, p)
    ensures Filter(a, p) == (if p(a[0]) then [a[0]] else []) + Filter(a[1..], p)
  {
    assert (a + b)[0] == a[0];
    assert (a + b)[1..] == a[1..] + b;
  }

  /** A filter that rejects every element keeps nothing. */
  lemma {:induction false} FilterNone<T(!new)>(s: seq<T>, p: T -> bool)
    requires forall i :: 0 <= i < |s| ==> !p(s[i])
    ensures Filter(s, p) == []
    decreases |s|
  {
    if |s| > 0 {
      FilterNone(s[1..], p);
    }
  }

  /** `0, 1, ..., n - 1`. */
  function Range(n: nat): (r: seq<nat>)
    ensures |r| == n
    ensures forall i :: 0 <= i < n ==> r[i] == i
  {
    seq(n, i requires 0 <= i < n => i)
  }

  /** `order` lists each of `0, ..., n - 1` exactly once. */
  predicate IsPermutation(order: seq<nat>, n: nat) {
    |order| == n && multiset(order) == multiset(Range(n))
  }

  lemma PermutationBounds(order: seq<nat>, n: nat)
    requires IsPermutation(order, n)
    ensures |order| == n
    ensures forall k :: 0 <= k < |order| ==> order[k] < n
  {
    forall k | 0 <= k < |order| ensures order[k] < n {
      assert order[k] in multiset(order);
      assert order[k] in Range(n);
    }
  }

  /** `[f(x) for x in xs]`. */
  function Map<T, U>(f: T -> U, xs: seq<T>): (ys: seq<U>)
    ensures |ys| == |xs|
    ensures forall i {:trigger ys[i]} :: 0 <= i < |xs| ==> ys[i] == f(xs[i])
  {
    seq(|xs|, i requires 0 <= i < |xs| => f(xs[i]))
  }

  /** `r = h + s` with `s = sa + rb` and `ra = h + sa` give `r = ra + rb`. */
  lemma AppendAssoc<T>(r: seq<T>, h: seq<T>, s: seq<T>, ra: seq<T>, sa: seq<T>, rb: seq<T>)
    requires r == h + s && s == sa + rb && ra == h + sa
    ensures r == ra + rb
  {
  }

  lemma MapConcat<T, U>(f: T -> U, a: seq<T>, b: seq<T>)
    ensures Map(f, a + b) == Map(f, a) + Map(f, b)
  {
  }

  /** Taking the same element out of two sequences with the same elements leaves
      sequences with the same elements. */
  lemma MultisetRemove<T>(xs: seq<T>, ys: seq<T>, j: nat)
    requires |xs| > 0 && j < |ys| && ys[j] == xs[0]
    requires multiset(xs) == multiset(ys)
    ensures multiset(xs[1..]) == multiset(ys[..j] + ys[j + 1..])
  {
    var x := xs[0];
    var rest := ys[..j] + ys[j + 1..];
    assert ys == ys[..j] + [x] + ys[j + 1..];
    assert xs == [x] + xs[1..];
    forall e ensures multiset(xs[1..])[e] == multiset(rest)[e] {
      assert multiset(xs)[e] == multiset{x}[e] + multiset(xs[1..])[e];
      assert multiset(ys)[e] == multiset(ys[..j])[e] + multiset{x}[e] + multiset(ys[j + 1..])[e];
    }
    assert multiset(xs[1..]) == multiset(rest);
  }

  /** Mapping two sequences with the same elements gives sequences with the same
      elements. */
  lemma {:induction false} MapMultiset<T, U>(f: T -> U, xs: seq<T>, ys: seq<T>)
    requires multiset(xs) == multiset(ys)
    ensures multiset(Map(f, xs)) == multiset(Map(f, ys))
    decreases |xs|
  {
    if |xs| > 0 {
      var j := IndexOf(xs[0], ys);
      var tail, rest := xs[1..], ys[..j] + ys[j + 1..];
      MultisetRemove(xs, ys, j);
      MapMultiset(f, tail, rest);
      MapMultisetAt(f, xs, 0);
      assert xs[..0] + xs[1..] == tail;
      MapMultisetAt(f, ys, j);
      SameRemainder(multiset(Map(f, xs)), multiset(Map(f, tail)), multiset(Map(f, rest)),
        multiset(Map(f, ys)), multiset{f(xs[0])});
    }
  }

  lemma SameRemainder<U>(a: multiset<U>, b: multiset<U>, c: multiset<U>, d: multiset<U>, m: multiset<U>)
    requires a == m + b && b == c && d == m + c
    ensures a == d
  {
  }

  lemma IndexOf<T>(x: T, ys: seq<T>) returns (j: nat)
    requires x in multiset(ys)
    ensures j < |ys| && ys[j] == x
  {
    assert x in ys;
    j :| 0 <= j < |ys| && ys[j] == x;
  }

  /** Mapping a sequence maps the element at `j` and the rest separately. */
  lemma MapMultisetAt<T, U>(f: T -> U, ys: seq<T>, j: nat)
    requires j < |ys|
    ensures multiset(Map(f, ys)) == multiset{f(ys[j])} + multiset(Map(f, ys[..j] + ys[j + 1..]))
  {
    var a, b := ys[..j], ys[j + 1..];
    assert ys == a + [ys[j]] + b;
    MapConcat(f, a + [ys[j]], b);
    MapConcat(f, a, [ys[j]]);
    MapConcat(f, a, b);
    assert Map(f, [ys[j]]) == [f(ys[j])];
  }
}

=== FILE: storage_exception.dfy ===
/** The storage exception: a message and optional error details, and its text. */
module StorageErrors {

  /** The `errors` argument: absent (None), a string, or another exception, which Python
      always treats as true. Each carries its `str()` text. */
  datatype ErrorDetails = NoErrors | Text(text: string) | Exception(text: string)

  /** Python truthiness of the details. */
  predicate Truthy(d: ErrorDetails) {
    match d
    case NoErrors => false
    case Text(t) => t != ""
    case Exception(_) => true
  }

  datatype StorageException = StorageException(message: string, errors: ErrorDetails)

  /** Construction with the default: no error details. */
  function NewStorageException(message: string): (e: StorageException)
    ensures e.message == message && !Truthy(e.errors)
  {
    StorageException(message, NoErrors)
  }

  /** `str(e)`: the message, followed by `": "` and the details' text when the details
      are true. */
  function Str(e: StorageException): (s: string)
    ensures !Truthy(e.errors) ==> s == e.message
    ensures Truthy(e.errors) ==> s == e.message + ": " + e.errors.text
  {
    if Truthy(e.errors) then e.message + ": " + e.errors.text else e.message
  }

  /** The text always starts with the message, and the message and the details can be
      read back from it: two exceptions with the same message and true details have the
      same text exactly when their details' texts agree, and false details never add
      anything. */
  lemma StrReadsBack(e1: StorageException, e2: StorageException)
    requires e1.message == e2.message
    ensures |Str(e1)| >= |e1.message| && Str(e1)[..|e1.message|] == e1.message
    ensures Truthy(e1.errors) && Truthy(e2.errors) ==> (Str(e1) == Str(e2) <==> e1.errors.text == e2.errors.text)
    ensures !Truthy(e1.errors) && !Truthy(e2.errors) ==> Str(e1) == Str(e2)
    ensures Truthy(e1.errors) && !Truthy(e2.errors) ==> Str(e1) != Str(e2)
  {
    if Truthy(e1.errors) && Truthy(e2.errors) && Str(e1) == Str(e2) {
      var n := |e1.message| + 2;
      assert e1.errors.text == Str(e1)[n..];
      assert e2.errors.text == Str(e2)[n..];
    }
  }

  /** An empty string as details is false, so it adds no separator; an exception with an
      empty text is true, so it does. */
  lemma FalsyDetails(message: string)
    ensures Str(StorageException(message, Text(""))) == message
    ensures Str(StorageException(message, Exception(""))) == message + ": "
  {
  }
}

=== FILE: storage_writer.dfy ===
/** The storage writer: a shared instance that connects once, a bulk insert that creates
    its collection, and an upsert into an existing collection. The vector store is
    observed through the calls made to it and answers through oracles. */
module StorageWriter {
  import opened Wrappers
  import opened Seqs
  import opened StorageErrors

  // ---------------------------------------------------------------------------
  // The shared instance

  datatype ServerStatus = IsAvailable

  /** What the connect call does: succeed, raise the connection exception it catches, or
      raise anything else. */
  datatype ConnectOutcome = ConnectOk | ConnectionRefused | ConnectRaised(message: string)

  /** The instance's attributes; an attribute not yet assigned is None. */
  datatype Writer<E> = Writer(isConnected: Option<bool>, encoder: Option<E>, status: Option<ServerStatus>)

  /** `instance()`: the first call caches a new writer, connects it, and records the
      encoder and the available status; a connection exception leaves it unconnected,
      any other exception escapes with the half-built writer already cached. Later calls
      return the cached writer and ignore their encoder. */
  function Instance<E>(cached: Option<Writer<E>>, encoder: E, connect: ConnectOutcome)
    : (r: (Option<Writer<E>>, Result<Writer<E>, string>))
    ensures r.0.Some?
    ensures cached.Some? ==> r == (cached, Ok(cached.value))
    ensures cached.None? && !connect.ConnectRaised? ==>
      r.1 == Ok(r.0.value) && r.0.value == Writer(Some(connect.ConnectOk?), Some(encoder), Some(IsAvailable))
    ensures cached.None? && connect.ConnectRaised? ==>
      r.1 == Err(connect.message) && r.0.value == Writer(None, None, None)
  {
    match cached
    case Some(w) => (cached, Ok(w))
    case None =>
      match connect
      case ConnectRaised(m) => (Some(Writer(None, None, None)), Err(m))
      case _ =>
        var w := Writer(Some(connect.ConnectOk?), Some(encoder), Some(IsAvailable));
        (Some(w), Ok(w))
  }

  /** One instance is created and connected: the second call returns the first call's
      writer, whatever encoder and connection outcome it would have had. */
  lemma InstanceOnce<E>(encoder1: E, connect1: ConnectOutcome, encoder2: E, connect2: ConnectOutcome)
    ensures var first := Instance(None, encoder1, connect1);
      Instance(first.0, encoder2, connect2) == (first.0, Ok(first.0.value))
  {
  }

  // ---------------------------------------------------------------------------
  // Bulk insert into a new collection

  datatype DataType = Int64 | VarChar(maxLength: nat) | FloatVector(dim: nat)

  datatype Field = Field(name: string, dtype: DataType, isPrimary: bool, autoId: bool)

  datatype Schema = Schema(fields: seq<Field>)

  /** The index parameters: type, metric and cluster count. */
  datatype Index = Index(indexType: string, metricType: string, nlist: nat)

  const DefaultIndex: Index := Index("IVF_FLAT", "L2", 128)

  const DefaultDataMaxLength: nat := 512

  /** A two-dimensional array of vectors: its rows and its second dimension. */
  datatype Matrix = Matrix(rows: seq<seq<real>>, width: nat)

  /** A column of the inserted entities. */
  datatype Column = Texts(texts: seq<string>) | Vectors(vectors: seq<seq<real>>)

  datatype StoreCall = CreateCollection(name: string, schema: Schema) | InsertColumns(columns: seq<Column>)
    | CreateIndex(field: string, index: Index) | LoadCollection

  datatype WriterError = RuntimeError(message: string) | Storage(exception: StorageException) | Raised(message: string)

  /** What `collection.insert` does: return a result, raise a storage exception, or raise
      something else. */
  datatype InsertOutcome<R> = Inserted(result: R) | InsertStorageFailure(exception: StorageException) | InsertRaised(message: string)

  /** The schema of a new collection: an auto-generated INT64 primary key "id", the text
      as VARCHAR "data" of the given length, and FLOAT_VECTOR "embeddings" as wide as the
      vectors. */
  function CollectionSchemaFor(dataMaxLength: nat, dim: nat): Schema {
    Schema([Field("id", Int64, true, true), Field("data", VarChar(dataMaxLength), false, false),
            Field("embeddings", FloatVector(dim), false, false)])
  }

  function MissingArgument(arg: string): string {
    "Arg: '" + arg + "' cannot be None: Insertion of None object"
  }

  const InsertFailedMessage: string :=
    "Insertion of data failed please check the Schema and corpus of the data, consistency can be a factor"

  /** The first missing argument among vectors, index, data and collection name, in that
      order. */
  function FirstMissing(vectors: Option<Matrix>, index: Option<Index>, data: Option<seq<string>>, name: Option<string>)
    : (m: Option<string>)
    ensures m.None? <==> vectors.Some? && index.Some? && data.Some? && name.Some?
  {
    if vectors.None? then Some("vectors")
    else if index.None? then Some("index")
    else if data.None? then Some("data")
    else if name.None? then Some("collection_name")
    else None
  }

  /** What a bulk insert did: the store calls made, in order, and the result. */
  datatype InsertRun<R> = InsertRun(calls: seq<StoreCall>, result: Result<R, WriterError>)

  /** What one of the other store calls (creating the collection, building the index,
      loading) does: return, or raise with a message. */
  datatype StepOutcome = StepOk | StepRaised(message: string)

  /** The store's answers to the calls of one bulk insert, in call order. */
  datatype StoreAnswers<R> = StoreAnswers(create: StepOutcome, insert: InsertOutcome<R>,
    createIndex: StepOutcome, load: StepOutcome)

  /** `insert_data_and_create_collection`: the arguments are checked first, and a missing
      one raises RuntimeError before any store call. Then the collection is created with
      the schema above, the text and vector columns are inserted, the given index is built
      on "embeddings", and the collection is loaded. Each call is made only if the ones
      before it returned. A storage exception from the insert is wrapped in a new one;
      anything else any call raises escapes as it is. */
  function InsertDataAndCreateCollection<R>(
    vectors: Option<Matrix>, index: Option<Index>, data: Option<seq<string>>, name: Option<string>,
    dataMaxLength: nat, store: StoreAnswers<R>)
    : (run: InsertRun<R>)
    ensures FirstMissing(vectors, index, data, name).Some? ==>
      run == InsertRun([], Err(RuntimeError(MissingArgument(FirstMissing(vectors, index, data, name).value))))
    ensures FirstMissing(vectors, index, data, name).None? ==>
      && |run.calls| >= 1
      && run.calls[0] == CreateCollection(name.value, CollectionSchemaFor(dataMaxLength, vectors.value.width))
      && (run.result.Ok? <==>
            store.create.StepOk? && store.insert.Inserted? && store.createIndex.StepOk? && store.load.StepOk?)
      && (store.create.StepRaised? ==> run == InsertRun(run.calls[..1], Err(Raised(store.create.message))))
      && (store.create.StepOk? ==>
            |run.calls| >= 2 && run.calls[1] == InsertColumns([Texts(data.value), Vectors(vectors.value.rows)]))
    ensures FirstMissing(vectors, index, data, name).None? && store.create.StepOk? ==>
      var insert := store.insert;
      && (insert.InsertStorageFailure? ==>
            run.calls[2..] == [] && run.result == Err(Storage(StorageException(InsertFailedMessage, Exception(Str(insert.exception))))))
      && (insert.InsertRaised? ==> run.calls[2..] == [] && run.result == Err(Raised(insert.message)))
      && (insert.Inserted? ==> |run.calls| >= 3 && run.calls[2] == CreateIndex("embeddings", index.value))
    ensures FirstMissing(vectors, index, data, name).None? && store.create.StepOk? && store.insert.Inserted? ==>
      && (store.createIndex.StepRaised? ==>
            run.calls[3..] == [] && run.result == Err(Raised(store.createIndex.message)))
      && (store.createIndex.StepOk? ==> run.calls[3..] == [LoadCollection])
      && (store.createIndex.StepOk? && store.load.StepRaised? ==> run.result == Err(Raised(store.load.message)))
      && (store.createIndex.StepOk? && store.load.StepOk? ==> run.result == Ok(store.insert.result))
  {
    match FirstMissing(vectors, index, data, name)
    case Some(arg) => InsertRun([], Err(RuntimeError(MissingArgument(arg))))
    case None =>
      var create := CreateCollection(name.value, CollectionSchemaFor(dataMaxLength, vectors.value.width));
      var ins := InsertColumns([Texts(data.value), Vectors(vectors.value.rows)]);
      // The default index would apply only to a missing index, which has already raised.
      var build := CreateIndex("embeddings", index.value);
      match store.create
      case StepRaised(m) => InsertRun([create], Err(Raised(m)))
      case StepOk =>
        match store.insert
        case InsertStorageFailure(e) =>
          InsertRun([create, ins], Err(Storage(StorageException(InsertFailedMessage, Exception(Str(e))))))
        case InsertRaised(m) => InsertRun([create, ins], Err(Raised(m)))
        case Inserted(res) =>
          match store.createIndex
          case StepRaised(m) => InsertRun([create, ins, build], Err(Raised(m)))
          case StepOk =>
            match store.load
            case StepRaised(m) => InsertRun([create, ins, build, LoadCollection], Err(Raised(m)))
            case StepOk => InsertRun([create, ins, build, LoadCollection], Ok(res))
  }

  /** The argument checks come in a fixed order: with several arguments missing, the
      error names the first in the order vectors, index, data, collection name. The
      default index is never used: every index built is the caller's. */
  lemma InsertArgumentOrder<R>(dataMaxLength: nat, store: StoreAnswers<R>, index: Option<Index>, name: Option<string>, m: Matrix)
    ensures InsertDataAndCreateCollection(None, index, None, name, dataMaxLength, store).result
      == Err(RuntimeError(MissingArgument("vectors")))
    ensures InsertDataAndCreateCollection(Some(m), None, None, None, dataMaxLength, store).result
      == Err(RuntimeError(MissingArgument("index")))
    ensures forall c :: (c in InsertDataAndCreateCollection(Some(m), index, Some([]), name, dataMaxLength, store).calls
      && c.CreateIndex?) ==> index == Some(c.index)
  {
    var run := InsertDataAndCreateCollection(Some(m), index, Some([]), name, dataMaxLength, store);
    forall c | c in run.calls && c.CreateIndex? ensures index == Some(c.index) {
    }
  }

  // ---------------------------------------------------------------------------
  // Upsert into an existing collection

  /** An existing collection as the lookup returns it: its fields and its auto-id flag. */
  datatype Collection = Collection(fields: seq<Field>, autoId: bool)

  /** The field names a schema check considers: every field's, or, with auto-id, those
      of the fields that are not auto-generated. */
  function CheckedNames(fields: seq<Field>, hasAutoId: bool): (names: set<string>)
    ensures forall f :: f in fields && (!hasAutoId || !f.autoId) ==> f.name in names
    ensures forall n :: n in names ==> exists f :: f in fields && f.name == n
  {
    set f | f in fields && (!hasAutoId || !f.autoId) :: f.name
  }

  /** The nested schema check as written: it computes the fields to compare and then
      ends without a return statement, so its value is None, which is false. */
  function SchemaIsSimilarAsWritten<V>(fields: seq<Field>, data: map<string, V>, hasAutoId: bool): (similar: Option<bool>)
    ensures similar.None?
  {
    var _ := CheckedNames(fields, hasAutoId);
    None
  }

  /** The check as its comment describes it: the data's keys are the names of the
      compared fields. So every compared field has data under its name, and every key
      of the data names a compared field. */
  function SchemaIsSimilar<V>(fields: seq<Field>, data: map<string, V>, hasAutoId: bool): (similar: bool)
    ensures similar <==>
      && (forall f :: f in ComparedFields(fields, hasAutoId) ==> f.name in data)
      && (forall k :: k in data ==> exists f :: f in ComparedFields(fields, hasAutoId) && f.name == k)
  {
    ComparedNames(fields, hasAutoId);
    data.Keys == CheckedNames(fields, hasAutoId)
  }

  const NoneArgumentsMessage: string := "Collection name and data cannot be None."
  const SchemaMismatchMessage: string := "Schema mismatch. Ensure that the data fields match the collection schema."

  function NoSuchCollection(name: string): string {
    "Collection " + name + " does not exist."
  }

  function MissingField(name: string): string {
    "Missing data for field '" + name + "'."
  }

  function UpsertFailed(detail: string): string {
    "Error during data upsert: " + detail
  }

  /** Python truthiness of the check's value. */
  predicate Holds(b: Option<bool>) {
    b.Some? && b.value
  }

  /** `insert_to_collection` as written: missing arguments raise RuntimeError before the
      lookup; a missing collection raises a storage exception; then the schema check,
      whose value is always None, raises "Schema mismatch". The result is the upserted
      entities, which are never reached. */
  function InsertToCollectionAsWritten<V>(name: Option<string>, data: Option<map<string, V>>, lookup: string -> Option<Collection>)
    : (r: Result<seq<V>, WriterError>)
    ensures name.None? || data.None? ==> r == Err(RuntimeError(NoneArgumentsMessage))
    ensures name.Some? && data.Some? && lookup(name.value).None? ==>
      r == Err(Storage(NewStorageException(NoSuchCollection(name.value))))
  {
    if name.None? || data.None? then Err(RuntimeError(NoneArgumentsMessage))
    else match lookup(name.value)
      case None => Err(Storage(NewStorageException(NoSuchCollection(name.value))))
      case Some(c) =>
        if !Holds(SchemaIsSimilarAsWritten(c.fields, data.value, c.autoId)) then
          Err(Storage(NewStorageException(SchemaMismatchMessage)))
        else Ok([])
  }

  /** Whatever the arguments and the store, the call as written never succeeds: once
      the arguments and the collection are there, it always reports a schema mismatch,
      even for data whose keys are exactly the collection's field names. */
  lemma InsertToCollectionNeverUpserts<V>(name: Option<string>, data: Option<map<string, V>>, lookup: string -> Option<Collection>)
    ensures InsertToCollectionAsWritten(name, data, lookup).Err?
    ensures name.Some? && data.Some? && lookup(name.value).Some? ==>
      InsertToCollectionAsWritten(name, data, lookup) == Err(Storage(NewStorageException(SchemaMismatchMessage)))
  {
  }

  /** The fields a schema check compares, in schema order: all of them, or, with
      auto-id, those that are not auto-generated. */
  function ComparedFields(fields: seq<Field>, hasAutoId: bool): (r: seq<Field>)
    ensures forall f :: f in r <==> f in fields && (!hasAutoId || !f.autoId)
    ensures |r| <= |fields|
  {
    if |fields| == 0 then []
    else (if hasAutoId && fields[0].autoId then [] else [fields[0]]) + ComparedFields(fields[1..], hasAutoId)
  }

  /** The names of the compared fields are the names the schema check considers. */
  lemma ComparedNames(fields: seq<Field>, hasAutoId: bool)
    ensures (set f | f in ComparedFields(fields, hasAutoId) :: f.name) == CheckedNames(fields, hasAutoId)
  {
  }

  /** The entity loop as written: the data under every field's name, in field order,
      auto-generated fields included, or the first field the data lacks. */
  function EntitiesForAsWritten<V>(fields: seq<Field>, data: map<string, V>): (r: Result<seq<V>, string>)
    ensures r.Ok? <==> forall i :: 0 <= i < |fields| ==> fields[i].name in data
    ensures r.Ok? ==> |r.value| == |fields| && forall i :: 0 <= i < |fields| ==> r.value[i] == data[fields[i].name]
    ensures r.Err? ==> exists i :: 0 <= i < |fields| && fields[i].name !in data && r.error == fields[i].name
  {
    if |fields| == 0 then Ok([])
    else if fields[0].name !in data then Err(fields[0].name)
    else match EntitiesForAsWritten(fields[1..], data)
      case Err(n) => Err(n)
      case Ok(rest) => Ok([data[fields[0].name]] + rest)
  }

  /** Even with the schema check corrected, the loop as written cannot serve a collection
      the writer created: data that passes the check has no "id", since that field is
      auto-generated, and the loop then stops at "id", the first field. */
  lemma EntitiesAsWrittenNeedId<V>(dataMaxLength: nat, dim: nat, data: map<string, V>)
    requires SchemaIsSimilar(CollectionSchemaFor(dataMaxLength, dim).fields, data, true)
    ensures EntitiesForAsWritten(CollectionSchemaFor(dataMaxLength, dim).fields, data) == Err("id")
  {
    var fields := CollectionSchemaFor(dataMaxLength, dim).fields;
    assert fields[0].autoId && fields[0].name == "id";
  }

  /** The corrected entity gathering: the data under each compared field's name, in
      field order, skipping auto-generated fields when the collection has auto-id, or
      the first compared field the data lacks. */
  function EntitiesFor<V>(fields: seq<Field>, data: map<string, V>, hasAutoId: bool): (r: Result<seq<V>, string>)
    ensures r == EntitiesForAsWritten(ComparedFields(fields, hasAutoId), data)
    ensures var ks := ComparedFields(fields, hasAutoId);
      r.Ok? ==> |r.value| == |ks| && forall i :: 0 <= i < |ks| ==> ks[i].name in data && r.value[i] == data[ks[i].name]
    ensures var ks := ComparedFields(fields, hasAutoId);
      r.Err? ==> exists i :: 0 <= i < |ks| && ks[i].name !in data && r.error == ks[i].name
  {
    EntitiesForAsWritten(ComparedFields(fields, hasAutoId), data)
  }

  /** `insert_to_collection` with the schema check returning its comparison and the
      entity loop skipping the fields the check skips: after the argument, lookup and
      schema checks, the entities are gathered in field order and upserted; the upsert
      oracle's failure is reported with its text. */
  function InsertToCollection<V>(name: Option<string>, data: Option<map<string, V>>,
    lookup: string -> Option<Collection>, upsert: seq<V> -> Option<string>)
    : (r: Result<seq<V>, WriterError>)
    ensures name.None? || data.None? ==> r == Err(RuntimeError(NoneArgumentsMessage))
    ensures name.Some? && data.Some? && lookup(name.value).None? ==>
      r == Err(Storage(NewStorageException(NoSuchCollection(name.value))))
    ensures name.Some? && data.Some? && lookup(name.value).Some? ==>
      var c := lookup(name.value).value;
      !SchemaIsSimilar(c.fields, data.value, c.autoId) ==> r == Err(Storage(NewStorageException(SchemaMismatchMessage)))
    ensures name.Some? && data.Some? && lookup(name.value).Some? ==>
      var c := lookup(name.value).value; var es := EntitiesFor(c.fields, data.value, c.autoId);
      SchemaIsSimilar(c.fields, data.value, c.autoId) && es.Err? ==>
        r == Err(Storage(NewStorageException(MissingField(es.error))))
    ensures name.Some? && data.Some? && lookup(name.value).Some? ==>
      var c := lookup(name.value).value; var es := EntitiesFor(c.fields, data.value, c.autoId);
      SchemaIsSimilar(c.fields, data.value, c.autoId) && es.Ok? && upsert(es.value).Some? ==>
        r == Err(Storage(NewStorageException(UpsertFailed(upsert(es.value).value))))
    ensures r.Ok? ==> var c := lookup(name.value).value; var ks := ComparedFields(c.fields, c.autoId);
      && SchemaIsSimilar(c.fields, data.value, c.autoId)
      && |r.value| == |ks|
      && (forall i :: 0 <= i < |ks| ==> ks[i].name in data.value && r.value[i] == data.value[ks[i].name])
      && upsert(r.value).None?
  {
    if name.None? || data.None? then Err(RuntimeError(NoneArgumentsMessage))
    else match lookup(name.value)
      case None => Err(Storage(NewStorageException(NoSuchCollection(name.value))))
      case Some(c) =>
        if !SchemaIsSimilar(c.fields, data.value, c.autoId) then
          Err(Storage(NewStorageException(SchemaMismatchMessage)))
        else match EntitiesFor(c.fields, data.value, c.autoId)
          case Err(f) => Err(Storage(NewStorageException(MissingField(f))))
          case Ok(entities) =>
            match upsert(entities)
            case Some(e) => Err(Storage(NewStorageException(UpsertFailed(e))))
            case None => Ok(entities)
  }

  /** Data whose keys are exactly the compared field names of a collection is upserted,
      one value per compared field in field order, whenever the upsert itself
      succeeds; this holds with and without auto-id. */
  lemma InsertToCollectionUpserts<V>(name: string, data: map<string, V>,
    lookup: string -> Option<Collection>, upsert: seq<V> -> Option<string>)
    requires lookup(name).Some?
    requires data.Keys == CheckedNames(lookup(name).value.fields, lookup(name).value.autoId)
    requires forall vs :: upsert(vs).None?
    ensures var c := lookup(name).value; var ks := ComparedFields(c.fields, c.autoId);
      InsertToCollection(Some(name), Some(data), lookup, upsert)
      == Ok(seq(|ks|, i requires 0 <= i < |ks| => data[ks[i].name]))
  {
    var c := lookup(name).value;
    EntitiesOfCheckedData(c.fields, data, c.autoId);
    assert SchemaIsSimilar(c.fields, data, c.autoId);
  }

  /** Data keyed by exactly the compared names gives one entity per compared field. */
  lemma EntitiesOfCheckedData<V>(fields: seq<Field>, data: map<string, V>, hasAutoId: bool)
    requires data.Keys == CheckedNames(fields, hasAutoId)
    ensures var ks := ComparedFields(fields, hasAutoId);
      EntitiesFor(fields, data, hasAutoId) == Ok(seq(|ks|, i requires 0 <= i < |ks| => data[ks[i].name]))
  {
    var ks := ComparedFields(fields, hasAutoId);
    var r := EntitiesFor(fields, data, hasAutoId);
    assert r.Ok? by {
      forall i | 0 <= i < |ks| ensures ks[i].name in data {
        assert ks[i] in ks;
        ComparedNames(fields, hasAutoId);
      }
    }
    assert r.value == seq(|ks|, i requires 0 <= i < |ks| => data[ks[i].name]);
  }

  /** A collection the writer created takes an upsert of its text and its vector: data
      keyed "data" and "embeddings" becomes the entities [text, vector]. */
  lemma CreatedCollectionUpserts<V>(name: string, dataMaxLength: nat, dim: nat, text: V, vector: V,
    lookup: string -> Option<Collection>, upsert: seq<V> -> Option<string>)
    requires lookup(name) == Some(Collection(CollectionSchemaFor(dataMaxLength, dim).fields, true))
    requires forall vs :: upsert(vs).None?
    ensures InsertToCollection(Some(name), Some(map["data" := text, "embeddings" := vector]), lookup, upsert)
      == Ok([text, vector])
  {
    CreatedSchemaCompared(dataMaxLength, dim);
    CreatedCollectionEntities(dataMaxLength, dim, text, vector);
  }

  /** The corrected loop on a collection the writer created: data keyed "data" and
      "embeddings" gives the entities [text, vector], the auto-generated "id" left to
      the store. */
  lemma CreatedCollectionEntities<V>(dataMaxLength: nat, dim: nat, text: V, vector: V)
    ensures EntitiesFor(CollectionSchemaFor(dataMaxLength, dim).fields,
      map["data" := text, "embeddings" := vector], true) == Ok([text, vector])
  {
    var fields := CollectionSchemaFor(dataMaxLength, dim).fields;
    var data := map["data" := text, "embeddings" := vector];
    CreatedSchemaCompared(dataMaxLength, dim);
    EntitiesOfCheckedData(fields, data, true);
    TextAndVector(ComparedFields(fields, true), data, text, vector);
  }

  lemma TextAndVector<V>(ks: seq<Field>, data: map<string, V>, text: V, vector: V)
    requires |ks| == 2 && ks[0].name == "data" && ks[1].name == "embeddings"
    requires data == map["data" := text, "embeddings" := vector]
    ensures seq(|ks|, i requires 0 <= i < |ks| => data[ks[i].name]) == [text, vector]
  {
  }

  /** The check and the corrected loop compare a created collection's "data" and
      "embeddings" fields, in that order. */
  lemma CreatedSchemaCompared(dataMaxLength: nat, dim: nat)
    ensures var fields := CollectionSchemaFor(dataMaxLength, dim).fields;
      && ComparedFields(fields, true) == [fields[1], fields[2]]
      && CheckedNames(fields, true) == {"data", "embeddings"}
  {
    var fields := CollectionSchemaFor(dataMaxLength, dim).fields;
    assert ComparedFields(fields, true) == [fields[1], fields[2]] by {
      assert ComparedFields(fields[2..], true) == [fields[2]] by {
        assert fields[2..][1..] == [];
      }
      assert fields[1..][1..] == fields[2..];
    }
    ComparedNames(fields, true);
  }
}

=== FILE: summarizer.dfy ===
/** The summarizer's own arithmetic and filters. The sentence segmentation and the
    TextRank summary come from the NLP pipeline and are inputs here: the sentence count
    of a text, and the sentences of the re-segmented summary. */
module Summarizer {
  import opened Text
  import opened Seqs

  const DefaultBasePhrases: int := 8

  /** The average sentence length: words per sentence, or the word count when there is no
      sentence. */
  function AverageSentenceLength(wordCount: nat, sentenceCount: nat): (avg: real)
    ensures avg >= 0.0
    ensures sentenceCount > 0 ==> avg * sentenceCount as real == wordCount as real
    ensures sentenceCount == 0 ==> avg == wordCount as real
  {
    if sentenceCount > 0 then wordCount as real / sentenceCount as real else wordCount as real
  }

  /** `calculate_dynamic_limit_phrases`: the base plus the whole part of
      `words / 100 + sentences / 10 + average / 20`, and never below the base. */
  function DynamicLimitPhrases(basePhrases: int, text: string, sentenceCount: nat): (limit: int)
    ensures limit >= basePhrases
    ensures var extra := (|Split(text)| as real / 100.0 + sentenceCount as real / 10.0
                          + AverageSentenceLength(|Split(text)|, sentenceCount) / 20.0);
      (limit - basePhrases) as real <= extra < (limit - basePhrases + 1) as real
  {
    var wordCount := |Split(text)|;
    var extra := wordCount as real / 100.0 + sentenceCount as real / 10.0
      + AverageSentenceLength(wordCount, sentenceCount) / 20.0;
    var limitPhrases := basePhrases + extra.Floor;
    if limitPhrases >= basePhrases then limitPhrases else basePhrases
  }

  /** The clamp to the base never changes the result: the added term is never negative. */
  lemma DynamicLimitClampRedundant(basePhrases: int, text: string, sentenceCount: nat)
    ensures var wordCount := |Split(text)|;
      DynamicLimitPhrases(basePhrases, text, sentenceCount)
      == basePhrases + (wordCount as real / 100.0 + sentenceCount as real / 10.0
                        + AverageSentenceLength(wordCount, sentenceCount) / 20.0).Floor
  {
  }

  /** A text of a hundred words in one sentence earns six phrases over the base: one for
      its length, none for its single sentence, five for that sentence's length. */
  lemma DynamicLimitExample(basePhrases: int, text: string)
    requires |Split(text)| == 100
    ensures DynamicLimitPhrases(basePhrases, text, 1) == basePhrases + 6
  {
    assert AverageSentenceLength(100, 1) == 100.0;
  }

  /** Whether a sentence contains one of the keywords, ignoring case. */
  predicate HasKeyword(sentence: string, keywords: seq<string>) {
    exists k :: 0 <= k < |keywords| && Contains(Lower(sentence), Lower(keywords[k]))
  }

  /** The keyword filter of `summarize_and_extract_based_on_keywords`: the summary's
      sentences that contain some keyword, each listed once. The order of the listing
      is unspecified; this one is first occurrence. */
  function KeywordSections(summarySentences: seq<string>, keywords: seq<string>): (r: seq<string>)
    ensures NoDuplicates(r)
    ensures forall s :: s in r <==> s in summarySentences && HasKeyword(s, keywords)
  {
    Distinct(Filter(summarySentences, (s: string) => HasKeyword(s, keywords)))
  }

  /** Without keywords nothing is kept, and the empty keyword, which every sentence
      contains, keeps every sentence. */
  lemma KeywordSectionsBounds(summarySentences: seq<string>)
    ensures KeywordSections(summarySentences, []) == []
    ensures forall s :: s in KeywordSections(summarySentences, [""]) <==> s in summarySentences
  {
    forall s | s in summarySentences ensures HasKeyword(s, [""]) {
      var kw: seq<string> := [""];
      assert Lower(kw[0]) == "";
      assert Lower(s)[0..0] == "";
      assert OccursAt(Lower(s), Lower(kw[0]), 0);
      assert Contains(Lower(s), Lower(kw[0]));
    }
    FilterNone(summarySentences, (s: string) => HasKeyword(s, []));
  }

  /** `find_longest_text`: the first of the longest texts, or "" for no text. */
  method FindLongestText(texts: seq<string>) returns (longest: string)
    ensures |texts| == 0 ==> longest == ""
    ensures |texts| > 0 ==>
      exists i :: 0 <= i < |texts| && texts[i] == longest && forall j :: 0 <= j < i ==> |texts[j]| < |longest|
    ensures forall j :: 0 <= j < |texts| ==> |texts[j]| <= |longest|
  {
    if |texts| == 0 {
      return "";
    }
    var best := 0;
    var k := 1;
    while k < |texts|
      invariant 1 <= k <= |texts|
      invariant 0 <= best < k
      invariant forall j :: 0 <= j < k ==> |texts[j]| <= |texts[best]|
      invariant forall j :: 0 <= j < best ==> |texts[j]| < |texts[best]|
    {
      if |texts[k]| > |texts[best]| {
        best := k;
      }
      k := k + 1;
    }
    longest := texts[best];
  }
}

=== FILE: text.dfy ===
/** ASCII character classes and the whitespace tokenizer shared by the text-processing
    components: Python's `str.isspace`, `str.isalpha`, `\w`, `str.lower`, `str.split()`,
    `' '.join(...)` and `str.strip()`, restricted to ASCII. */
module Text {
  import opened Seqs

  /** `str.isspace()` on an ASCII character: the space, tab, line feed, vertical tab,
      form feed and carriage return, and the four information separators 0x1C-0x1F,
      which Python also counts as whitespace. */
  predicate IsSpace(c: char) {
    c == ' ' || '\t' <= c <= '\r' || '\U{1C}' <= c <= '\U{1F}'
  }

  predicate IsUpper(c: char) { 'A' <= c <= 'Z' }

  predicate IsLowerLetter(c: char) { 'a' <= c <= 'z' }

  predicate IsAlpha(c: char) { IsUpper(c) || IsLowerLetter(c) }

  predicate IsDigit(c: char) { '0' <= c <= '9' }

  /** Membership in the regular-expression class `\w`. */
  predicate IsWordChar(c: char) { IsAlpha(c) || IsDigit(c) || c == '_' }

  function LowerChar(c: char): (r: char)
    ensures !IsUpper(r)
    ensures IsAlpha(c) <==> IsAlpha(r)
    ensures IsWordChar(c) <==> IsWordChar(r)
    ensures IsSpace(c) <==> IsSpace(r)
    ensures !IsUpper(c) ==> r == c
  {
    if IsUpper(c) then (c as int + 32) as char else c
  }

  /** `str.lower()`: same length, no upper-case letter left, every other character kept. */
  function Lower(s: string): (r: string)
    ensures |r| == |s|
    ensures forall i :: 0 <= i < |r| ==> !IsUpper(r[i])
    ensures forall i :: 0 <= i < |s| && !IsUpper(s[i]) ==> r[i] == s[i]
  {
    seq(|s|, i requires 0 <= i < |s| => LowerChar(s[i]))
  }

  /** A token produced by `str.split()`: non-empty and free of whitespace. */
  predicate IsToken(t: string) {
    |t| > 0 && forall i :: 0 <= i < |t| ==> !IsSpace(t[i])
  }

  /** Length of the maximal whitespace-free prefix of `s`. */
  function TokenLen(s: string): (k: nat)
    ensures k <= |s|
    ensures forall i :: 0 <= i < k ==> !IsSpace(s[i])
    ensures k < |s| ==> IsSpace(s[k])
  {
    if |s| == 0 || IsSpace(s[0]) then 0 else 1 + TokenLen(s[1..])
  }

  /** `str.split()` with no separator: the maximal runs of non-whitespace, in order. */
  function Split(s: string): (ts: seq<string>)
    ensures forall j :: 0 <= j < |ts| ==> IsToken(ts[j])
    decreases |s|
  {
    if |s| == 0 then []
    else if IsSpace(s[0]) then Split(s[1..])
    else
      var k := TokenLen(s);
      [s[..k]] + Split(s[k..])
  }

  /** Every token that `split()` cuts out of `s` is made of characters of `s`. */
  lemma {:induction false} SplitChars(s: string, p: char -> bool)
    requires forall i :: 0 <= i < |s| ==> IsSpace(s[i]) || p(s[i])
    ensures AllTokenChars(Split(s), p)
    decreases |s|
  {
    if |s| == 0 {
    } else if IsSpace(s[0]) {
      SplitChars(s[1..], p);
    } else {
      var k := TokenLen(s);
      SplitChars(s[k..], p);
      var ts := Split(s);
      assert ts == [s[..k]] + Split(s[k..]);
      forall j, i | 0 <= j < |ts| && 0 <= i < |ts[j]|
        ensures p(ts[j][i])
      {
        if j > 0 {
          assert ts[j] == Split(s[k..])[j - 1];
        }
      }
    }
  }

  /** `sep.join(ts)`. */
  function Join(ts: seq<string>, sep: string): string {
    if |ts| == 0 then ""
    else if |ts| == 1 then ts[0]
    else ts[0] + sep + Join(ts[1..], sep)
  }

  function JoinSpace(ts: seq<string>): string { Join(ts, " ") }

  /** Every character of every token satisfies `p`. */
  ghost predicate AllTokenChars(ts: seq<string>, p: char -> bool) {
    forall j, i :: 0 <= j < |ts| && 0 <= i < |ts[j]| ==> p(ts[j][i])
  }

  /** The shape of text produced by joining whitespace-free tokens with single spaces:
      no leading or trailing space, no two adjacent spaces, and the only whitespace
      character is the plain space. */
  predicate SingleSpaced(s: string) {
    && (|s| > 0 ==> s[0] != ' ' && s[|s| - 1] != ' ')
    && (forall i :: 0 <= i < |s| - 1 ==> !(s[i] == ' ' && s[i + 1] == ' '))
    && (forall i :: 0 <= i < |s| && IsSpace(s[i]) ==> s[i] == ' ')
  }

  /** Joining non-empty tokens with a single space yields single-spaced text whose
      non-space characters all come from the tokens. */
  lemma {:induction false} JoinSpaceShape(ts: seq<string>, p: char -> bool)
    requires forall j :: 0 <= j < |ts| ==> IsToken(ts[j])
    requires AllTokenChars(ts, p)
    ensures SingleSpaced(JoinSpace(ts))
    ensures forall i :: 0 <= i < |JoinSpace(ts)| ==> JoinSpace(ts)[i] == ' ' || p(JoinSpace(ts)[i])
    ensures |ts| > 0 <==> |JoinSpace(ts)| > 0
    decreases |ts|
  {
    if |ts| <= 1 {
    } else {
      var rest := JoinSpace(ts[1..]);
      assert AllTokenChars(ts[1..], p) by {
        forall j, i | 0 <= j < |ts[1..]| && 0 <= i < |ts[1..][j]|
          ensures p(ts[1..][j][i])
        {
          assert ts[1..][j] == ts[j + 1];
        }
      }
      JoinSpaceShape(ts[1..], p);
      var s := JoinSpace(ts);
      assert s == ts[0] + " " + rest;
      assert forall i :: 0 <= i < |ts[0]| ==> s[i] == ts[0][i];
      assert s[|ts[0]|] == ' ';
      assert forall i :: |ts[0]| < i < |s| ==> s[i] == rest[i - |ts[0]| - 1];
      assert s[|ts[0]| + 1] == rest[0];
      forall i | 0 <= i < |s|
        ensures s[i] == ' ' || p(s[i])
      {
        if i < |ts[0]| {
          assert p(ts[0][i]);
        } else if i > |ts[0]| {
          assert s[i] == rest[i - |ts[0]| - 1];
        }
      }
    }
  }

  lemma TokenLenOfJoined(t: string, rest: string)
    requires IsToken(t)
    requires |rest| == 0 || IsSpace(rest[0])
    ensures TokenLen(t + rest) == |t|
    decreases |t|
  {
    if |t| > 1 {
      assert (t + rest)[1..] == t[1..] + rest;
      TokenLenOfJoined(t[1..], rest);
    } else {
      assert (t + rest)[1..] == rest;
    }
  }

  /** Splitting a space-joined token list recovers the list: `str.split()` inverts
      `' '.join(...)` on whitespace-free, non-empty tokens. */
  lemma {:induction false} SplitJoinSpace(ts: seq<string>)
    requires forall j :: 0 <= j < |ts| ==> IsToken(ts[j])
    ensures Split(JoinSpace(ts)) == ts
    decreases |ts|
  {
    if |ts| == 0 {
    } else if |ts| == 1 {
      var t := ts[0];
      TokenLenOfJoined(t, "");
      assert t + "" == t;
      assert t[|t|..] == "";
    } else {
      var t := ts[0];
      var rest := JoinSpace(ts[1..]);
      var s := t + " " + rest;
      assert JoinSpace(ts) == s;
      assert s == t + (" " + rest);
      TokenLenOfJoined(t, " " + rest);
      assert s[..|t|] == t;
      assert s[|t|..] == " " + rest;
      assert (" " + rest)[1..] == rest;
      SplitJoinSpace(ts[1..]);
      assert ts == [t] + ts[1..];
    }
  }

  /** Appending text that starts with whitespace does not lengthen the first token. */
  lemma {:induction false} TokenLenAppend(a: string, rest: string)
    requires |rest| > 0 ==> IsSpace(rest[0])
    ensures TokenLen(a + rest) == TokenLen(a)
    decreases |a|
  {
    if |a| > 0 && !IsSpace(a[0]) {
      assert (a + rest)[1..] == a[1..] + rest;
      TokenLenAppend(a[1..], rest);
    } else if |a| == 0 {
      assert a + rest == rest;
    }
  }

  /** No token spans a space: splitting two texts joined by a space gives the tokens
      of the first followed by the tokens of the second. */
  lemma {:induction false} SplitAroundSpace(a: string, b: string)
    ensures Split(a + " " + b) == Split(a) + Split(b)
    decreases |a|
  {
    var s := a + " " + b;
    if |a| == 0 {
      assert s == " " + b;
      assert s[1..] == b;
    } else if IsSpace(a[0]) {
      assert s[1..] == a[1..] + " " + b;
      SplitAroundSpace(a[1..], b);
    } else {
      assert s == a + (" " + b);
      TokenLenAppend(a, " " + b);
      var k := TokenLen(a);
      assert s[..k] == a[..k];
      assert s[k..] == a[k..] + " " + b;
      SplitAroundSpace(a[k..], b);
    }
  }

  /** The tokens of every text of `rs`, text after text. */
  function SplitAll(rs: seq<string>): seq<string> {
    if |rs| == 0 then [] else Split(rs[0]) + SplitAll(rs[1..])
  }

  /** Splitting space-joined texts yields their tokens, text after text. */
  lemma {:induction false} SplitJoinSpaceAll(rs: seq<string>)
    ensures Split(JoinSpace(rs)) == SplitAll(rs)
    decreases |rs|
  {
    if |rs| == 1 {
      assert SplitAll(rs[1..]) == [];
    } else if |rs| > 1 {
      assert JoinSpace(rs) == rs[0] + " " + JoinSpace(rs[1..]);
      SplitAroundSpace(rs[0], JoinSpace(rs[1..]));
      SplitJoinSpaceAll(rs[1..]);
    }
  }

  /** Two non-empty single-spaced texts joined by one space are single-spaced. */
  lemma SingleSpacedPair(a: string, b: string)
    requires a != "" && b != "" && SingleSpaced(a) && SingleSpaced(b)
    ensures SingleSpaced(a + " " + b)
  {
    var s := a + " " + b;
    var n := |a|;
    assert forall i :: 0 <= i < n ==> s[i] == a[i];
    assert s[n] == ' ';
    assert forall i :: n < i < |s| ==> s[i] == b[i - n - 1];
    forall i | 0 <= i < |s| - 1 ensures !(s[i] == ' ' && s[i + 1] == ' ') {
      if i == n - 1 {
        assert s[i] == a[n - 1];
      } else if i == n {
        assert s[i + 1] == b[0];
      }
    }
  }

  /** Joining non-empty single-spaced texts with single spaces gives single-spaced
      text. */
  lemma {:induction false} JoinSingleSpaced(rs: seq<string>)
    requires forall k :: 0 <= k < |rs| ==> rs[k] != "" && SingleSpaced(rs[k])
    ensures SingleSpaced(JoinSpace(rs))
    decreases |rs|
  {
    if |rs| > 1 {
      JoinSingleSpaced(rs[1..]);
      JoinSpaceNonEmpty(rs[1..]);
      assert JoinSpace(rs) == rs[0] + " " + JoinSpace(rs[1..]);
      SingleSpacedPair(rs[0], JoinSpace(rs[1..]));
    }
  }

  lemma {:induction false} JoinSpaceNonEmpty(rs: seq<string>)
    requires |rs| > 0 && rs[0] != ""
    ensures JoinSpace(rs) != ""
  {
    if |rs| > 1 {
      assert JoinSpace(rs) == rs[0] + " " + JoinSpace(rs[1..]);
    }
  }

  /** Single-spaced text is left unchanged by `strip()`, and it is empty exactly when
      it has no token. */
  lemma SingleSpacedStrip(s: string)
    requires SingleSpaced(s)
    ensures Strip(s) == s
    ensures |s| == 0 <==> Split(s) == []
  {
    StripUnchanged(s);
    if |s| > 0 {
      assert !IsSpace(s[0]);
      assert Split(s) == [s[..TokenLen(s)]] + Split(s[TokenLen(s)..]);
    }
  }

  /** `[f(x).strip() for x in items if f(x).strip()]`: the stripped results of `f`
      that are not empty, in item order. */
  function NonEmptyResults(f: string -> string, items: seq<string>): (r: seq<string>)
    ensures forall k :: 0 <= k < |r| ==> r[k] != ""
  {
    if |items| == 0 then []
    else
      var t := Strip(f(items[0]));
      if t != "" then [t] + NonEmptyResults(f, items[1..]) else NonEmptyResults(f, items[1..])
  }

  /** `[f(x) for x in items if f(x).strip()]`: the results of `f` that are not blank,
      unstripped, in item order. */
  function NonBlankResults(f: string -> string, items: seq<string>): (r: seq<string>)
    ensures |r| <= |items|
  {
    if |items| == 0 then []
    else if Strip(f(items[0])) != "" then [f(items[0])] + NonBlankResults(f, items[1..])
    else NonBlankResults(f, items[1..])
  }

  /** Results of `f` for some item. */
  ghost predicate ResultOf(f: string -> string, items: seq<string>, t: string) {
    exists j :: 0 <= j < |items| && f(items[j]) == t
  }

  /** When `f` produces single-spaced text, its non-blank results are exactly its
      non-empty results. */
  lemma {:induction false} NonBlankResultsSpec(f: string -> string, items: seq<string>)
    requires forall j :: 0 <= j < |items| ==> SingleSpaced(f(items[j]))
    ensures forall t :: t in NonBlankResults(f, items) <==> t != "" && ResultOf(f, items, t)
    decreases |items|
  {
    if |items| > 0 {
      var x := items[0];
      assert forall j :: 1 <= j < |items| ==> items[1..][j - 1] == items[j];
      NonBlankResultsSpec(f, items[1..]);
      SingleSpacedStrip(f(x));
      forall t ensures ResultOf(f, items, t) <==> f(x) == t || ResultOf(f, items[1..], t) {
        if ResultOf(f, items, t) && f(x) != t {
          var j :| 0 <= j < |items| && f(items[j]) == t;
          assert items[1..][j - 1] == items[j];
        }
        if ResultOf(f, items[1..], t) {
          var j :| 0 <= j < |items[1..]| && f(items[1..][j]) == t;
          assert items[j + 1] == items[1..][j];
        }
      }
    }
  }

  lemma {:induction false} NonBlankResultsAppend(f: string -> string, a: seq<string>, b: seq<string>)
    ensures NonBlankResults(f, a + b) == NonBlankResults(f, a) + NonBlankResults(f, b)
    decreases |a|
  {
    if |a| > 0 {
      var head := NonBlankHead(f, a[0]);
      NonBlankResultsStep(f, a, b);
      NonBlankResultsAppend(f, a[1..], b);
      AppendAssoc(NonBlankResults(f, a + b), head, NonBlankResults(f, a[1..] + b),
        NonBlankResults(f, a), NonBlankResults(f, a[1..]), NonBlankResults(f, b));
    } else {
      assert a + b == b;
    }
  }

  /** The result an item contributes: its result when that is not blank. */
  function NonBlankHead(f: string -> string, x: string): seq<string> {
    if Strip(f(x)) != "" then [f(x)] else []
  }

  lemma NonBlankResultsStep(f: string -> string, a: seq<string>, b: seq<string>)
    requires |a| > 0
    ensures NonBlankResults(f, a + b) == NonBlankHead(f, a[0]) + NonBlankResults(f, a[1..] + b)
    ensures NonBlankResults(f, a) == NonBlankHead(f, a[0]) + NonBlankResults(f, a[1..])
  {
    assert (a + b)[0] == a[0];
    assert (a + b)[1..] == a[1..] + b;
  }

  /** The results are produced item by item: they keep the item order. */
  lemma {:induction false} NonEmptyResultsAppend(f: string -> string, a: seq<string>, b: seq<string>)
    ensures NonEmptyResults(f, a + b) == NonEmptyResults(f, a) + NonEmptyResults(f, b)
    decreases |a|
  {
    if |a| > 0 {
      var head := NonEmptyHead(f, a[0]);
      NonEmptyResultsStep(f, a, b);
      NonEmptyResultsAppend(f, a[1..], b);
      AppendAssoc(NonEmptyResults(f, a + b), head, NonEmptyResults(f, a[1..] + b),
        NonEmptyResults(f, a), NonEmptyResults(f, a[1..]), NonEmptyResults(f, b));
    } else {
      assert a + b == b;
    }
  }

  /** The result an item contributes: its stripped result when that is not empty. */
  function NonEmptyHead(f: string -> string, x: string): seq<string> {
    if Strip(f(x)) != "" then [Strip(f(x))] else []
  }

  lemma NonEmptyResultsStep(f: string -> string, a: seq<string>, b: seq<string>)
    requires |a| > 0
    ensures NonEmptyResults(f, a + b) == NonEmptyHead(f, a[0]) + NonEmptyResults(f, a[1..] + b)
    ensures NonEmptyResults(f, a) == NonEmptyHead(f, a[0]) + NonEmptyResults(f, a[1..])
  {
    assert (a + b)[0] == a[0];
    assert (a + b)[1..] == a[1..] + b;
  }

  /** The tokens of `f`'s results, item after item. */
  function SplitEach(f: string -> string, items: seq<string>): seq<string> {
    if |items| == 0 then [] else Split(f(items[0])) + SplitEach(f, items[1..])
  }

  /** When `f` produces single-spaced text, its non-empty results are exactly its
      results that have a token, unchanged by the strip, and they carry the tokens of
      all results in item order. */
  lemma {:induction false} NonEmptyResultsSpec(f: string -> string, items: seq<string>)
    requires forall j :: 0 <= j < |items| ==> SingleSpaced(f(items[j]))
    ensures forall k :: 0 <= k < |NonEmptyResults(f, items)| ==> SingleSpaced(NonEmptyResults(f, items)[k])
    ensures forall j :: 0 <= j < |items| && f(items[j]) != "" ==> f(items[j]) in NonEmptyResults(f, items)
    ensures SplitAll(NonEmptyResults(f, items)) == SplitEach(f, items)
    decreases |items|
  {
    if |items| > 0 {
      var x := items[0];
      var rest := NonEmptyResults(f, items[1..]);
      assert forall j :: 1 <= j < |items| ==> items[1..][j - 1] == items[j];
      NonEmptyResultsSpec(f, items[1..]);
      SingleSpacedStrip(f(x));
      if f(x) != "" {
        assert NonEmptyResults(f, items) == [f(x)] + rest;
        assert SplitAll([f(x)] + rest) == Split(f(x)) + SplitAll(rest) by {
          assert ([f(x)] + rest)[1..] == rest;
        }
      }
    }
  }

  /** Length of the maximal whitespace prefix of `s`. */
  function SpaceLen(s: string): (k: nat)
    ensures k <= |s|
    ensures forall i :: 0 <= i < k ==> IsSpace(s[i])
    ensures k < |s| ==> !IsSpace(s[k])
  {
    if |s| == 0 || !IsSpace(s[0]) then 0 else 1 + SpaceLen(s[1..])
  }

  /** Length of `s` once its maximal whitespace suffix is removed. */
  function TrimmedEnd(s: string): (k: nat)
    ensures k <= |s|
    ensures forall i :: k <= i < |s| ==> IsSpace(s[i])
    ensures k > 0 ==> !IsSpace(s[k - 1])
  {
    if |s| == 0 || !IsSpace(s[|s| - 1]) then |s| else TrimmedEnd(s[..|s| - 1])
  }

  /** `str.strip()`: the text between the leading and the trailing whitespace. */
  function Strip(s: string): (r: string)
    ensures |r| <= |s|
    ensures |r| > 0 ==> !IsSpace(r[0]) && !IsSpace(r[|r| - 1])
    ensures |r| == 0 <==> forall i :: 0 <= i < |s| ==> IsSpace(s[i])
  {
    var a := SpaceLen(s);
    var rest := s[a..];
    var b := TrimmedEnd(rest);
    assert b > 0 ==> !IsSpace(rest[0]);
    rest[..b]
  }

  /** Text that already has no whitespace at either end is left unchanged by `strip()`. */
  lemma StripUnchanged(s: string)
    requires |s| > 0 ==> !IsSpace(s[0]) && !IsSpace(s[|s| - 1])
    ensures Strip(s) == s
  {
    assert SpaceLen(s) == 0;
    assert s[0..] == s;
    assert s[..|s|] == s;
  }

  /** Python's `sub in s` for strings. */
  predicate Contains(s: string, sub: string) {
    exists i :: 0 <= i <= |s| - |sub| && OccursAt(s, sub, i)
  }

  predicate OccursAt(s: string, sub: string, i: int) {
    0 <= i <= |s| - |sub| && s[i..i + |sub|] == sub
  }
}

=== FILE: vector_ranking.dfy ===
/** Collection selection: one vocabulary and one vectorizer per stored collection, the
    prompt vectorized against each of them, and the collection whose prompt vector has
    the largest norm. The vector store's collection list, the vocabulary lookup and the
    TF-IDF vectorizer are parameters; a vector's squared norm stands in for its norm,
    which orders vectors the same way. */
module VectorRanking {
  import opened Wrappers
  import opened Seqs

  /** The name under which a collection's vocabulary is looked up. */
  function VocabName(collection: string): string {
    collection + "_vocab"
  }

  /** Distinct collections look up distinct vocabularies. */
  lemma VocabNameInjective(a: string, b: string)
    requires VocabName(a) == VocabName(b)
    ensures a == b
  {
    assert a == VocabName(a)[..|a|];
    assert |a| == |b|;
    assert b == VocabName(b)[..|b|];
  }

  type Vocabulary = map<string, nat>

  /** A vectorizer built from a vocabulary. */
  datatype Vectorizer = Vectorizer(vocab: Vocabulary)

  /** The ranker's state: the collections in dict order, their vocabularies and their
      vectorizers, both keyed by collection name. */
  datatype Ranker = Ranker(names: seq<string>, vocabularies: map<string, Vocabulary>, models: map<string, Vectorizer>)

  /** The ranker's invariant: the listed collections are distinct and are exactly those
      with a vectorizer. */
  predicate Valid(r: Ranker) {
    NoDuplicates(r.names) && (set c | c in r.names) == r.models.Keys
  }

  /** Construction: every listed collection gets the vocabulary stored under its
      vocabulary name and a vectorizer over that vocabulary. */
  function NewRanker(collections: seq<string>, getVocab: string -> Vocabulary): (r: Ranker)
    ensures Valid(r)
    ensures forall c :: c in r.names <==> c in collections
    ensures r.vocabularies.Keys == r.models.Keys
    ensures forall c :: c in r.vocabularies <==> c in collections
    ensures forall c :: c in r.vocabularies ==>
      r.vocabularies[c] == getVocab(VocabName(c)) && r.models[c] == Vectorizer(r.vocabularies[c])
  {
    var vocabularies := map c | c in collections :: getVocab(VocabName(c));
    var models := map c | c in vocabularies :: Vectorizer(vocabularies[c]);
    Ranker(Distinct(collections), vocabularies, models)
  }

  /** The prompt vectorized by every collection's vectorizer, keyed by collection. */
  function GenerateEmbeddings(r: Ranker, prompt: string, vectorize: (Vocabulary, string) -> seq<real>)
    : (e: map<string, seq<real>>)
    ensures e.Keys == r.models.Keys
    ensures forall c :: c in e ==> e[c] == vectorize(r.models[c].vocab, prompt)
  {
    map c | c in r.models :: vectorize(r.models[c].vocab, prompt)
  }

  function SumSquares(v: seq<real>): (s: real)
    ensures s >= 0.0
  {
    if |v| == 0 then 0.0 else v[0] * v[0] + SumSquares(v[1..])
  }

  datatype Scored = Scored(name: string, score: real)

  predicate SortedDesc(s: seq<Scored>) {
    forall i, j :: 0 <= i < j < |s| ==> s[i].score >= s[j].score
  }

  /** Inserts `x` after every element scoring at least as much, so that an element that
      came later in the input stays behind the earlier ones it ties with. */
  function Insert(x: Scored, s: seq<Scored>): (r: seq<Scored>)
    ensures multiset(r) == multiset(s) + multiset{x}
  {
    if |s| == 0 then [x]
    else if s[0].score >= x.score then
      assert s == [s[0]] + s[1..];
      [s[0]] + Insert(x, s[1..])
    else
      [x] + s
  }

  /** Inserting into a sorted sequence keeps it sorted. */
  lemma {:induction false} InsertSorted(x: Scored, s: seq<Scored>)
    requires SortedDesc(s)
    ensures SortedDesc(Insert(x, s))
    decreases |s|
  {
    if |s| > 0 && s[0].score >= x.score {
      var rest := Insert(x, s[1..]);
      InsertSorted(x, s[1..]);
      var r := [s[0]] + rest;
      forall j | 1 <= j < |r| ensures r[0].score >= r[j].score {
        assert r[j] == rest[j - 1];
        assert r[j] in multiset(rest);
        assert r[j] in multiset(s[1..]) || r[j] == x;
        if r[j] != x {
          var m :| 0 <= m < |s[1..]| && s[1..][m] == r[j];
          assert s[m + 1] == r[j];
        }
      }
    }
  }

  /** A stable sort by descending score. */
  function SortDesc(s: seq<Scored>): (r: seq<Scored>)
    ensures multiset(r) == multiset(s)
    ensures SortedDesc(r)
  {
    if |s| == 0 then [] else
      assert s == s[..|s| - 1] + [s[|s| - 1]];
      InsertSorted(s[|s| - 1], SortDesc(s[..|s| - 1]));
      Insert(s[|s| - 1], SortDesc(s[..|s| - 1]))
  }

  /** The position of the first element with the largest score: a reference definition
      of "the best, ties to the earliest". */
  function FirstMaxIndex(s: seq<Scored>): (k: nat)
    requires |s| > 0
    ensures k < |s|
    ensures forall j :: 0 <= j < |s| ==> s[j].score <= s[k].score
    ensures forall j :: 0 <= j < k ==> s[j].score < s[k].score
  {
    if |s| == 1 then 0
    else
      var k := FirstMaxIndex(s[..|s| - 1]);
      if s[k].score >= s[|s| - 1].score then k else |s| - 1
  }

  /** The head of the stable descending sort is the first element with the largest
      score. */
  lemma {:induction false} SortDescHead(s: seq<Scored>)
    requires |s| > 0
    ensures SortDesc(s)[0] == s[FirstMaxIndex(s)]
    decreases |s|
  {
    if |s| > 1 {
      var init := s[..|s| - 1];
      SortDescHead(init);
      var sorted := SortDesc(init);
      assert sorted[0] == init[FirstMaxIndex(init)];
      assert init[FirstMaxIndex(init)] == s[FirstMaxIndex(init)];
    }
  }

  /** The scored collections, in dict order. */
  function Rankings(names: seq<string>, embeddings: map<string, seq<real>>): (rs: seq<Scored>)
    requires forall c :: c in names ==> c in embeddings
    ensures |rs| == |names|
    ensures forall i :: 0 <= i < |rs| ==> rs[i] == Scored(names[i], SumSquares(embeddings[names[i]]))
  {
    seq(|names|, i requires 0 <= i < |names| => Scored(names[i], SumSquares(embeddings[names[i]])))
  }

  /** The best collection for a prompt: None when there is no collection; otherwise a
      collection whose prompt vector is at least as large as every other's, the earliest
      one among ties. */
  function RankCollections(r: Ranker, prompt: string, vectorize: (Vocabulary, string) -> seq<real>)
    : (best: Option<string>)
    requires Valid(r)
    ensures best.None? <==> |r.names| == 0
    ensures best.Some? ==> exists i :: 0 <= i < |r.names| && r.names[i] == best.value
    ensures best.Some? ==> var e := GenerateEmbeddings(r, prompt, vectorize);
      forall c :: c in r.names ==> SumSquares(e[c]) <= SumSquares(e[best.value])
  {
    var e := GenerateEmbeddings(r, prompt, vectorize);
    var rankings := Rankings(r.names, e);
    var sorted := SortDesc(rankings);
    if |sorted| == 0 then None
    else
      SortDescHead(rankings);
      Some(sorted[0].name)
  }

  /** Ties go to the earliest collection: no collection listed before the chosen one
      scores as much as it. */
  lemma RankCollectionsFirstBest(r: Ranker, prompt: string, vectorize: (Vocabulary, string) -> seq<real>)
    requires Valid(r)
    requires |r.names| > 0
    ensures var e := GenerateEmbeddings(r, prompt, vectorize);
      var k := FirstMaxIndex(Rankings(r.names, e));
      RankCollections(r, prompt, vectorize) == Some(r.names[k])
      && forall j :: 0 <= j < k ==> SumSquares(e[r.names[j]]) < SumSquares(e[r.names[k]])
  {
    var e := GenerateEmbeddings(r, prompt, vectorize);
    SortDescHead(Rankings(r.names, e));
  }
}

=== FILE: vocab.dfy ===
/** The vocabulary builder: n-gram extraction, the significance predicate, the
    frequency filter with an explicit or dynamic threshold, and the clean-up pass that
    strips special characters from the surviving terms and merges their counts. */
module Vocab {
  import opened Text
  import opened Seqs
  import opened Wrappers

  /** The default set of special characters of a vocabulary creator. */
  const DefaultSpecials: string := "!@#$%^&*()_+-=[]{}|;:',.<>?"

  /** A vocabulary creator's configuration: the inclusive n-gram range and the
      characters treated as special. */
  datatype Creator = Creator(ngramMin: int, ngramMax: int, specials: string)

  /** A creator built with no arguments: unigrams and bigrams, default specials. */
  const DefaultCreator: Creator := Creator(1, 2, DefaultSpecials)

  /** Replaces every special character by a space (the character-class substitution
      applied to each text before splitting). */
  function SpecialsToSpaces(text: string, specials: string): (r: string)
    ensures |r| == |text|
    ensures forall i :: 0 <= i < |r| ==> r[i] == ' ' || r[i] !in specials
    ensures forall i :: 0 <= i < |r| ==> (r[i] == text[i] <==> text[i] !in specials || text[i] == ' ')
  {
    seq(|text|, i requires 0 <= i < |text| => if text[i] in specials then ' ' else text[i])
  }

  /** Deletes every special character (the substitution applied to surviving terms). */
  function RemoveSpecials(word: string, specials: string): (r: string)
    ensures FreeOf(r, specials)
    ensures FreeOf(word, specials) ==> r == word
    ensures |r| <= |word|
  {
    if |word| == 0 then ""
    else if word[0] in specials then RemoveSpecials(word[1..], specials)
    else [word[0]] + RemoveSpecials(word[1..], specials)
  }

  /** The n-grams of one size: the space-joined, stripped window `words[i:i + n]` for
      every `i` in `range(len(words) - n + 1)`, with Python's slice semantics. */
  function NgramsOfSize(words: seq<string>, n: int): (gs: seq<string>)
    ensures |gs| == if |words| - n + 1 <= 0 then 0 else |words| - n + 1
  {
    var count := |words| - n + 1;
    if count <= 0 then []
    else seq(count, i requires 0 <= i < count => Strip(JoinSpace(Slice(words, i, i + n))))
  }

  /** The n-grams of every size from `lo` to `hi`, smallest size first. */
  function NgramsInRange(words: seq<string>, lo: int, hi: int): seq<string>
    decreases hi - lo
  {
    if lo > hi then [] else NgramsOfSize(words, lo) + NgramsInRange(words, lo + 1, hi)
  }

  /** The words of one text once its special characters are spaces. */
  function Words(text: string, specials: string): seq<string> {
    Split(SpecialsToSpaces(text, specials))
  }

  function TextNgrams(c: Creator, text: string): seq<string> {
    NgramsInRange(Words(text, c.specials), c.ngramMin, c.ngramMax)
  }

  /** All n-grams of all texts, text by text. */
  function GenerateNgrams(c: Creator, texts: seq<string>): seq<string> {
    if |texts| == 0 then [] else TextNgrams(c, texts[0]) + GenerateNgrams(c, texts[1..])
  }

  /** `str.isdigit()` on ASCII text: non-empty and all digits. */
  predicate IsDigitString(t: string) {
    |t| > 0 && forall i :: 0 <= i < |t| ==> IsDigit(t[i])
  }

  predicate HasAlpha(t: string) {
    exists i :: 0 <= i < |t| && IsAlpha(t[i])
  }

  /** The significance test: not purely numeric, and some alphabetic character. */
  predicate IsSignificant(t: string): (b: bool)
    ensures b <==> HasAlpha(t)
  {
    if IsDigitString(t) then false else HasAlpha(t)
  }

  /** The frequency-and-significance filter applied to each counted n-gram. */
  predicate Keep(count: nat, total: nat, threshold: real, w: string)
    requires total > 0
  {
    (count as real) / (total as real) >= threshold && IsSignificant(w)
  }

  /** The mean count divided by the total: `(total / distinct) / total`. */
  function DynamicThreshold(total: nat, distinct: nat): (t: real)
    requires total > 0 && distinct > 0
    ensures t * (distinct as real) == 1.0
  {
    ((total as real) / (distinct as real)) / (total as real)
  }

  /** The threshold in force: the given one, or the dynamic mean-over-total one. */
  function ThresholdFor(ngrams: seq<string>, threshold: Option<real>): real
    requires |ngrams| > 0
  {
    match threshold
    case Some(t) => t
    case None => DynamicThreshold(|ngrams|, |Distinct(ngrams)|)
  }

  /** The filtered vocabulary as `(term, count)` items in dict order: the distinct
      n-grams in order of first occurrence that pass the filter, with their counts. */
  function FilteredItems(ngrams: seq<string>, threshold: Option<real>): (items: seq<(string, nat)>)
    ensures |ngrams| == 0 ==> items == []
    ensures |ngrams| > 0 ==> forall w :: w in Terms(items) <==>
      w in ngrams && Keep(multiset(ngrams)[w], |ngrams|, ThresholdFor(ngrams, threshold), w)
    ensures forall i :: 0 <= i < |items| ==> items[i].0 in ngrams && items[i].1 == multiset(ngrams)[items[i].0]
    ensures NoDuplicates(Terms(items))
  {
    var counts := CountMap(ngrams);
    var total := |ngrams|;
    if total == 0 then []
    else
      var th := ThresholdFor(ngrams, threshold);
      var kept := Filter(Distinct(ngrams), w => w in counts && Keep(counts[w], total, th, w));
      var items := seq(|kept|, i requires 0 <= i < |kept| => (kept[i], counts[kept[i]]));
      assert Terms(items) == kept;
      items
  }

  function Terms(items: seq<(string, nat)>): (ts: seq<string>)
    ensures |ts| == |items|
    ensures forall i :: 0 <= i < |items| ==> ts[i] == items[i].0
  {
    seq(|items|, i requires 0 <= i < |items| => items[i].0)
  }

  /** The sum of the counts of `items`. */
  function ItemsTotal(items: seq<(string, nat)>): nat {
    if |items| == 0 then 0 else ItemsTotal(items[..|items| - 1]) + items[|items| - 1].1
  }

  /** The special-character clean-up: each term, in dict order, is stored under its
      cleaned form, adding to whatever count that form already has. */
  function MergeCleaned(items: seq<(string, nat)>, specials: string): map<string, nat> {
    if |items| == 0 then map[]
    else
      var acc := MergeCleaned(items[..|items| - 1], specials);
      var (w, n) := items[|items| - 1];
      var c := RemoveSpecials(w, specials);
      acc[c := (if c in acc then acc[c] else 0) + n]
  }

  /** The vocabulary of a list of n-grams: counts, filter, clean-up. */
  function BuildVocab(ngrams: seq<string>, threshold: Option<real>, specials: string): map<string, nat> {
    MergeCleaned(FilteredItems(ngrams, threshold), specials)
  }

  /** Building a vocabulary from texts. */
  function CreateVocab(c: Creator, texts: seq<string>, threshold: Option<real>): map<string, nat> {
    BuildVocab(GenerateNgrams(c, texts), threshold, c.specials)
  }

  // ---------------------------------------------------------------------------
  // Shape of the generated n-grams

  /** Every character of `g` is a plain space or satisfies `p`. */
  ghost predicate SpacesOrChars(g: string, p: char -> bool) {
    forall k :: 0 <= k < |g| ==> g[k] == ' ' || p(g[k])
  }

  /** No character of `g` is special. */
  predicate FreeOf(g: string, specials: string) {
    forall k :: 0 <= k < |g| ==> g[k] !in specials
  }

  /** An n-gram is exactly its window of words joined by single spaces: the `strip()`
      is a no-op, because the words carry no whitespace. */
  lemma NgramIsWindow(words: seq<string>, n: int, i: nat, p: char -> bool)
    requires forall j :: 0 <= j < |words| ==> IsToken(words[j])
    requires AllTokenChars(words, p)
    requires i < |NgramsOfSize(words, n)|
    ensures NgramsOfSize(words, n)[i] == JoinSpace(Slice(words, i, i + n))
    ensures SingleSpaced(NgramsOfSize(words, n)[i])
    ensures SpacesOrChars(NgramsOfSize(words, n)[i], p)
  {
    var window := Slice(words, i, i + n);
    assert forall j :: 0 <= j < |window| ==> IsToken(window[j]) by {
      forall j | 0 <= j < |window| ensures IsToken(window[j]) {
        assert window[j] in words;
      }
    }
    assert AllTokenChars(window, p) by {
      forall j, k | 0 <= j < |window| && 0 <= k < |window[j]| ensures p(window[j][k]) {
        assert window[j] in words;
        var m :| 0 <= m < |words| && words[m] == window[j];
        assert p(words[m][k]);
      }
    }
    JoinSpaceShape(window, p);
    var g := JoinSpace(window);
    assert |g| > 0 ==> !IsSpace(g[0]) && !IsSpace(g[|g| - 1]);
    StripUnchanged(g);
  }

  lemma {:induction false} NgramsInRangeShape(words: seq<string>, lo: int, hi: int, p: char -> bool)
    requires forall j :: 0 <= j < |words| ==> IsToken(words[j])
    requires AllTokenChars(words, p)
    ensures forall g :: g in NgramsInRange(words, lo, hi) ==> SingleSpaced(g) && SpacesOrChars(g, p)
    decreases hi - lo
  {
    if lo <= hi {
      NgramsInRangeShape(words, lo + 1, hi, p);
      var gs := NgramsOfSize(words, lo);
      forall i | 0 <= i < |gs| ensures SingleSpaced(gs[i]) && SpacesOrChars(gs[i], p) {
        NgramIsWindow(words, lo, i, p);
      }
    }
  }

  /** The words of a text carry neither whitespace nor special characters. */
  lemma WordsShape(text: string, specials: string)
    ensures forall j :: 0 <= j < |Words(text, specials)| ==> IsToken(Words(text, specials)[j])
    ensures AllTokenChars(Words(text, specials), ch => ch !in specials)
  {
    SplitChars(SpecialsToSpaces(text, specials), ch => ch !in specials);
  }

  /** Every generated n-gram is single-spaced (so it has no leading or trailing
      whitespace) and its only characters besides the joining spaces are
      non-special. */
  lemma {:induction false} GenerateNgramsShape(c: Creator, texts: seq<string>)
    ensures forall g :: g in GenerateNgrams(c, texts) ==>
      SingleSpaced(g) && SpacesOrChars(g, ch => ch !in c.specials)
    decreases |texts|
  {
    if |texts| > 0 {
      WordsShape(texts[0], c.specials);
      NgramsInRangeShape(Words(texts[0], c.specials), c.ngramMin, c.ngramMax, ch => ch !in c.specials);
      GenerateNgramsShape(c, texts[1..]);
    }
  }

  /** When the space is not itself special, no generated n-gram holds a special
      character or whitespace at either end. */
  lemma NgramsFreeOfSpecials(c: Creator, texts: seq<string>)
    requires ' ' !in c.specials
    ensures forall g :: g in GenerateNgrams(c, texts) ==> FreeOf(g, c.specials)
    ensures forall g :: g in GenerateNgrams(c, texts) && |g| > 0 ==> !IsSpace(g[0]) && !IsSpace(g[|g| - 1])
  {
    GenerateNgramsShape(c, texts);
  }

  /** Adjacent words joined by one space. */
  function Bigrams(ws: seq<string>): (bs: seq<string>)
    ensures |bs| == if |ws| == 0 then 0 else |ws| - 1
  {
    if |ws| <= 1 then [] else seq(|ws| - 1, i requires 0 <= i < |ws| - 1 => ws[i] + " " + ws[i + 1])
  }

  /** The size-1 n-grams of whitespace-free words are the words themselves. */
  lemma UnigramsAreWords(ws: seq<string>)
    requires forall j :: 0 <= j < |ws| ==> IsToken(ws[j])
    ensures NgramsOfSize(ws, 1) == ws
  {
    var uni := NgramsOfSize(ws, 1);
    forall i | 0 <= i < |uni| ensures uni[i] == ws[i] {
      NgramIsWindow(ws, 1, i, ch => true);
      assert Slice(ws, i, i + 1) == [ws[i]];
    }
  }

  /** The size-2 n-grams of whitespace-free words are the adjacent pairs. */
  lemma PairsAreBigrams(ws: seq<string>)
    requires forall j :: 0 <= j < |ws| ==> IsToken(ws[j])
    ensures NgramsOfSize(ws, 2) == Bigrams(ws)
  {
    var bi := NgramsOfSize(ws, 2);
    forall i | 0 <= i < |bi| ensures bi[i] == ws[i] + " " + ws[i + 1] {
      BigramAt(ws, i);
    }
    assert bi == Bigrams(ws);
  }

  lemma BigramAt(ws: seq<string>, i: nat)
    requires forall j :: 0 <= j < |ws| ==> IsToken(ws[j])
    requires i < |NgramsOfSize(ws, 2)|
    ensures i + 1 < |ws| && NgramsOfSize(ws, 2)[i] == ws[i] + " " + ws[i + 1]
  {
    NgramIsWindow(ws, 2, i, ch => true);
    assert Slice(ws, i, i + 2) == [ws[i], ws[i + 1]];
    JoinSpacePair(ws[i], ws[i + 1]);
  }

  lemma JoinSpacePair(a: string, b: string)
    ensures JoinSpace([a, b]) == a + " " + b
  {
    assert [a, b][1..] == [b];
    assert Join([b], " ") == b;
    assert Join([a, b], " ") == a + " " + Join([b], " ");
  }

  /** With the range (1, 2), a text yields its words, then its adjacent word pairs. */
  lemma UnigramsThenBigrams(text: string, specials: string)
    ensures TextNgrams(Creator(1, 2, specials), text)
         == Words(text, specials) + Bigrams(Words(text, specials))
  {
    var ws := Words(text, specials);
    WordsShape(text, specials);
    UnigramsAreWords(ws);
    PairsAreBigrams(ws);
    assert NgramsInRange(ws, 3, 2) == [];
  }

  // ---------------------------------------------------------------------------
  // The special-character clean-up

  /** A cleaned term is present exactly when some item cleans to it. */
  lemma {:induction false} MergeCleanedKeys(items: seq<(string, nat)>, specials: string)
    ensures forall k :: k in MergeCleaned(items, specials) <==>
      exists i :: 0 <= i < |items| && RemoveSpecials(items[i].0, specials) == k
    decreases |items|
  {
    if |items| > 0 {
      var n := |items| - 1;
      var init := items[..n];
      var c := RemoveSpecials(items[n].0, specials);
      var acc := MergeCleaned(init, specials);
      assert MergeCleaned(items, specials) == acc[c := (if c in acc then acc[c] else 0) + items[n].1];
      MergeCleanedKeys(init, specials);
      forall k ensures k in MergeCleaned(items, specials) <==>
        exists i :: 0 <= i < |items| && RemoveSpecials(items[i].0, specials) == k
      {
        if k in MergeCleaned(items, specials) && k != c {
          assert k in acc;
          var i :| 0 <= i < |init| && RemoveSpecials(init[i].0, specials) == k;
          assert items[i] == init[i];
        }
        if exists i :: 0 <= i < |items| && RemoveSpecials(items[i].0, specials) == k {
          var i :| 0 <= i < |items| && RemoveSpecials(items[i].0, specials) == k;
          if i < n {
            assert init[i] == items[i];
          }
        }
      }
    }
  }

  /** Merging never loses or invents a count: the values add up to the items' total. */
  lemma {:induction false} MergeCleanedTotal(items: seq<(string, nat)>, specials: string)
    ensures MapTotal(MergeCleaned(items, specials)) == ItemsTotal(items)
    decreases |items|
  {
    if |items| > 0 {
      var init := items[..|items| - 1];
      MergeCleanedTotal(init, specials);
      var acc := MergeCleaned(init, specials);
      var c := RemoveSpecials(items[|items| - 1].0, specials);
      MapTotalUpdate(acc, c, (if c in acc then acc[c] else 0) + items[|items| - 1].1);
    }
  }

  /** Dropping the last item keeps the terms distinct, and the last term is new. */
  lemma DistinctPrefix(items: seq<(string, nat)>)
    requires |items| > 0 && NoDuplicates(Terms(items))
    ensures NoDuplicates(Terms(items[..|items| - 1]))
    ensures forall i :: 0 <= i < |items| - 1 ==> items[i].0 != items[|items| - 1].0
  {
    var n := |items| - 1;
    var init := items[..n];
    forall i, j | 0 <= i < j < |init| ensures Terms(init)[i] != Terms(init)[j] {
      assert Terms(init)[i] == Terms(items)[i] && Terms(init)[j] == Terms(items)[j];
    }
    forall i | 0 <= i < n ensures items[i].0 != items[n].0 {
      assert Terms(items)[i] != Terms(items)[n];
    }
  }

  /** On distinct terms free of special characters, the clean-up changes nothing:
      every term keeps its own count. */
  lemma {:induction false} MergeCleanedIdentity(items: seq<(string, nat)>, specials: string)
    requires NoDuplicates(Terms(items))
    requires forall i :: 0 <= i < |items| ==> FreeOf(items[i].0, specials)
    ensures forall i :: 0 <= i < |items| ==>
      items[i].0 in MergeCleaned(items, specials) && MergeCleaned(items, specials)[items[i].0] == items[i].1
    decreases |items|
  {
    if |items| > 0 {
      var n := |items| - 1;
      var init := items[..n];
      var w := items[n].0;
      DistinctPrefix(items);
      MergeCleanedIdentity(init, specials);
      MergeCleanedKeys(init, specials);
      var acc := MergeCleaned(init, specials);
      assert w !in acc;
      var m := MergeCleaned(items, specials);
      assert m == acc[w := items[n].1];
      forall i | 0 <= i < n ensures items[i].0 in m && m[items[i].0] == items[i].1 {
        assert init[i] == items[i];
      }
    }
  }

  // ---------------------------------------------------------------------------
  // The vocabulary

  /** On n-grams free of special characters, a term is in the vocabulary iff it occurs,
      its share of all n-grams reaches the threshold in force, and it is significant;
      it keeps its exact count. No n-gram at all yields the empty vocabulary. */
  lemma BuildVocabMembers(ngrams: seq<string>, threshold: Option<real>, specials: string)
    requires forall g :: g in ngrams ==> FreeOf(g, specials)
    ensures |ngrams| == 0 ==> BuildVocab(ngrams, threshold, specials) == map[]
    ensures forall w :: w in BuildVocab(ngrams, threshold, specials) <==>
      w in ngrams && Keep(multiset(ngrams)[w], |ngrams|, ThresholdFor(ngrams, threshold), w)
    ensures forall w :: w in BuildVocab(ngrams, threshold, specials) ==>
      BuildVocab(ngrams, threshold, specials)[w] == multiset(ngrams)[w]
  {
    var items := FilteredItems(ngrams, threshold);
    FilteredItemsFree(ngrams, threshold, specials);
    MergeCleanedFree(items, specials);
    BuildVocabCounts(ngrams, threshold, specials);
  }

  lemma FilteredItemsFree(ngrams: seq<string>, threshold: Option<real>, specials: string)
    requires forall g :: g in ngrams ==> FreeOf(g, specials)
    ensures var items := FilteredItems(ngrams, threshold);
      forall i :: 0 <= i < |items| ==> FreeOf(items[i].0, specials)
  {
  }

  lemma BuildVocabCounts(ngrams: seq<string>, threshold: Option<real>, specials: string)
    requires forall g :: g in ngrams ==> FreeOf(g, specials)
    ensures forall w :: w in BuildVocab(ngrams, threshold, specials) ==>
      BuildVocab(ngrams, threshold, specials)[w] == multiset(ngrams)[w]
  {
    var items := FilteredItems(ngrams, threshold);
    FilteredItemsFree(ngrams, threshold, specials);
    MergeCleanedFree(items, specials);
    MergeCleanedIdentity(items, specials);
    var v := BuildVocab(ngrams, threshold, specials);
    forall w | w in v ensures v[w] == multiset(ngrams)[w] {
      var i :| 0 <= i < |items| && Terms(items)[i] == w;
    }
  }

  /** When no term carries a special character, the clean-up keeps exactly the terms. */
  lemma MergeCleanedFree(items: seq<(string, nat)>, specials: string)
    requires forall i :: 0 <= i < |items| ==> FreeOf(items[i].0, specials)
    ensures forall w :: w in MergeCleaned(items, specials) <==> w in Terms(items)
  {
    MergeCleanedKeys(items, specials);
    var v := MergeCleaned(items, specials);
    forall w | w in v ensures w in Terms(items) {
      var i :| 0 <= i < |items| && RemoveSpecials(items[i].0, specials) == w;
      assert Terms(items)[i] == w;
    }
    forall w | w in Terms(items) ensures w in v {
      var i :| 0 <= i < |items| && Terms(items)[i] == w;
      assert RemoveSpecials(items[i].0, specials) == w;
    }
  }

  /** The count of a term among the generated n-grams. */
  function CountOf(c: Creator, texts: seq<string>, w: string): nat {
    multiset(GenerateNgrams(c, texts))[w]
  }

  /** A term is in the vocabulary iff it was generated, its share of all n-grams reaches
      the threshold in force, and it is significant; it keeps its exact count. */
  lemma CreateVocabMembers(c: Creator, texts: seq<string>, threshold: Option<real>)
    requires ' ' !in c.specials
    ensures var ngrams := GenerateNgrams(c, texts);
      forall w :: w in CreateVocab(c, texts, threshold) <==>
        w in ngrams && Keep(CountOf(c, texts, w), |ngrams|, ThresholdFor(ngrams, threshold), w)
    ensures forall w :: w in CreateVocab(c, texts, threshold) ==>
      CreateVocab(c, texts, threshold)[w] == CountOf(c, texts, w)
  {
    NgramsFreeOfSpecials(c, texts);
    BuildVocabMembers(GenerateNgrams(c, texts), threshold, c.specials);
  }

  /** A stricter threshold never adds a term: the vocabulary's terms at `t2` are among
      those at `t1 <= t2`, so the vocabulary is no larger. */
  lemma ThresholdMonotone(ngrams: seq<string>, specials: string, t1: real, t2: real)
    requires t1 <= t2
    ensures BuildVocab(ngrams, Some(t2), specials).Keys <= BuildVocab(ngrams, Some(t1), specials).Keys
    ensures |BuildVocab(ngrams, Some(t2), specials)| <= |BuildVocab(ngrams, Some(t1), specials)|
  {
    var items1 := FilteredItems(ngrams, Some(t1));
    var items2 := FilteredItems(ngrams, Some(t2));
    MergeCleanedKeys(items1, specials);
    MergeCleanedKeys(items2, specials);
    var v1 := BuildVocab(ngrams, Some(t1), specials);
    var v2 := BuildVocab(ngrams, Some(t2), specials);
    forall k | k in v2 ensures k in v1 {
      var i :| 0 <= i < |items2| && RemoveSpecials(items2[i].0, specials) == k;
      var w := items2[i].0;
      assert w in Terms(items2) by { assert Terms(items2)[i] == w; }
      assert w in Terms(items1);
      var j :| 0 <= j < |items1| && Terms(items1)[j] == w;
    }
    SubsetCard(v2.Keys, v1.Keys);
  }

  /** The same for vocabularies built from texts, for any creator. */
  lemma CreateVocabMonotone(c: Creator, texts: seq<string>, t1: real, t2: real)
    requires t1 <= t2
    ensures CreateVocab(c, texts, Some(t2)).Keys <= CreateVocab(c, texts, Some(t1)).Keys
    ensures |CreateVocab(c, texts, Some(t2))| <= |CreateVocab(c, texts, Some(t1))|
  {
    ThresholdMonotone(GenerateNgrams(c, texts), c.specials, t1, t2);
  }

  lemma MulMono(a: real, b: real, k: real)
    requires k > 0.0
    ensures a >= b <==> a * k >= b * k
  {
  }

  /** A share reaches `1 / distinct` iff the count times `distinct` reaches the total. */
  lemma ShareAtLeastInverse(count: nat, total: nat, distinct: nat, th: real)
    requires total > 0 && distinct > 0
    requires th * (distinct as real) == 1.0
    ensures (count as real) / (total as real) >= th <==> count * distinct >= total
  {
    var x := (count as real) / (total as real);
    var t := total as real;
    var d := distinct as real;
    assert x * t == count as real;
    MulMono(x, th, d);
    MulMono(x * d, 1.0, t);
    assert (x * d) * t == (x * t) * d;
    assert (count * distinct) as real == (count as real) * d;
  }

  /** With no threshold given, the threshold is one over the number of distinct
      n-grams, so a significant term is kept iff its count reaches the mean count. */
  lemma DynamicThresholdIsMean(ngrams: seq<string>, specials: string)
    requires forall g :: g in ngrams ==> FreeOf(g, specials)
    ensures forall w :: w in BuildVocab(ngrams, None, specials) <==>
      w in ngrams && IsSignificant(w) && multiset(ngrams)[w] * |Distinct(ngrams)| >= |ngrams|
  {
    BuildVocabMembers(ngrams, None, specials);
    if |ngrams| > 0 {
      var d := |Distinct(ngrams)|;
      assert ngrams[0] in Distinct(ngrams);
      assert ThresholdFor(ngrams, None) == DynamicThreshold(|ngrams|, d);
      forall w | w in ngrams
        ensures Keep(multiset(ngrams)[w], |ngrams|, DynamicThreshold(|ngrams|, d), w) <==>
          IsSignificant(w) && multiset(ngrams)[w] * d >= |ngrams|
      {
        KeepAtDynamic(multiset(ngrams)[w], |ngrams|, d, w);
      }
    }
  }

  lemma KeepAtDynamic(count: nat, total: nat, distinct: nat, w: string)
    requires total > 0 && distinct > 0
    ensures Keep(count, total, DynamicThreshold(total, distinct), w) <==>
      IsSignificant(w) && count * distinct >= total
  {
    ShareAtLeastInverse(count, total, distinct, DynamicThreshold(total, distinct));
  }

  /** Texts without any word yield no n-gram, hence an empty vocabulary rather than an
      error, whatever the threshold. */
  lemma {:induction false} NoWordsEmptyVocab(c: Creator, texts: seq<string>, threshold: Option<real>)
    requires c.ngramMin >= 1
    requires forall i :: 0 <= i < |texts| ==> Words(texts[i], c.specials) == []
    ensures GenerateNgrams(c, texts) == []
    ensures CreateVocab(c, texts, threshold) == map[]
    decreases |texts|
  {
    if |texts| > 0 {
      NoWordsEmptyVocab(c, texts[1..], threshold);
      NoWindows(c.ngramMin, c.ngramMax);
    }
  }

  lemma {:induction false} NoWindows(lo: int, hi: int)
    requires lo >= 1
    ensures NgramsInRange([], lo, hi) == []
    decreases hi - lo
  {
    if lo <= hi {
      NoWindows(lo + 1, hi);
    }
  }
}

=== FILE: wrappers.dfy ===
/** Failure-compatible wrappers used to model Python's `None` and raised exceptions. */
module Wrappers {

  /** A value that may be absent: Python's `None` versus a present value. */
  datatype Option<+T> = None | Some(value: T) {
    function GetOr(default: T): T {
      match this
      case Some(v) => v
      case None => default
    }
  }

  /** The outcome of a call that either returns a value or raises `error`. */
  datatype Result<+T, +E> = Ok(value: T) | Err(error: E)
}
